=== FILE: README.md ===
# Master-data service, modelled in Dafny

This project models the core of a NestJS master-data service. The service
keeps owners, employees, companies and stores in a Prisma database. It
answers RPC commands and replicates changes to other services over a
RabbitMQ topic exchange.

The model covers these parts:

- **Repositories.** `BaseRepository` is a table of rows with an optional
  `deleted_at` marker. A soft-deleting repository hides marked rows from its
  reads and updates. The owner and employee repositories check that an email
  is unique across both tables. The company repository lists a company's
  contact emails.
- **Services.** The `BaseService` pipeline transforms its input, validates it
  and calls the repository. It answers with a fixed message and status code.
  `bulkCreate` first splits its entries into valid ones and issues. The
  owner, employee, company and store services each fix their own schemas and
  transforms. The store service also upper-cases the store code.
- **DTOs.** Each request DTO constructor copies a fixed set of properties.
  The store DTOs also convert some of them with `new Date`, `parseInt` and
  `parseFloat`. Each DTO has a zod object schema that strips unknown keys.
- **Controllers.** The owner and employee controllers decide which events
  they publish, and when. The replica handlers carry dead-letter options.
  `passwordChanged` decides how the message is acknowledged.
- **Startup and seeding.** `main.ts` consumes one queue and binds it to a
  list of routing keys. Topic matching follows section 3.1.3.3 of the AMQP
  0-9-1 specification. The seeder creates a default owner and announces it.
- **Errors.** When the RPC exception filter is invoked, it turns the escaping
  exception into one fixed error object. `main.ts` registers it on the HTTP
  application only, so it does not reach the microservice handlers (see
  "## Findings").

JavaScript values are the `JsValue.Value` datatype. `undefined` and `null`
are kept apart, and a thrown exception is an `Outcome.Throw`. Some pieces are
abstract fields of the `Runtime`, `Formats` and `Service.Env` datatypes:

- number formatting;
- `parseFloat`;
- date parsing;
- the Unicode upper-case table outside ASCII;
- zod's email and uuid grammars;
- the text of zod's error;
- which rows the database's schema admits.

String lengths are JavaScript's: UTF-16 code units (`JsValue.CodeUnits`).
Database ids and the current time are parameters.

## Model

| member | source | states |
|---|---|---|
| Repository.RowValue | src/repositories/base.repository.ts:15-20 | the record Prisma returns holds the stored columns, the row's id, and `deleted_at` (null while the row is live) |
| Repository.Create | src/repositories/base.repository.ts:15-20 | create throws iff the database refuses the row (a missing required column or a dangling foreign key, the abstract `admits`) or the id is taken; otherwise it adds one live row holding the data without its `undefined` properties, and returns that record |
| Repository.FindAll | src/repositories/base.repository.ts:23-29 | findAll returns exactly the live rows when soft delete is on, and every row otherwise, each unchanged |
| Repository.FindOne | src/repositories/base.repository.ts:32-37 | findOne returns a record iff the `where` clause matches (id present, and live under soft delete); the record is that row's |
| Repository.Update | src/repositories/base.repository.ts:40-46 | update throws "Record to update not found." iff the row is not visible, and otherwise throws iff the database refuses the updated row (the abstract `admits`); a successful update overwrites exactly the given columns, keeps the row's other columns and its delete marker, and leaves other rows alone |
| Repository.Delete | src/repositories/base.repository.ts:49-59 | delete throws iff the id is unknown; a soft delete stamps `deleted_at` on that row (live or not), a hard delete removes it |
| Repository.Restore | src/repositories/base.repository.ts:62-67 | restore clears the marker of any existing row and throws on an unknown id |
| Repository.IncludeLive | src/repositories/company.repository.ts:8-15 | an included relation holds exactly the live child rows whose foreign key names the parent |
| Repository.SoftDeleteHides | src/repositories/base.repository.ts:49-55 | a soft delete keeps the row and its columns, hides it from findOne and findAll, and changes no other row |
| Repository.HardDeleteRemoves | src/repositories/base.repository.ts:56-58 | a hard delete removes exactly that row |
| Repository.DeleteThenRestore | src/repositories/base.repository.ts:49-67 | soft-deleting a live row and then restoring it gives back the original table and findOne result |
| Repository.UpdateThenFindOne | src/repositories/base.repository.ts:32-46 | after a successful update, findOne returns the record update returned |
| Repository.CreateThenFindOne | src/repositories/base.repository.ts:15-37 | after a create, findOne returns the created record |
| OwnerRepository.Count | src/repositories/owner.repository.ts:31-45 | a count is zero iff no row matches the email, where an `undefined` email matches every row |
| OwnerRepository.CheckUnique | src/repositories/owner.repository.ts:31-45 | checkUnique holds iff no owner and no employee row matches the email, soft-deleted rows included |
| OwnerRepository.Create | src/repositories/owner.repository.ts:19-25 | a taken email gives `null` and no write; a free one gives the base create's result |
| OwnerRepository.NewEmailIsFree | src/repositories/owner.repository.ts:19-25 | when checkUnique passes, the row create writes has an email no existing owner or employee has |
| OwnerRepository.CreateFreshEmail | src/repositories/owner.repository.ts:19-25 | with an unused email, the insert succeeds iff the database admits the row and the id is fresh; the owner is then inserted live, and findOne returns it |
| OwnerRepository.CreateTakenEmail | src/repositories/owner.repository.ts:19-45 | an email already held by any owner or employee, even a deleted one, makes create return `null` with the table unchanged |
| OwnerRepository.CreateKeepsEmailsUnique | src/repositories/owner.repository.ts:19-45 | creating an owner keeps emails unique across owners and employees |
| EmployeeRepository.Rethrown | src/repositories/employee.repository.ts:20-21 | a rethrown error is an `Error` whose message is the prefix followed by the original message |
| EmployeeRepository.Create | src/repositories/employee.repository.ts:12-22 | every failure carries the "Create failed: " prefix; a taken email is "Create failed: Email already exists"; with a free email the insert succeeds iff the database admits the row and the id is new, and a refused row is rethrown with the prefix |
| EmployeeRepository.Update | src/repositories/employee.repository.ts:24-33 | an update succeeds iff the id exists, deleted or not, and the database admits the updated row; a refused row is rethrown, and every failure carries the "Update failed: " prefix |
| EmployeeRepository.UpdateReachesDeleted | src/repositories/employee.repository.ts:24-33 | a soft-deleted employee is still updated whenever the database admits the updated row, where the base update of the same table fails with "Record to update not found." |
| EmployeeRepository.CreateTakenEmail | src/repositories/employee.repository.ts:12-22 | an email held by any owner or employee makes create throw "Create failed: Email already exists" |
| EmployeeRepository.CreateKeepsEmailsUnique | src/repositories/employee.repository.ts:12-49 | creating an employee keeps emails unique across owners and employees |
| CompanyRepository.Stores | src/repositories/company.repository.ts:9-13 | a company read includes exactly that company's live stores |
| CompanyRepository.EmployeeEmailsCount | src/repositories/company.repository.ts:42-45 | the employee part of the contact list has one entry per employee of the owner, duplicates kept |
| CompanyRepository.OwnedAmongCons | src/repositories/company.repository.ts:42-45 | the owner's employees in a listing are the first one, when owned, followed by the owned ones of the rest |
| CompanyRepository.EmployeeEmailsInclude | src/repositories/company.repository.ts:42-45 | every employee of the owner contributes its email, whether live or soft-deleted |
| CompanyRepository.OwnerOf | src/repositories/company.repository.ts:38 | the owner of a company is found iff the company names an existing owner |
| CompanyRepository.FindAllEmails | src/repositories/company.repository.ts:19-48 | an unknown company gives `[]`; a company without an owner throws reading `email` of `null`; otherwise the list is the owner's email followed by its employees' emails |
| CompanyRepository.FindAllEmailsLength | src/repositories/company.repository.ts:38-45 | a company's contact list is one longer than the number of its owner's employees, soft-deleted ones counted |
| JsText.NewDate | src/store/dto/create-store.dto.ts:41 | `new Date(undefined)` is an Invalid Date and `new Date(null)` is the epoch |
| JsText.ParseFloatOfString | src/store/dto/update-store.dto.ts:37-38 | `parseFloat(v.toString())` throws iff `v` is `undefined` or `null`, and otherwise is a number or NaN |
| JsValue.CodeUnits | src/owner/dto/create-owner.dto.ts:15-17 | a string's JavaScript length counts UTF-16 code units: between one and two per character |
| JsValue.CodeUnitsOfBmp | src/owner/dto/create-owner.dto.ts:15-17 | within the Basic Multilingual Plane the JavaScript length is the number of characters |
| JsValue.EmojiLength | src/owner/dto/create-owner.dto.ts:15 | three emoji are six UTF-16 code units long |
| Zod.EmojiPassesMinimum | src/owner/dto/create-owner.dto.ts:15 | a name of three emoji, three characters, passes the `min(5)` length check, because zod counts code units |
| JsText.ToUpperCase | src/store/store.service.ts:34 | upper-casing replaces each character by its mapping: ASCII text keeps its length and has its letters mapped; other characters follow the runtime's Unicode table and may grow, as 'ß' does |
| JsText.ToUpperCaseConcat | src/store/store.service.ts:34 | upper-casing a concatenation upper-cases each part on its own |
| JsText.ToUpperCaseIdempotent | src/store/store.service.ts:34 | when the Unicode table maps each character to text that is already upper case, upper-casing twice is upper-casing once |
| JsText.AsciiUpperCaseLength | src/store/store.service.ts:34 | an ASCII text upper-cased has as many code units as it has characters |
| JsText.ParseInt | src/store/dto/create-store.dto.ts:48 | `parseInt` yields a number or NaN; `undefined` and `null` give NaN; on a string, NaN iff no digits lead the trimmed text |
| JsText.ParseIntRoundTrip | src/store/dto/create-store.dto.ts:48 | `parseInt` of the decimal text of any integer gives that integer back |
| JsText.ParseIntOfIntToString | src/store/dto/update-store.dto.ts:43 | `parseInt` reads an integer's text back even when other non-digit text follows it |
| Zod.AcceptsEveryField | src/owner/dto/create-owner.dto.ts:13-19 | an object schema accepts a value iff each of its fields accepts the property of the same name |
| Zod.AcceptsConcat | src/store/dto/create-store.dto.ts:53-71 | a schema made of two parts accepts exactly what both parts accept |
| Zod.Parse | src/owner/dto/create-owner.dto.ts:13-19 | parse succeeds iff the value is an object the schema accepts; on success it keeps only the schema's keys, and otherwise throws zod's error |
| OwnerDto.CreateOwnerRequest | src/owner/dto/create-owner.dto.ts:7-11 | the DTO holds exactly name, email and password, each copied from the input |
| OwnerDto.CreateOwnerValid | src/owner/dto/create-owner.dto.ts:13-19 | valid iff name has 5..255 characters, email is an email, and password has 8..50 characters |
| OwnerDto.UpdateOwnerRequest | src/owner/dto/update-owner.dto.ts:6-9 | the DTO holds exactly name and password, so never an email |
| OwnerDto.UpdateOwnerValid | src/owner/dto/update-owner.dto.ts:11-16 | valid iff name and password are each absent, null, or within the create bounds |
| EmployeeDto.CreateEmployeeRequest | src/employee/dto/create-employee.dto.ts:7-11 | the DTO holds exactly name, email and owner_id, copied from the input |
| EmployeeDto.CreateEmployeeValid | src/employee/dto/create-employee.dto.ts:13-19 | valid iff name has 5..255 characters, email is an email, and owner_id is a uuid |
| EmployeeDto.UpdateEmployeeRequest | src/employee/dto/update-employee.dto.ts:6-9 | the DTO holds exactly name and password |
| EmployeeDto.UpdateEmployeeValid | src/employee/dto/update-employee.dto.ts:11-16 | valid iff name is absent or has 5..255 characters, and password is absent or has 8..255 characters; null is not accepted |
| CompanyDto.CreateCompanyRequest | src/company/dto/create-company.dto.ts:7-11 | the DTO holds exactly code, name and owner_id |
| CompanyDto.CreateCompanyValid | src/company/dto/create-company.dto.ts:13-19 | valid iff code has at most 5 characters, name has 5..255, and owner_id is a uuid |
| CompanyDto.UpdateCompanyRequest | src/company/dto/update-company.dto.ts:6-9 | the DTO holds exactly code and name |
| CompanyDto.UpdateCompanyValid | src/company/dto/update-company.dto.ts:11-16 | valid iff code and name are each absent or within bounds; the empty object is valid |
| StoreDto.CreateStoreRequest | src/store/dto/create-store.dto.ts:19-51 | as written: 13 properties are copied, open_date becomes `new Date(open_date)`, and poin_config becomes `parseInt(poin_config)` |
| StoreDto.CreateStoreRequestIntended | src/store/dto/create-store.dto.ts:19-51 | as intended: the same, except that an absent or null poin_config is passed through unparsed |
| StoreDto.CreateStoreIdentityAccepts | src/store/dto/create-store.dto.ts:55-59 | the code, name, company, npwp and address fields accept iff each property meets its bounds |
| StoreDto.CreateStoreLocationAccepts | src/store/dto/create-store.dto.ts:60-64 | accepts iff open_date is a valid date, longitude is in [-180, 180], latitude is in [-90, 90], and description and is_active are each absent, null or of their kind |
| StoreDto.CreateStoreSettingsAccepts | src/store/dto/create-store.dto.ts:65-69 | accepts iff the price flags, poin_config and tax_percentage are each absent, null or of their kind, and logo is a string of at most 255 characters |
| StoreDto.CreateStoreValid | src/store/dto/create-store.dto.ts:53-71 | the create-store schema accepts iff all fifteen field conditions hold |
| StoreDto.CreateStoreValidIgnoresPoin | src/store/dto/create-store.dto.ts:67 | two requests that differ only in a point configuration that is absent, null or a number are both valid or both invalid |
| StoreDto.CreateStoreWithoutPoinConfigRejected | src/store/dto/create-store.dto.ts:48 | as written, a body without poin_config (or with null) is always rejected |
| StoreDto.CreateStoreSendingZeroPoin | src/store/dto/create-store.dto.ts:19-51 | as intended, sending "0" for an absent point configuration changes no other property of the request |
| StoreDto.CreateStorePoinConfigOptional | src/store/dto/create-store.dto.ts:67 | as intended, leaving poin_config out is valid exactly when sending "0" would be |
| StoreDto.UpdateStoreRequest | src/store/dto/update-store.dto.ts:17-45 | as written, the constructor throws iff longitude or latitude is absent or null; otherwise it copies 9 properties and converts open_date, the coordinates and poin_config |
| StoreDto.Coordinate | src/store/dto/update-store.dto.ts:37-38 | a given coordinate is converted by `parseFloat` of its string form |
| StoreDto.UpdateStoreRequestIntended | src/store/dto/update-store.dto.ts:17-45 | as intended, only the given properties are converted, and absent or null ones are passed through |
| StoreDto.UpdateStoreIdentityAccepts | src/store/dto/update-store.dto.ts:49-52 | code, name, npwp and address accept iff each is absent or meets its bounds |
| StoreDto.UpdateStoreLocationAccepts | src/store/dto/update-store.dto.ts:53-55 | open_date accepts iff absent or a valid date, and each coordinate iff absent or a number, without the create ranges |
| StoreDto.UpdateStoreSettingsAccepts | src/store/dto/update-store.dto.ts:56-61 | the optional settings and the nullable logo accept iff each property is absent (or null where allowed) or of its kind |
| StoreDto.UpdateStoreValid | src/store/dto/update-store.dto.ts:47-63 | the update-store schema accepts iff every field condition holds |
| StoreDto.RenameOnlyUpdateThrows | src/store/dto/update-store.dto.ts:37-38 | as written, an update carrying only a name throws in the constructor |
| StoreDto.UpdateStoreWithoutDateOrPoinRejected | src/store/dto/update-store.dto.ts:36-43 | as written, an update without open_date, or without poin_config, is rejected by the schema |
| StoreDto.RenameOnlyUpdateIntended | src/store/dto/update-store.dto.ts:47-63 | as intended, an update carrying only a name is valid iff the name has at least 5 characters |
| Service.Apply | src/base.service.ts:12-18 | the default transform is the identity, and only the as-written store update transform can throw |
| Service.Validate | src/base.service.ts:23 | validation succeeds iff the schema accepts the data; it then keeps the schema's keys, and otherwise throws zod's error |
| Service.RepoCreate | src/base.service.ts:24 | an owner with a taken email is `null` with nothing written; otherwise the create succeeds iff the row is insertable (fresh id, admitted by the database, and for an employee an unused email), writing one live row and returning its record |
| Service.RepoUpdate | src/base.service.ts:54 | on a visible row the repository update succeeds iff the database admits the updated row, and then writes the validated columns into it and leaves the other tables alone |
| Service.Create | src/base.service.ts:21-29 | a failed transform or validation throws; the answer is 500 "Failed to create new data", with nothing written, iff the entity is the owner and the email is taken; otherwise the create succeeds iff the row is insertable, and 201 "New Data Created!" adds exactly the validated row to the entity's table, leaves the other tables alone, and returns its record |
| Service.CreateSucceeded | src/base.service.ts:21-29 | a successful create is 201 and its record is the new row, which findOne then finds |
| Service.FindAll | src/base.service.ts:32-35 | findAll is always 200 with exactly the live rows |
| Service.FindOne | src/base.service.ts:38-44 | 404 iff no live row has the id, else 200 "Data found!" with its record |
| Service.Update | src/base.service.ts:47-56 | the transform runs first; an unknown id is then 404 with nothing written; for a live row a rejected body throws zod's error, and the update succeeds iff the body validates and the database admits the updated row; a success writes exactly the validated columns over that row, leaves every other row and table alone, and answers 200 "Data Updated!" with the record findOne now returns |
| Service.UpdateValidates | src/base.service.ts:47-56 | on a live row, an update succeeds iff the transform returns, the update schema accepts its result, and the database admits the row the validated columns make |
| Service.Delete | src/base.service.ts:59-66 | an unknown or deleted id is 404 with nothing changed; otherwise the row is marked deleted and the record as it was is returned with 200 |
| Service.StoreCreate | src/store/store.service.ts:33-36 | a missing or null code throws reading `toUpperCase`; a string code is upper-cased before the base create |
| Service.IssueText | src/base.service.ts:81 | an issue's text is never empty |
| Service.Partition | src/base.service.ts:70-86 | one item or issue per entry: every valid item is the parse of some entry, every issue is the key of an entry whose parse failed with its error text, and no item is valid iff every entry fails |
| Service.SplitSound | src/base.service.ts:70-86 | the validation pass yields only parses of entries and issues of failed entries, and no item iff every parse failed |
| Service.PartitionInOrder | src/base.service.ts:70-86 | the valid items are exactly the parses of the valid entries, in entry order, and the issues are those of the invalid entries, in entry order |
| Service.RepoInserts | src/base.service.ts:95 | the repository create used by bulkCreate adds exactly one new live row per record it returns, and returns that row's record |
| Service.InsertOne | src/base.service.ts:95 | one insert gives the record (with its row added), `null` for an owner whose email is taken, or `undefined` when it throws, and then nothing is written |
| Service.CreateAll | src/base.service.ts:92-96 | one result per valid item |
| Service.CreateAllResults | src/base.service.ts:92-96 | the inserts fail iff some result is `undefined`, and every result is a record, `null` or `undefined` |
| Service.CreateAllKeeps | src/base.service.ts:92-96 | the rows the table held before are kept unchanged |
| Service.CreateAllOthersUntouched | src/base.service.ts:92-96 | the tables of the other entities are untouched |
| Service.CreateAllRows | src/base.service.ts:92-96 | each item whose result is a record has its row, live and holding its columns, under its id |
| Service.CreateAllRecords | src/base.service.ts:92-100 | each record result is the new row of its item under its id |
| Service.CreateAllNoOthers | src/base.service.ts:92-96 | every row that is new after the inserts belongs to an item whose result is a record |
| Service.CreateAllWritesAll | src/base.service.ts:92-96 | when no insert fails, outside the owner table, the table is the old rows plus exactly one row per item, under its id and holding its columns |
| Service.BulkInsert | src/base.service.ts:94-96 | one result per valid item, and a failure iff some result is `undefined` |
| Service.BulkCreate | src/base.service.ts:68-106 | no valid entry is 400 with the issues and nothing written; otherwise 500 "Failed to insert data." iff some insert threw, and 201 "New n Data Created!" with the n results otherwise |
| Service.BulkCreateWritesValidEntries | src/base.service.ts:68-106 | a 201 bulk create outside the owner table adds exactly the valid entries' rows, in entry order under the generated ids, and keeps the old rows |
| ServiceProperties.OwnerCreateInput | src/owner/owner.service.ts:21-23 | the email an owner create writes is the email the caller sent |
| ServiceProperties.OwnerDuplicateCreate | src/owner/owner.service.ts:21-23 | a valid owner create with a taken email is the 500 response, with nothing written |
| ServiceProperties.EmployeeDuplicateCreate | src/employee/employee.service.ts:9-12 | a valid employee create with a taken email throws "Create failed: Email already exists" |
| ServiceProperties.OwnerUpdateKeepsEmail | src/owner/owner.service.ts:25-27 | an owner update never changes any stored email |
| ServiceProperties.OwnerUpdateKeepsEmailsUnique | src/owner/owner.service.ts:25-27 | owner updates keep emails unique across owners and employees |
| ServiceProperties.CompanyUpdateNeedsFullRecord | src/company/company.service.ts:10-11 | an update of an existing company succeeds iff the body is a valid company creation and the database admits the updated row |
| ServiceProperties.DanglingOwnerCompanyUpdateFails | src/company/company.service.ts:11 | a valid company body whose owner_id names no owner, which the owner relation refuses, makes the update throw |
| ServiceProperties.CodeOnlyCompanyUpdateFails | src/company/company.service.ts:11 | an update of a company that carries only a code throws |
| ServiceProperties.DeleteTwice | src/base.service.ts:59-66 | deleting the same id twice answers 404 the second time and changes nothing more |
| ServiceProperties.OwnerCreateIgnoresOtherFields | src/owner/owner.service.ts:21-23 | an owner create reads only name, email and password |
| ServiceProperties.StoreUpdateUnknownId | src/store/store.service.ts:29-31 | as written, a store update without coordinates throws even for an unknown id; as intended it is 404 |
| ServiceProperties.StoreCreateUpperCaseCode | src/store/store.service.ts:33-36 | when the Unicode table is stable, a code sent already upper-cased reaches the base create unchanged |
| ServiceProperties.StoreCodeLimitSeesSentLength | src/store/store.service.ts:34 | for an ASCII code, the five-character limit applies to the code as it was sent |
| ServiceProperties.StoreCodeLimitSeesUpperCasedLength | src/store/store.service.ts:34 | the limit sees the upper-cased code: "ßßß" has three characters but fails `max(5)` once it becomes "SSSSSS" |
| ServiceProperties.OwnerServiceWiring | src/owner/owner.service.ts:9-27 | the owner service (`Service.OwnerService`: the owner repository, schemas and DTO constructors): a create validates iff the create-owner DTO of the body is valid, and an update of a live owner succeeds iff the update-owner DTO of the body is valid and the database admits the updated row |
| ServiceProperties.EmployeeServiceWiring | src/employee/employee.service.ts:9-12 | the employee service (`Service.EmployeeService`, no transform): a create validates iff the body is a valid create-employee body, and an update of a live employee succeeds iff it is a valid update body and the database admits the updated row |
| ServiceProperties.CompanyServiceWiring | src/company/company.service.ts:8-11 | the company service (`Service.CompanyService`, updates checked by the create schema): a create validates iff the body is a valid create-company body, and an update of a live company succeeds iff it is and the database admits the updated row |
| ServiceProperties.StoreServiceCreateWiring | src/store/store.service.ts:12-27 | as written (`Service.StoreService`, the DTO constructors as the source has them): a store create validates iff the create-store DTO of the body is valid |
| ServiceProperties.StoreServiceUpdateWiring | src/store/store.service.ts:12-31 | as written: an update of a live store succeeds iff the update-store constructor returns, its result is valid, and the database admits the updated row |
| ServiceProperties.StoreServiceIntendedCreateWiring | src/store/store.service.ts:12-27 | as intended (`Service.StoreServiceIntended`, the corrected DTO constructors): a store create validates iff the corrected create-store DTO of the body is valid |
| ServiceProperties.StoreServiceIntendedUpdateWiring | src/store/store.service.ts:12-31 | as intended, an update of a live store succeeds iff the corrected update-store DTO of the body is valid and the database admits the updated row |
| Messaging.Envelope | src/employee/employee.controller.ts:57-60 | the employee event payload is exactly `{ data, user }` |
| OwnerController.Create | src/owner/owner.controller.ts:41-49 | the response is the service's; `owner.created` is published iff the create succeeded, carrying the record findOne returns |
| OwnerController.Update | src/owner/owner.controller.ts:72-84 | `owner.updated` is published iff the update succeeded and the body's password is truthy, carrying the updated record |
| OwnerController.Delete | src/owner/owner.controller.ts:107-115 | `owner.deleted` is published iff the owner was live, carrying the record as it was before the delete |
| OwnerController.HandlersFollowDlqConvention | src/owner/owner.controller.ts:51-133 | each owner replica handler uses its pattern as its queue, with dead letters routed to `dlq.` followed by that queue |
| OwnerController.ReplicaIdOfPublishedRecord | src/owner/owner.controller.ts:93 | reading `data.id` from a published owner record gives the id of the row that changed |
| EmployeeController.Create | src/employee/employee.controller.ts:50-63 | owner_id is overwritten with the acting user; the handler throws iff the service create throws, with the same exception; on success the stored row's owner is the actor, and `employee.created` carries `{ data: record, user: actor }` |
| EmployeeController.Update | src/employee/employee.controller.ts:86-101 | `employee.updated` is published iff the update succeeded and the password is truthy, carrying `{ data: record, user }` |
| EmployeeController.Delete | src/employee/employee.controller.ts:123-133 | `employee.deleted` is published iff the employee was live, carrying `{ data: id, user }` |
| EmployeeController.HandlersFollowDlqConvention | src/employee/employee.controller.ts:66-151 | each employee replica handler follows the dead-letter convention |
| EmployeeController.CreateReplicaFollowsDlqConvention | src/employee/employee.controller.ts:76-78 | the `employee.created` handler consumes its own queue and dead-letters to `dlq.employee.created` |
| EmployeeController.UpdateReplicaFollowsDlqConvention | src/employee/employee.controller.ts:113-115 | the `employee.updated` handler consumes its own queue and dead-letters to `dlq.employee.updated` |
| EmployeeController.DeleteReplicaFollowsDlqConvention | src/employee/employee.controller.ts:145-147 | the `employee.deleted` handler consumes its own queue and dead-letters to `dlq.employee.deleted` |
| EmployeeController.UpdateReplicaIdOfPublished | src/employee/employee.controller.ts:110 | reading `data.data.id` from an `employee.updated` payload gives the updated row's id |
| EmployeeController.DeleteReplicaIdAsWritten | src/employee/employee.controller.ts:142 | as written, the id handed to the service is the whole payload, so for an object payload it is never a string |
| EmployeeController.DeleteReplicaAsWrittenMissesId | src/employee/employee.controller.ts:126-142 | as written, the id read from a published `employee.deleted` event is never the deleted id |
| EmployeeController.DeleteReplicaId | src/employee/employee.controller.ts:142 | as intended, the id is `data.data`, and reading it throws only on a missing payload |
| EmployeeController.DeleteReplicaIdOfPublished | src/employee/employee.controller.ts:126-142 | as intended, the replica reads back exactly the id of the deleted employee |
| EmployeeController.PasswordChanged | src/employee/employee.controller.ts:153-176 | a missing or null payload throws reading `created_at` before the service runs; otherwise the message is acked iff the service answers with success, nacked iff the service throws, and left alone otherwise |
| RpcFilter.Catch | src/exception/rpc-exception.filter.ts:5-19 | when invoked, the filter turns every exception into 500 "Internal server error", whose error is the `Error` message or the thrown value, and whose data is the input when truthy and otherwise null |
| RpcFilter.Escape | src/main.ts:9 | a handler's exception gets the filter's answer exactly when the startup's global filter covers the handler's application; otherwise the exception escapes unchanged |
| RpcFilter.DuplicateEmployeeCreateThrows | src/employee/employee.controller.ts:50-54 | an employee create with a taken email throws exactly "Create failed: Email already exists" out of the handler |
| RpcFilter.DuplicateEmployeeCreateEscapes | src/main.ts:9-32 | with the microservices connected as written, that throw escapes a TCP or RabbitMQ handler unfiltered |
| RpcFilter.DuplicateEmployeeCreateCaught | src/exception/rpc-exception.filter.ts:5-19 | with the microservices connected with `inheritAppConfig`, the filter answers that throw with 500 "Internal server error", "Create failed: Email already exists" as the error and the RPC input as the data |
| Seeder.ExchangeName | prisma/seeder/owner.seeder.ts:13 | the configured exchange is used when it is non-empty, and "events_broadcast" otherwise |
| Seeder.PublishEvent | prisma/seeder/owner.seeder.ts:7-31 | publishEvent first asserts a durable topic exchange, then publishes `{ pattern, data }` under the pattern with retry count 0 and origin queue "master_service_queue_1" |
| Seeder.SeedRowWritten | prisma/seeder/owner.seeder.ts:44-50 | the seed row is written as given and makes the seed owner exist |
| Seeder.Seed | prisma/seeder/owner.seeder.ts:33-59 | nothing happens when an owner has the seed email; otherwise the create succeeds iff the database admits the row and the id is fresh, and then the owner is created and `owner.created` is published with `{ data: record, user: id }` |
| Seeder.SeedIdempotent | prisma/seeder/owner.seeder.ts:35-43 | seeding a second time creates and publishes nothing |
| Seeder.SeedPayloadWrapsRecord | prisma/seeder/owner.seeder.ts:53-56 | the seeder's `owner.created` payload wraps the record, so `data.id` is undefined there, while it is the id in the controller's payload |
| Topology.QueueName | src/main.ts:22 | the configured queue is used when it is non-empty, and "master_service_queue_1" otherwise |
| Topology.Options | src/main.ts:23-31 | the service consumes that queue with manual acknowledgement, declared durable |
| Topology.Bootstrap | src/main.ts:7-43 | startup ends by subscribing the queue to the routing keys and then starting every microservice; the global filter is registered on the HTTP application, and neither microservice inherits it |
| Topology.BootstrapIntended | src/main.ts:7-43 | the same startup with both microservices connected with `inheritAppConfig`, so the filter covers every transport |
| Topology.DefaultQueueIsSeederOrigin | src/main.ts:22 | the default queue is the origin queue the seeder names |
| Topology.Words | src/main.ts:34-40 | a key always has at least one dot-separated word |
| Topology.WordsOfDotted | src/main.ts:34-40 | splitting `w.rest` gives `w` followed by the words of `rest` |
| Topology.OneWordWildcard | src/main.ts:36-39 | a binding `w.*` matches exactly the two-word keys whose first word is `w` |
| Topology.LiteralBinding | src/main.ts:35 | a binding without wildcards matches exactly its own words |
| Topology.EntityBinding | src/main.ts:36-39 | `entity.*` binds `entity.event` |
| Topology.OwnerPatternsAreBound | src/main.ts:38 | every owner replica pattern is routed to the service's queue |
| Topology.EmployeePatternsAreBound | src/main.ts:39 | every employee replica pattern is routed to the service's queue |
| Topology.PasswordChangedIsBound | src/main.ts:35 | `password.changed` is routed to the service's queue |
| Topology.FirstWordMismatch | src/main.ts:34-40 | a binding that starts with a plain word misses every key whose first word differs |
| Topology.BindingWords | src/main.ts:34-40 | each binding key is two words, and the first is a plain word other than `dlq` |
| Topology.DeadLettersAreNotBound | src/main.ts:34-41 | no binding routes a `dlq.` dead-letter key back to the service's own queue |

## Left out

- The RabbitMQ helper (publishing, `setupSubscriptionQueue`, `handleMessageProcessing`) is not part of this model. Retries and dead-lettering inside it are not modelled; only the options the handlers pass to it are.
- `createReplica` and `passwordChanged` on the services are not part of this model (the services shown do not define them). `PasswordChanged` takes the service's outcome as a parameter.
- The repository methods the services do not call are not modelled: the filtered findAll, `count` and `bulkCreate`.
- I/O is not modelled: database and broker connections, the HTTP calls of `notifyMarketplace` and `notifyMarketplaceUpdate`, console logging, and `bcrypt` (the seed password hash is a parameter).
- `parseFloat`, number formatting and date parsing stay abstract (`JsText.Runtime`), and so do zod's email and uuid grammars and its error text (`Zod.Formats`). Numbers are reals; floating-point rounding is not modelled.
- JsText.ToUpperCase: the Unicode upper-case table for characters outside ASCII is the runtime's `upperCaseOf` field, not written out. Idempotence (`ToUpperCaseIdempotent`, `StoreCreateUpperCaseCode`) is stated for tables that map every character to text that is already upper case (`CaseMappingStable`).
- Repository.Create: the columns the Prisma schema requires and its foreign keys are the abstract predicate `admits` of a row, for a created row and for an updated one (`Repository.Update`). The schema itself (schema.prisma) is not part of this model, so which rows it refuses is not spelled out.
- The error texts of Prisma (`Repository.NotFound`, `Repository.UniqueViolation`, `Repository.SchemaViolation`, `Repository.UpdateViolation`) stand in for the real ones.
- Relations that reads include are not modelled beyond the live-store filter (`CompanyRepository.Stores`); the records returned do not carry them.
- `CustomResponse` and `ValidationService` are not part of this model. Responses are `{ success, message, data, statusCode }`, and validation is the schema's parse.
- An RPC payload is the parsed `Command` record. Malformed envelopes (a missing `params` or `user`) are not modelled.
- The company and store controllers, store.repository.ts, the findAll and findOne controller handlers, and the TCP microservice options are wiring only and are not modelled.
- Service.CreateAll: `Promise.all` runs the inserts in parallel. The model runs them in order and reports the first failure in that order. Rows written by other inserts stay written in both. Running in order also removes the race in the email check: under `Promise.all` every owner or employee create counts the email before any insert commits (src/repositories/owner.repository.ts:20, src/repositories/employee.repository.ts:14). So two valid entries with the same new email can both pass the check, giving two rows or a unique-constraint failure that turns the whole batch into a 500. In the model the second insert sees the first: an owner create answers `null` within a 201, and an employee create throws "Create failed: Email already exists".
- Service.BulkCreate: `Object.entries` order is taken to be the order of the given entry sequence, and the ids come from a generator parameter.
- EmployeeController.PasswordChanged: reading `created_at` from the payload is modelled, because it throws on a missing payload. The rest of the `sanitizedData` object is never used, so it is not modelled.
- Service.FindAll: the employee controller's `owner_id` filter is ignored, because the base repository's findAll takes no filter. The model returns all live rows.

## Findings

| source | as written | input that shows it | evidently intended | confidence | as-written member | corrected member |
|---|---|---|---|---|---|---|
| src/employee/employee.controller.ts:142 | `deleteReplica` calls `service.delete(data)` with the whole event payload `{ data: id, user }` as the id | any `employee.deleted` event, e.g. `{ data: "e1", user: "o1" }` | `service.delete(data.data)`, the id the delete command published | high, not executed | EmployeeController.DeleteReplicaAsWrittenMissesId | EmployeeController.DeleteReplicaIdOfPublished |
| src/store/dto/create-store.dto.ts:48 | `poin_config` is always passed through `parseInt`, so leaving it out or sending null gives NaN, which `z.number().nullable().optional()` (line 67) rejects | a valid store body without `poin_config` | an absent or null `poin_config` stays absent or null and is accepted | high, not executed | StoreDto.CreateStoreWithoutPoinConfigRejected | StoreDto.CreateStorePoinConfigOptional |
| src/main.ts:19 | `connectMicroservice` is called without `{ inheritAppConfig: true }` (also line 32), and NestJS does not give a connected microservice the HTTP application's global filters, so the filter registered at line 9 never sees a TCP or RabbitMQ handler's exception | a `post:employee` command whose email is taken | the microservices share the global `RPCExceptionFilter`, which answers status 500 with the message and the input | medium, not executed; rests on NestJS's documented hybrid-application default | RpcFilter.DuplicateEmployeeCreateEscapes | RpcFilter.DuplicateEmployeeCreateCaught |
| src/store/dto/update-store.dto.ts:37-38 | the constructor calls `toString()` on longitude and latitude, and converts open_date (line 36) and poin_config (line 43) unconditionally, although every field of the schema (lines 47-63) is optional | an update `{ name: "Store A" }` | a partial update converts only the fields it carries and is valid when they are | high, not executed | StoreDto.RenameOnlyUpdateThrows | StoreDto.RenameOnlyUpdateIntended |

=== FILE: company_dto.dfy ===
/**
  The company request DTOs: `CreateCompanyRequest` and `UpdateCompanyRequest`.
 */
module CompanyDto {
  import opened JsValue
  import opened Zod

  /** `new CreateCompanyRequest(data)` */
  function CreateCompanyRequest(data: Props): (r: Props)
    ensures r.Keys == {"code", "name", "owner_id"}
    ensures forall k :: k in r ==> r[k] == Get(data, k)
  {
    Project(data, {"code", "name", "owner_id"})
  }

  /** `CreateCompanyRequest.schema()` */
  const CreateCompanySchema: Schema := [
    StringField("code", None, Some(5)),
    StringField("name", Some(5), Some(255)),
    FormatField("owner_id", Uuid)
  ]

  /** Whether the create schema accepts `p`: a code of at most 5 characters,
      a name of 5..255 characters and a uuid `owner_id`, all required. */
  function CreateCompanyValid(fm: Formats, p: Props): (ok: bool)
    ensures ok <==>
      && StrAtMost(Get(p, "code"), 5)
      && StrBetween(Get(p, "name"), 5, 255)
      && UuidValue(fm, Get(p, "owner_id"))
  {
    AcceptsEveryField(fm, CreateCompanySchema, p);
    Accepts(fm, CreateCompanySchema, p)
  }

  /** `new UpdateCompanyRequest(data)` */
  function UpdateCompanyRequest(data: Props): (r: Props)
    ensures r.Keys == {"code", "name"}
    ensures forall k :: k in r ==> r[k] == Get(data, k)
  {
    Project(data, {"code", "name"})
  }

  /** `UpdateCompanyRequest.schema()` */
  const UpdateCompanySchema: Schema := [
    Optional(StringField("code", None, Some(5))),
    Optional(StringField("name", Some(5), Some(255)))
  ]

  /** Whether the update schema accepts `p`: both fields optional (so the
      empty object is valid), not nullable, and bounded as on create. */
  function UpdateCompanyValid(fm: Formats, p: Props): (ok: bool)
    ensures ok <==>
      && (Get(p, "code") == Undefined || StrAtMost(Get(p, "code"), 5))
      && (Get(p, "name") == Undefined || StrBetween(Get(p, "name"), 5, 255))
    ensures p == map[] ==> ok
  {
    AcceptsEveryField(fm, UpdateCompanySchema, p);
    Accepts(fm, UpdateCompanySchema, p)
  }
}

=== FILE: company_repository.dfy ===
/**
  `CompanyRepository`: a soft-deleting repository over the company table
  whose reads include only live stores, plus `findAllEmails`, the contact
  list of a company: its owner's email followed by the emails of that
  owner's employees.
 */
module CompanyRepository {
  import opened JsValue
  import opened Repository
  import OwnerRepository

  /** `super(prisma, 'company', relations, true)` */
  const Companies: Repo := Repo(true)

  /** The `stores` relation a company read includes: the company's live stores. */
  function Stores(stores: Table, company: Id): (r: Table)
    ensures forall id :: id in r <==> id in stores && Live(stores[id]) && Column(stores[id].fields, "company_id") == Str(company)
    ensures forall id :: id in r ==> r[id] == stores[id]
  {
    IncludeLive(stores, "company_id", company)
  }

  /** An employee row belonging to the owner. */
  predicate OwnedBy(row: Row, owner: Id)
  {
    Column(row.fields, "owner_id") == Str(owner)
  }

  /** `order` lists the ids of table `t`, each once: the order in which the
      database returns a relation's rows. */
  predicate Enumerates(order: seq<Id>, t: Table)
  {
    && (forall i, j :: 0 <= i < j < |order| ==> order[i] != order[j])
    && (forall i :: 0 <= i < |order| ==> order[i] in t)
    && (forall id :: id in t ==> id in order)
  }

  /** `ownerData.employees.map((employee) => employee.email)`: the emails of
      the owner's employees in `order`, deleted ones included. */
  function EmployeeEmails(employees: Table, order: seq<Id>, owner: Id): seq<Value>
    requires forall i :: 0 <= i < |order| ==> order[i] in employees
    decreases |order|
  {
    if |order| == 0 then []
    else
      var head := employees[order[0]];
      (if OwnedBy(head, owner) then [OwnerRepository.Email(head)] else [])
        + EmployeeEmails(employees, order[1..], owner)
  }

  /** The owner's employees among the ids `order` lists. */
  function OwnedAmong(employees: Table, order: seq<Id>, owner: Id): set<Id>
  {
    set id | id in order && id in employees && OwnedBy(employees[id], owner)
  }

  lemma HeadNotInTail(order: seq<Id>)
    requires |order| > 0
    requires forall i, j :: 0 <= i < j < |order| ==> order[i] != order[j]
    ensures order[0] !in order[1..]
  {
    forall j | 0 <= j < |order| - 1
      ensures order[1..][j] != order[0]
    {
      assert order[1..][j] == order[j + 1];
    }
  }

  /** One email per owned employee listed, duplicates kept. */
  lemma {:induction false} EmployeeEmailsCount(employees: Table, order: seq<Id>, owner: Id)
    requires forall i :: 0 <= i < |order| ==> order[i] in employees
    requires forall i, j :: 0 <= i < j < |order| ==> order[i] != order[j]
    ensures |EmployeeEmails(employees, order, owner)| == |OwnedAmong(employees, order, owner)|
    decreases |order|
  {
    if |order| > 0 {
      var tail := order[1..];
      assert forall i :: 0 <= i < |tail| ==> tail[i] == order[i + 1];
      EmployeeEmailsCount(employees, tail, owner);
      OwnedAmongCons(employees, order, owner);
      HeadNotInTail(order);
      assert order[0] !in OwnedAmong(employees, tail, owner);
    }
  }

  /** The owned employees a list names: its head's, if owned, and its
      tail's. */
  lemma OwnedAmongCons(employees: Table, order: seq<Id>, owner: Id)
    requires |order| > 0 && order[0] in employees
    ensures OwnedAmong(employees, order, owner) ==
      (if OwnedBy(employees[order[0]], owner) then {order[0]} else {}) + OwnedAmong(employees, order[1..], owner)
  {
    var tail := order[1..];
    assert forall id :: id in order <==> id == order[0] || id in tail by {
      assert order == [order[0]] + tail;
    }
  }

  /** Every owned employee listed contributes its email, whether its row is
      live or soft-deleted. */
  lemma {:induction false} EmployeeEmailsInclude(employees: Table, order: seq<Id>, owner: Id, i: nat)
    requires forall k :: 0 <= k < |order| ==> order[k] in employees
    requires i < |order| && OwnedBy(employees[order[i]], owner)
    ensures OwnerRepository.Email(employees[order[i]]) in EmployeeEmails(employees, order, owner)
    decreases |order|
  {
    if i > 0 {
      EmployeeEmailsInclude(employees, order[1..], owner, i - 1);
    }
  }

  /** The owner a company row names, when that owner exists. */
  function OwnerOf(companies: Table, owners: Table, company: Id): (r: Option<Id>)
    requires company in companies
    ensures r.Some? ==> r.value in owners && Column(companies[company].fields, "owner_id") == Str(r.value)
    ensures r.None? ==> !(Column(companies[company].fields, "owner_id").Str? && Column(companies[company].fields, "owner_id").s in owners)
  {
    var ownerId := Column(companies[company].fields, "owner_id");
    if ownerId.Str? && ownerId.s in owners then Some(ownerId.s) else None
  }

  /** `findAllEmails(company_id)`: no company gives the empty list; a
      company whose owner is missing fails reading `ownerData.email`;
      otherwise the owner's email followed by its employees' emails.  The
      company lookup has no `deleted_at` filter. */
  function FindAllEmails(companies: Table, owners: Table, employees: Table, order: seq<Id>, company: Id): (r: Outcome<seq<Value>>)
    requires forall i :: 0 <= i < |order| ==> order[i] in employees
    ensures company !in companies ==> r == Ok([])
    ensures company in companies && OwnerOf(companies, owners, company).None? ==>
      r == Throw(Error(ReadError(Null, "email")))
    ensures company in companies && OwnerOf(companies, owners, company).Some? ==>
      var owner := OwnerOf(companies, owners, company).value;
      && r.Ok? && |r.value| > 0
      && r.value[0] == OwnerRepository.Email(owners[owner])
      && r.value[1..] == EmployeeEmails(employees, order, owner)
  {
    if company !in companies then Ok([])
    else
      match OwnerOf(companies, owners, company)
      case None => Throw(Error(ReadError(Null, "email")))
      case Some(owner) => Ok([OwnerRepository.Email(owners[owner])] + EmployeeEmails(employees, order, owner))
  }

  /** The contact list of a company with an owner has one entry for the
      owner plus one per employee of that owner, soft-deleted employees
      counted. */
  lemma FindAllEmailsLength(companies: Table, owners: Table, employees: Table, order: seq<Id>, company: Id)
    requires Enumerates(order, employees)
    requires company in companies && OwnerOf(companies, owners, company).Some?
    ensures var owner := OwnerOf(companies, owners, company).value;
      |FindAllEmails(companies, owners, employees, order, company).value|
        == 1 + |set id | id in employees && OwnedBy(employees[id], owner)|
  {
    var owner := OwnerOf(companies, owners, company).value;
    EmployeeEmailsCount(employees, order, owner);
    assert OwnedAmong(employees, order, owner) == set id | id in employees && OwnedBy(employees[id], owner);
  }
}

=== FILE: employee_controller.dfy ===
/**
  `EmployeeController`: a create is attributed to the acting user, who
  becomes the employee's owner; successful commands publish their event
  wrapped as `{ data, user }`; the replica handlers follow the dead-letter
  convention; and `passwordChanged` acknowledges its message by the
  service's outcome.

  As written, the `employee.deleted` replica hands the whole event payload
  to the service as the id.  `DeleteReplicaId` reads the id from
  `data.data`, where the delete command puts it.
 */
module EmployeeController {
  import opened JsValue
  import opened Messaging
  import Repository
  import Service
  import OwnerController

  type Command = OwnerController.Command

  /** `create`: `owner_id` is overwritten with the acting user's id; on
      success `employee.created` carries the new record and the actor. */
  function Create(env: Service.Env, db: Service.Db, newId: Repository.Id, cmd: Command): (r: Outcome<(Service.Db, Service.Response, seq<Event>)>)
    ensures var body := cmd.body["owner_id" := Str(cmd.actor)];
      && (r.Throw? <==> Service.Create(env, Service.EmployeeService, db, newId, body).Throw?)
      && (r.Throw? ==> r.exception == Service.Create(env, Service.EmployeeService, db, newId, body).exception)
      && (r.Ok? ==> (r.value.0, r.value.1) == Service.Create(env, Service.EmployeeService, db, newId, body).value)
    ensures r.Ok? && !r.value.1.success ==> r.value.2 == []
    ensures r.Ok? && r.value.1.success ==>
      && newId in r.value.0.employees
      && Repository.Column(r.value.0.employees[newId].fields, "owner_id") == Str(cmd.actor)
      && r.value.2 == [Event("employee.created", Envelope(Repository.RowValue(newId, r.value.0.employees[newId]), Str(cmd.actor)))]
  {
    var body := cmd.body["owner_id" := Str(cmd.actor)];
    var done :- Service.Create(env, Service.EmployeeService, db, newId, body);
    if done.1.success then
      Service.CreateSucceeded(env, Service.EmployeeService, db, newId, body);
      Ok((done.0, done.1, [Event("employee.created", Envelope(OwnerController.DataOf(done.1), Str(cmd.actor)))]))
    else
      Ok((done.0, done.1, []))
  }

  /** `update`: `employee.updated` with `{ data: record, user }`, only when
      the update succeeded and the body carried a truthy password. */
  function Update(env: Service.Env, db: Service.Db, cmd: Command): (r: Outcome<(Service.Db, Service.Response, seq<Event>)>)
    ensures r.Throw? <==> Service.Update(env, Service.EmployeeService, db, cmd.id, cmd.body).Throw?
    ensures r.Ok? ==> (r.value.0, r.value.1) == Service.Update(env, Service.EmployeeService, db, cmd.id, cmd.body).value
    ensures r.Ok? ==> (r.value.2 != [] <==> r.value.1.success && Truthy(Get(cmd.body, "password")))
    ensures r.Ok? && r.value.2 != [] ==>
      exists record :: Repository.FindOne(Service.Soft, r.value.0.employees, cmd.id) == Some(record)
                    && r.value.2 == [Event("employee.updated", Envelope(record, Str(cmd.actor)))]
  {
    var done :- Service.Update(env, Service.EmployeeService, db, cmd.id, cmd.body);
    var publish := done.1.success && Truthy(Get(cmd.body, "password"));
    Ok((done.0, done.1,
        if publish then [Event("employee.updated", Envelope(OwnerController.DataOf(done.1), Str(cmd.actor)))] else []))
  }

  /** `delete`: `employee.deleted` with `{ data: id, user }`, where the id
      is read from the deleted record, only on success. */
  function Delete(db: Service.Db, cmd: Command, now: Repository.Time): (r: Outcome<(Service.Db, Service.Response, seq<Event>)>)
    ensures r.Ok?
    ensures (r.value.0, r.value.1) == Service.Delete(db, Service.Employee, cmd.id, now)
    ensures r.value.2 != [] <==> Repository.Visible(Service.Soft, db.employees, cmd.id)
    ensures r.value.2 != [] ==> r.value.2 == [Event("employee.deleted", Envelope(Str(cmd.id), Str(cmd.actor)))]
  {
    var done := Service.Delete(db, Service.Employee, cmd.id, now);
    if done.1.success then
      match Member(OwnerController.DataOf(done.1), "id")
      case Ok(id) => Ok((done.0, done.1, [Event("employee.deleted", Envelope(id, Str(cmd.actor)))]))
      case Throw(e) => assert false; Throw(e)
    else
      Ok((done.0, done.1, []))
  }

  const CreateReplica := Handler("employee.created", HandlerConfig("employee.created", true, "dlq.employee.created"))
  const UpdateReplica := Handler("employee.updated", HandlerConfig("employee.updated", true, "dlq.employee.updated"))
  const DeleteReplica := Handler("employee.deleted", HandlerConfig("employee.deleted", true, "dlq.employee.deleted"))

  const Handlers: seq<Handler> := [CreateReplica, UpdateReplica, DeleteReplica]

  lemma CreateReplicaFollowsDlqConvention()
    ensures FollowsDlqConvention(CreateReplica)
  {
  }

  lemma UpdateReplicaFollowsDlqConvention()
    ensures FollowsDlqConvention(UpdateReplica)
  {
  }

  lemma DeleteReplicaFollowsDlqConvention()
    ensures FollowsDlqConvention(DeleteReplica)
  {
  }

  /** Every employee replica handler follows the dead-letter convention. */
  lemma HandlersFollowDlqConvention()
    ensures forall h :: h in Handlers ==> FollowsDlqConvention(h)
  {
    CreateReplicaFollowsDlqConvention();
    UpdateReplicaFollowsDlqConvention();
    DeleteReplicaFollowsDlqConvention();
  }

  /** `updateReplica` takes the id from `data.data.id`: an
      `employee.updated` event gives back the id of the updated row. */
  lemma UpdateReplicaIdOfPublished(id: Repository.Id, row: Repository.Row, actor: Repository.Id)
    ensures var payload := Envelope(Repository.RowValue(id, row), Str(actor));
      (var data :- Member(payload, "data"); Member(data, "id")) == Ok(Str(id))
  {
  }

  /** `deleteReplica` as written: `service.delete(data)` is handed the whole
      payload as the id, so an event object never yields a string id. */
  function DeleteReplicaIdAsWritten(payload: Value): (id: Value)
    ensures payload.Obj? ==> !id.Str?
  {
    payload
  }

  /** As written, the id the `employee.deleted` replica hands over is never
      a string, so it names no row: the deletion is never replicated. */
  lemma DeleteReplicaAsWrittenMissesId(id: Repository.Id, actor: Repository.Id)
    ensures var published := Envelope(Str(id), Str(actor));
      DeleteReplicaIdAsWritten(published) != Str(id) && !DeleteReplicaIdAsWritten(published).Str?
  {
  }

  /** `deleteReplica` as intended: the id is `data.data`. */
  function DeleteReplicaId(payload: Value): (r: Outcome<Value>)
    ensures r.Throw? <==> payload == Undefined || payload == Null
    ensures payload.Obj? ==> r == Ok(Get(payload.props, "data"))
  {
    Member(payload, "data")
  }

  /** The id the intended replica reads from an `employee.deleted` event is
      the id of the deleted employee. */
  lemma DeleteReplicaIdOfPublished(db: Service.Db, cmd: Command, now: Repository.Time)
    requires Repository.Visible(Service.Soft, db.employees, cmd.id)
    ensures var events := Delete(db, cmd, now).value.2;
      |events| == 1 && DeleteReplicaId(events[0].payload) == Ok(Str(cmd.id))
  {
  }

  /** `passwordChanged(data)`: the handler first reads `data.created_at`
      outside its `try`, so a nullish payload rejects the handler with a
      TypeError and the message is neither acknowledged nor rejected.
      Otherwise the message is acknowledged when the service answers with
      success, rejected when it throws, and left alone when it answers
      without success. */
  function PasswordChanged(payload: Value, outcome: Outcome<Service.Response>): (r: Outcome<Acknowledgement>)
    ensures r.Throw? <==> payload == Undefined || payload == Null
    ensures r.Throw? ==> r == Throw(Error(ReadError(payload, "created_at")))
    ensures r.Ok? ==> (r.value == Ack <==> outcome.Ok? && outcome.value.success)
    ensures r.Ok? ==> (r.value == Nack <==> outcome.Throw?)
    ensures r.Ok? ==> (r.value == NoAction <==> outcome.Ok? && !outcome.value.success)
  {
    var _ :- Member(payload, "created_at");
    match outcome
    case Throw(_) => Ok(Nack)
    case Ok(response) => Ok(if response.success then Ack else NoAction)
  }

  const PasswordChangedPattern := "password.changed"
}

=== FILE: employee_dto.dfy ===
/**
  The employee request DTOs: `CreateEmployeeRequest` and
  `UpdateEmployeeRequest`.
 */
module EmployeeDto {
  import opened JsValue
  import opened Zod

  /** `new CreateEmployeeRequest(data)` */
  function CreateEmployeeRequest(data: Props): (r: Props)
    ensures r.Keys == {"name", "email", "owner_id"}
    ensures forall k :: k in r ==> r[k] == Get(data, k)
  {
    Project(data, {"name", "email", "owner_id"})
  }

  /** `CreateEmployeeRequest.schema()` */
  const CreateEmployeeSchema: Schema := [
    StringField("name", Some(5), Some(255)),
    FormatField("email", Email),
    FormatField("owner_id", Uuid)
  ]

  /** Whether the create schema accepts `p`: a name of 5..255 characters, an
      email and a uuid `owner_id`, all required. */
  function CreateEmployeeValid(fm: Formats, p: Props): (ok: bool)
    ensures ok <==>
      && StrBetween(Get(p, "name"), 5, 255)
      && EmailValue(fm, Get(p, "email"))
      && UuidValue(fm, Get(p, "owner_id"))
  {
    AcceptsEveryField(fm, CreateEmployeeSchema, p);
    Accepts(fm, CreateEmployeeSchema, p)
  }

  /** `new UpdateEmployeeRequest(data)` */
  function UpdateEmployeeRequest(data: Props): (r: Props)
    ensures r.Keys == {"name", "password"}
    ensures forall k :: k in r ==> r[k] == Get(data, k)
  {
    Project(data, {"name", "password"})
  }

  /** `UpdateEmployeeRequest.schema()` */
  const UpdateEmployeeSchema: Schema := [
    Optional(StringField("name", Some(5), Some(255))),
    Optional(StringField("password", Some(8), Some(255)))
  ]

  /** Whether the update schema accepts `p`: name and password may be absent
      but not null; a given password may be up to 255 characters long. */
  function UpdateEmployeeValid(fm: Formats, p: Props): (ok: bool)
    ensures ok <==>
      && (Get(p, "name") == Undefined || StrBetween(Get(p, "name"), 5, 255))
      && (Get(p, "password") == Undefined || StrBetween(Get(p, "password"), 8, 255))
  {
    AcceptsEveryField(fm, UpdateEmployeeSchema, p);
    Accepts(fm, UpdateEmployeeSchema, p)
  }
}

=== FILE: employee_repository.dfy ===
/**
  `EmployeeRepository`: a soft-deleting repository over the employee table.
  Its `create` shares the owner repository's email check but throws on a
  taken email, and both `create` and `update` re-throw every failure with a
  fixed prefix.  Its `update` matches on the id alone, so unlike the base
  update it also reaches soft-deleted employees.
 */
module EmployeeRepository {
  import opened JsValue
  import opened Repository
  import OwnerRepository

  /** `super(prisma, 'employee', relations, true)` */
  const Employees: Repo := Repo(true)

  /** `where: { id }` with no `deleted_at` condition. */
  const ById: Repo := Repo(false)

  const CreatePrefix := "Create failed: "
  const UpdatePrefix := "Update failed: "
  const EmailTaken := "Email already exists"

  /** The message a create with a taken email throws. */
  lemma EmailTakenMessage()
    ensures CreatePrefix + EmailTaken == "Create failed: Email already exists"
  {
  }

  /** `error.message`: a thrown value that is not an `Error` has none. */
  function MessageOf(e: Exception): string
  {
    match e
    case Error(m) => m
    case Raw(_) => "undefined"
  }

  /** `throw new Error(`${prefix}${error.message}`)` */
  function Rethrown(prefix: string, e: Exception): (r: Exception)
    ensures r.Error? && r.message == prefix + MessageOf(e)
  {
    Error(prefix + MessageOf(e))
  }

  /** `create(data)`: a taken email is an error, and so is every failure of
      the insert, each re-thrown with the create prefix. */
  function Create(owners: Table, employees: Table, id: Id, data: Props, admits: Admits): (r: Outcome<(Table, Value)>)
    ensures r.Throw? ==> r.exception.Error? && CreatePrefix <= r.exception.message
    ensures !OwnerRepository.CheckUnique(owners, employees, Get(data, "email")) ==>
      r == Throw(Error(CreatePrefix + EmailTaken))
    ensures OwnerRepository.CheckUnique(owners, employees, Get(data, "email")) ==>
      (r.Ok? <==> admits(Written(data)) && id !in employees)
    ensures OwnerRepository.CheckUnique(owners, employees, Get(data, "email")) && !admits(Written(data)) ==>
      r == Throw(Rethrown(CreatePrefix, SchemaViolation))
    ensures r.Ok? ==> r == Repository.Create(employees, id, data, admits)
  {
    var created :=
      if OwnerRepository.CheckUnique(owners, employees, Get(data, "email")) then
        Repository.Create(employees, id, data, admits)
      else
        Throw(Error(EmailTaken));
    match created
    case Ok(c) => Ok(c)
    case Throw(e) => Throw(Rethrown(CreatePrefix, e))
  }

  /** `update(id, data)`: the base update keyed on the id alone, failures
      re-thrown with the update prefix. */
  function Update(t: Table, id: Id, data: Props, admits: Admits): (r: Outcome<(Table, Value)>)
    ensures r.Ok? <==> id in t && admits(t[id].fields + Written(data))
    ensures r.Throw? ==> r.exception.Error? && UpdatePrefix <= r.exception.message
    ensures id in t && !admits(t[id].fields + Written(data)) ==> r == Throw(Rethrown(UpdatePrefix, UpdateViolation))
    ensures r.Ok? ==> r == Repository.Update(ById, t, id, data, admits)
  {
    match Repository.Update(ById, t, id, data, admits)
    case Ok(u) => Ok(u)
    case Throw(e) => Throw(Rethrown(UpdatePrefix, e))
  }

  /** A soft-deleted employee is still updated whenever the schema admits
      the updated row, where the base update of the same soft-deleting
      table would fail with `NotFound`. */
  lemma UpdateReachesDeleted(t: Table, id: Id, data: Props, admits: Admits)
    requires id in t && !Live(t[id])
    ensures Update(t, id, data, admits).Ok? <==> admits(t[id].fields + Written(data))
    ensures Repository.Update(Employees, t, id, data, admits) == Throw(NotFound)
  {
  }

  /** A duplicate email, even one a soft-deleted account holds, is the error
      "Create failed: Email already exists" and nothing is written. */
  lemma CreateTakenEmail(owners: Table, employees: Table, id: Id, data: Props, admits: Admits, holder: Id)
    requires (holder in owners && OwnerRepository.Email(owners[holder]) == Get(data, "email"))
          || (holder in employees && OwnerRepository.Email(employees[holder]) == Get(data, "email"))
    ensures Create(owners, employees, id, data, admits) == Throw(Error(CreatePrefix + EmailTaken))
  {
    assert !OwnerRepository.CheckUnique(owners, employees, Get(data, "email")) by {
      if holder in owners && OwnerRepository.Email(owners[holder]) == Get(data, "email") {
        assert OwnerRepository.Matches(owners[holder], Get(data, "email"));
      } else {
        assert OwnerRepository.Matches(employees[holder], Get(data, "email"));
      }
    }
  }

  /** Creating an employee keeps emails unique across both tables. */
  lemma CreateKeepsEmailsUnique(owners: Table, employees: Table, id: Id, data: Props, admits: Admits)
    requires OwnerRepository.EmailsUnique(owners, employees)
    requires Create(owners, employees, id, data, admits).Ok?
    ensures OwnerRepository.EmailsUnique(owners, Create(owners, employees, id, data, admits).value.0)
  {
    OwnerRepository.NewEmailIsFree(owners, employees, data);
    var employees' := Create(owners, employees, id, data, admits).value.0;
    assert employees' == employees[id := Row(Written(data), None)];
  }
}

=== FILE: js_text.dfy ===
/**
  The JavaScript built-ins the DTO constructors and the store service call:
  `String(v)`, `toUpperCase`, `parseInt`, `parseFloat` and `new Date(v)`.
  `parseInt` (section 19.2.5 of ECMAScript 2024, radix left undefined) and
  the upper-casing of ASCII are written out; number formatting,
  `parseFloat`, date parsing and the Unicode case table for other
  characters stay abstract as the functions of a `Runtime`.
 */
module JsText {
  import opened JsValue

  /** The engine's number, date and case conversions, left uninterpreted. */
  datatype Runtime = Runtime(
    numberToString: real -> string,    // Number.prototype.toString on a finite number
    parseFloat: string -> Option<real>, // parseFloat; None is NaN
    dateOf: Value -> Option<int>,      // new Date(v) for a value other than undefined/null; None is Invalid Date
    dateToString: Option<int> -> string,
    arrayToString: seq<Value> -> string,
    upperCaseOf: char -> string)       // the Unicode upper-case mapping of a character outside ASCII

  /** `String(v)` */
  function ToJsString(rt: Runtime, v: Value): string
  {
    match v
    case Undefined => "undefined"
    case Null => "null"
    case Bool(b) => if b then "true" else "false"
    case Num(n) => rt.numberToString(n)
    case NaN => "NaN"
    case Str(s) => s
    case Date(t) => rt.dateToString(t)
    case Arr(items) => rt.arrayToString(items)
    case Obj(_) => "[object Object]"
  }

  /** `new Date(v)`: `undefined` gives an Invalid Date, `null` the epoch. */
  function NewDate(rt: Runtime, v: Value): (d: Value)
    ensures d.Date?
    ensures v == Undefined ==> d.time.None?
    ensures v == Null ==> d.time == Some(0)
  {
    match v
    case Undefined => Date(None)
    case Null => Date(Some(0))
    case _ => Date(rt.dateOf(v))
  }

  /** `parseFloat(v.toString())`: a TypeError on `undefined` and `null`. */
  function ParseFloatOfString(rt: Runtime, v: Value): (r: Outcome<Value>)
    ensures r.Throw? <==> v == Undefined || v == Null
    ensures r.Ok? ==> r.value.Num? || r.value == NaN
  {
    if v == Undefined || v == Null then
      Throw(Error(ReadError(v, "toString")))
    else
      match rt.parseFloat(ToJsString(rt, v))
      case Some(x) => Ok(Num(x))
      case None => Ok(NaN)
  }

  // ---------------------------------------------------------------------------
  // Upper-casing

  predicate Ascii(s: string)
  {
    forall i :: 0 <= i < |s| ==> s[i] as int < 128
  }

  /** The upper-case of an ASCII letter; every other ASCII character is kept. */
  function UpperChar(c: char): char
  {
    if 'a' <= c <= 'z' then (c as int - 32) as char else c
  }

  /** The full upper-case mapping of one character: written out for ASCII,
      the runtime's Unicode table otherwise. */
  function UpperOf(rt: Runtime, c: char): string
  {
    if c as int < 128 then [UpperChar(c)] else rt.upperCaseOf(c)
  }

  /** `s.toUpperCase()`: every character replaced by its mapping, so an
      ASCII string keeps its length and a character such as 'ß' may grow. */
  function ToUpperCase(rt: Runtime, s: string): (r: string)
    ensures Ascii(s) ==> |r| == |s| && Ascii(r)
    ensures Ascii(s) ==> forall i :: 0 <= i < |s| ==> r[i] == UpperChar(s[i])
    decreases |s|
  {
    if |s| == 0 then "" else UpperOf(rt, s[0]) + ToUpperCase(rt, s[1..])
  }

  /** Upper-casing maps each character on its own. */
  lemma {:induction false} ToUpperCaseConcat(rt: Runtime, a: string, b: string)
    ensures ToUpperCase(rt, a + b) == ToUpperCase(rt, a) + ToUpperCase(rt, b)
    decreases |a|
  {
    if |a| == 0 {
      assert a + b == b;
    } else {
      assert (a + b)[0] == a[0];
      assert (a + b)[1..] == a[1..] + b;
      ToUpperCaseConcat(rt, a[1..], b);
    }
  }

  /** The runtime's table maps every character outside ASCII to a string
      that upper-casing leaves alone, as Unicode's upper-case mappings do. */
  predicate CaseMappingStable(rt: Runtime)
  {
    forall c: char {:trigger rt.upperCaseOf(c)} :: 128 <= c as int ==> ToUpperCase(rt, rt.upperCaseOf(c)) == rt.upperCaseOf(c)
  }

  /** The mapping of one character is already upper case. */
  lemma UpperOfStable(rt: Runtime, c: char)
    requires CaseMappingStable(rt)
    ensures ToUpperCase(rt, UpperOf(rt, c)) == UpperOf(rt, c)
  {
    if c as int < 128 {
      var u := UpperChar(c);
      assert [u][1..] == [];
      assert ToUpperCase(rt, [u]) == UpperOf(rt, u) + ToUpperCase(rt, []);
    }
  }

  /** Upper-casing twice is upper-casing once. */
  lemma {:induction false} ToUpperCaseIdempotent(rt: Runtime, s: string)
    requires CaseMappingStable(rt)
    ensures ToUpperCase(rt, ToUpperCase(rt, s)) == ToUpperCase(rt, s)
    decreases |s|
  {
    if |s| > 0 {
      ToUpperCaseConcat(rt, UpperOf(rt, s[0]), ToUpperCase(rt, s[1..]));
      UpperOfStable(rt, s[0]);
      ToUpperCaseIdempotent(rt, s[1..]);
    }
  }

  /** For ASCII text the length the store code's limit sees is the length
      sent. */
  lemma AsciiUpperCaseLength(rt: Runtime, s: string)
    requires Ascii(s)
    ensures CodeUnits(ToUpperCase(rt, s)) == |s|
  {
    CodeUnitsOfBmp(ToUpperCase(rt, s));
  }

  // ---------------------------------------------------------------------------
  // Decimal printing of integers (template literals, `String(n)`)

  function DigitChar(d: nat): char
    requires d < 10
  {
    "0123456789"[d]
  }

  function NatToString(n: nat): (s: string)
    ensures |s| > 0
    ensures forall i :: 0 <= i < |s| ==> '0' <= s[i] <= '9'
    ensures s[0] == '0' ==> n == 0
  {
    if n < 10 then [DigitChar(n)] else NatToString(n / 10) + [DigitChar(n % 10)]
  }

  function IntToString(n: int): string
  {
    if n < 0 then "-" + NatToString(-n) else NatToString(n)
  }

  // ---------------------------------------------------------------------------
  // parseInt

  /** StrWhiteSpaceChar: white space and line terminators that `parseInt` skips. */
  predicate IsStrWhiteSpace(c: char)
  {
    c == '\t' || c == '\n' || c == '\U{B}' || c == '\U{C}' || c == '\r' || c == ' '
    || c == '\U{A0}' || c == '\U{1680}' || ('\U{2000}' <= c <= '\U{200A}')
    || c == '\U{2028}' || c == '\U{2029}' || c == '\U{202F}' || c == '\U{205F}'
    || c == '\U{3000}' || c == '\U{FEFF}'
  }

  function TrimStart(s: string): (r: string)
    ensures |r| > 0 ==> !IsStrWhiteSpace(r[0])
  {
    if |s| > 0 && IsStrWhiteSpace(s[0]) then TrimStart(s[1..]) else s
  }

  /** The value of `c` as a digit, or 36 when it is no digit in any radix. */
  function DigitValue(c: char): nat
  {
    if '0' <= c <= '9' then c as int - '0' as int
    else if 'a' <= c <= 'z' then c as int - 'a' as int + 10
    else if 'A' <= c <= 'Z' then c as int - 'A' as int + 10
    else 36
  }

  /** The longest prefix of `s` made of digits below `radix`. */
  function DigitPrefix(s: string, radix: nat): (z: string)
    ensures |z| <= |s| && z == s[..|z|]
    ensures forall i :: 0 <= i < |z| ==> DigitValue(z[i]) < radix
    ensures |z| < |s| ==> DigitValue(s[|z|]) >= radix
  {
    if |s| > 0 && DigitValue(s[0]) < radix then [s[0]] + DigitPrefix(s[1..], radix) else []
  }

  /** The number the digits `z` denote in `radix`, most significant first. */
  function DigitsValue(z: string, radix: nat): nat
  {
    if |z| == 0 then 0 else radix * DigitsValue(z[..|z| - 1], radix) + DigitValue(z[|z| - 1])
  }

  /** The text after an optional sign. */
  function StripSign(t: string): (u: string)
    ensures |t| > 0 && (t[0] == '-' || t[0] == '+') ==> u == t[1..]
    ensures !(|t| > 0 && (t[0] == '-' || t[0] == '+')) ==> u == t
  {
    if |t| > 0 && (t[0] == '-' || t[0] == '+') then t[1..] else t
  }

  /** The magnitude `parseInt` reads after the sign: hexadecimal after a
      `0x`/`0X` prefix, decimal otherwise; `None` when no digit follows. */
  function ParseMagnitude(u: string): Option<nat>
  {
    var hex := |u| >= 2 && u[0] == '0' && (u[1] == 'x' || u[1] == 'X');
    var radix := if hex then 16 else 10;
    var z := DigitPrefix(if hex then u[2..] else u, radix);
    if |z| == 0 then None else Some(DigitsValue(z, radix))
  }

  /** `parseInt(s)` on a string: skip leading white space, read a sign, take
      the hexadecimal prefix `0x`/`0X` into account, and read the longest run
      of digits.  `None` stands for `NaN`. */
  function ParseIntString(s: string): Option<int>
  {
    var t := TrimStart(s);
    var negative := |t| > 0 && t[0] == '-';
    match ParseMagnitude(StripSign(t))
    case None => None
    case Some(m) => Some(if negative then -(m as int) else m as int)
  }

  /** `parseInt(v)` for any value: the value is first turned into a string. */
  function ParseInt(rt: Runtime, v: Value): (r: Value)
    ensures r.Num? || r == NaN
    ensures v == Undefined || v == Null ==> r == NaN
    ensures v.Str? ==> (r == NaN <==> ParseIntString(v.s).None?)
    ensures v.Str? && ParseIntString(v.s).Some? ==> r == Num(ParseIntString(v.s).value as real)
  {
    var r := match ParseIntString(ToJsString(rt, v))
      case None => NaN
      case Some(n) => Num(n as real);
    if v == Undefined || v == Null then
      ParseIntStringOfLetter(ToJsString(rt, v));
      r
    else
      r
  }

  lemma {:induction false} DigitsValueOfNatToString(n: nat)
    ensures DigitsValue(NatToString(n), 10) == n
    ensures forall i :: 0 <= i < |NatToString(n)| ==> DigitValue(NatToString(n)[i]) < 10
  {
    var s := NatToString(n);
    if n < 10 {
      assert s == [DigitChar(n)];
      assert s[..0] == [];
    } else {
      DigitsValueOfNatToString(n / 10);
      var p := NatToString(n / 10);
      assert s == p + [DigitChar(n % 10)];
      assert s[..|s| - 1] == p;
      assert DigitValue(s[|s| - 1]) == n % 10;
    }
  }

  /** A string that is all digits below the radix is its own digit prefix,
      and digits stop at the first non-digit. */
  lemma {:induction false} DigitPrefixOfDigitsThen(z: string, rest: string, radix: nat)
    requires forall i :: 0 <= i < |z| ==> DigitValue(z[i]) < radix
    requires |rest| == 0 || DigitValue(rest[0]) >= radix
    ensures DigitPrefix(z + rest, radix) == z
  {
    if |z| == 0 {
      assert z + rest == rest;
    } else {
      assert (z + rest)[1..] == z[1..] + rest;
      DigitPrefixOfDigitsThen(z[1..], rest, radix);
      assert [z[0]] + z[1..] == z;
    }
  }

  lemma TrimStartKeeps(s: string)
    requires |s| > 0 && !IsStrWhiteSpace(s[0])
    ensures TrimStart(s) == s
  {
  }

  /** A string starting with a letter other than a digit denotes `NaN`. */
  lemma ParseIntStringOfLetter(s: string)
    requires |s| > 0 && ('a' <= s[0] <= 'z' || 'A' <= s[0] <= 'Z')
    ensures ParseIntString(s).None?
  {
    TrimStartKeeps(s);
    assert StripSign(s) == s;
    assert DigitPrefix(s, 10) == [];
  }

  predicate AllDecimal(s: string)
  {
    forall i :: 0 <= i < |s| ==> '0' <= s[i] <= '9'
  }

  /** Unsigned decimal digits followed by text that does not continue them. */
  lemma ParseIntStringOfDigits(digits: string, rest: string)
    requires |digits| > 0 && AllDecimal(digits)
    requires |rest| == 0 || DigitValue(rest[0]) >= 10
    requires digits[0] == '0' ==> |digits| == 1 && (|rest| == 0 || (rest[0] != 'x' && rest[0] != 'X'))
    ensures ParseIntString(digits + rest) == Some(DigitsValue(digits, 10))
  {
    var s := digits + rest;
    assert s[0] == digits[0];
    TrimStartKeeps(s);
    assert StripSign(s) == s;
    ParseMagnitudeOfDigits(digits, rest);
  }

  lemma ParseMagnitudeOfDigits(digits: string, rest: string)
    requires |digits| > 0 && AllDecimal(digits)
    requires |rest| == 0 || DigitValue(rest[0]) >= 10
    requires digits[0] == '0' ==> |digits| == 1 && (|rest| == 0 || (rest[0] != 'x' && rest[0] != 'X'))
    ensures ParseMagnitude(digits + rest) == Some(DigitsValue(digits, 10))
  {
    var s := digits + rest;
    assert s[0] == digits[0];
    var hex := |s| >= 2 && s[0] == '0' && (s[1] == 'x' || s[1] == 'X');
    assert !hex by {
      if |s| >= 2 && s[0] == '0' {
        assert s[1] == rest[0];
      }
    }
    DigitPrefixOfDigitsThen(digits, rest, 10);
  }

  /** A leading minus sign negates the magnitude read after it. */
  lemma ParseIntStringOfMinus(u: string, m: nat)
    requires ParseMagnitude(u) == Some(m)
    ensures ParseIntString(['-'] + u) == Some(-(m as int))
  {
    var s := ['-'] + u;
    TrimStartKeeps(s);
    assert s[1..] == u;
  }

  /** The decimal text of a natural number is digits that read back to it,
      with a leading `0` only for 0 itself. */
  lemma NatToStringFacts(a: nat)
    ensures AllDecimal(NatToString(a))
    ensures DigitsValue(NatToString(a), 10) == a
    ensures NatToString(a)[0] == '0' ==> |NatToString(a)| == 1
  {
    DigitsValueOfNatToString(a);
    if NatToString(a)[0] == '0' {
      assert a == 0;
    }
  }

  lemma ParseIntOfNegative(m: nat, rest: string)
    requires |rest| == 0 || DigitValue(rest[0]) >= 10
    requires m > 0
    ensures ParseIntString(['-'] + (NatToString(m) + rest)) == Some(-(m as int))
  {
    var u := NatToString(m) + rest;
    NatToStringFacts(m);
    ParseMagnitudeOfDigits(NatToString(m), rest);
    ParseIntStringOfMinus(u, m);
  }

  /** `parseInt` reads back the decimal text of any integer, followed by any
      text that does not continue the number: a non-digit, and for 0 also not
      an `x` that would turn `0x` into a hexadecimal prefix. */
  lemma ParseIntOfIntToString(n: int, rest: string)
    requires |rest| == 0 || DigitValue(rest[0]) >= 10
    requires n == 0 && |rest| > 0 ==> rest[0] != 'x' && rest[0] != 'X'
    ensures ParseIntString(IntToString(n) + rest) == Some(n)
  {
    if n < 0 {
      ParseIntOfNegativeText(-n, rest);
    } else {
      NatToStringFacts(n);
      ParseIntStringOfDigits(NatToString(n), rest);
    }
  }

  lemma ParseIntOfNegativeText(m: nat, rest: string)
    requires |rest| == 0 || DigitValue(rest[0]) >= 10
    requires m > 0
    ensures ParseIntString(IntToString(-(m as int)) + rest) == Some(-(m as int))
  {
    ParseIntOfNegative(m, rest);
    SignThenText(NatToString(m), rest);
  }

  lemma SignThenText(digits: string, rest: string)
    ensures ("-" + digits) + rest == ['-'] + (digits + rest)
  {
  }

  /** `parseInt` on the decimal text of an integer gives that integer back. */
  lemma ParseIntRoundTrip(rt: Runtime, n: int)
    ensures ParseInt(rt, Str(IntToString(n))) == Num(n as real)
  {
    var text := IntToString(n);
    ParseIntOfIntToString(n, []);
    assert text + [] == text;
  }
}

=== FILE: js_value.dfy ===
/**
  The JavaScript values the service passes around: request bodies, DTO
  instances, database rows and message payloads are all plain JSON-like
  objects.  `Undefined` is what reading an absent property yields, which is
  how the DTO constructors and zod see a field the caller left out.
 */
module JsValue {

  datatype Option<+T> = None | Some(value: T)

  /** A JavaScript value.  Numbers are finite reals or `NaN`; a `Date` holds
      its time in milliseconds, or `None` for an Invalid Date. */
  datatype Value =
    | Undefined
    | Null
    | Bool(b: bool)
    | Num(n: real)
    | NaN
    | Str(s: string)
    | Date(time: Option<int>)
    | Arr(items: seq<Value>)
    | Obj(props: map<string, Value>)

  /** The own enumerable properties of a plain object. */
  type Props = map<string, Value>

  /** A thrown value: an `Error` instance (with its message) or anything else. */
  datatype Exception = Error(message: string) | Raw(thrown: Value)

  /** The result of code that may throw. */
  datatype Outcome<+T> = Ok(value: T) | Throw(exception: Exception) {

    predicate IsFailure() {
      Throw?
    }

    function PropagateFailure<U>(): Outcome<U>
      requires Throw?
    {
      Throw(exception)
    }

    function Extract(): T
      requires Ok?
    {
      value
    }
  }

  /** JavaScript truthiness: `undefined`, `null`, `false`, `0`, `NaN` and the
      empty string are falsy, every object (arrays and dates included) is truthy. */
  predicate Truthy(v: Value) {
    match v
    case Undefined => false
    case Null => false
    case Bool(b) => b
    case Num(n) => n != 0.0
    case NaN => false
    case Str(s) => s != ""
    case Date(_) => true
    case Arr(_) => true
    case Obj(_) => true
  }

  /** `s.length`: JavaScript strings are UTF-16, so a character outside
      the Basic Multilingual Plane counts as two code units. */
  function CodeUnits(s: string): (n: nat)
    ensures |s| <= n <= 2 * |s|
  {
    if |s| == 0 then 0 else (if s[0] as int < 0x1_0000 then 1 else 2) + CodeUnits(s[1..])
  }

  /** Within the Basic Multilingual Plane the length is the number of
      characters. */
  lemma {:induction false} CodeUnitsOfBmp(s: string)
    requires forall i :: 0 <= i < |s| ==> s[i] as int < 0x1_0000
    ensures CodeUnits(s) == |s|
  {
    if |s| > 0 {
      assert forall i :: 0 <= i < |s[1..]| ==> s[1..][i] == s[i + 1];
      CodeUnitsOfBmp(s[1..]);
    }
  }

  /** One emoji is two code units: three of them are six. */
  lemma EmojiLength()
    ensures CodeUnits("\U{1F600}\U{1F600}\U{1F600}") == 6
  {
  }

  /** Reading `p.k` on a plain object: `undefined` when the key is absent. */
  function Get(p: Props, k: string): (v: Value)
    ensures k !in p ==> v == Undefined
    ensures k in p ==> v == p[k]
  {
    if k in p then p[k] else Undefined
  }

  /** V8's message for reading a property of `undefined` or `null`. */
  function ReadError(v: Value, k: string): string
  {
    "Cannot read properties of " + (if v == Null then "null" else "undefined") + " (reading '" + k + "')"
  }

  /** Reading `v.k` for any value: a TypeError on `undefined` and `null`;
      strings and arrays answer `length`; other primitives carry no data
      properties. */
  function Member(v: Value, k: string): (r: Outcome<Value>)
    ensures r.Throw? <==> v == Undefined || v == Null
    ensures v.Obj? ==> r == Ok(Get(v.props, k))
  {
    match v
    case Undefined => Throw(Error(ReadError(v, k)))
    case Null => Throw(Error(ReadError(v, k)))
    case Obj(p) => Ok(Get(p, k))
    case Str(s) => Ok(if k == "length" then Num(CodeUnits(s) as real) else Undefined)
    case Arr(items) => Ok(if k == "length" then Num(|items| as real) else Undefined)
    case _ => Ok(Undefined)
  }

  /** `{ k1: data.k1, ..., kn: data.kn }`: the object a DTO constructor builds
      by copying the listed properties; an absent one becomes `undefined`. */
  function Project(data: Props, keys: set<string>): (r: Props)
    ensures r.Keys == keys
    ensures forall k :: k in r ==> r[k] == Get(data, k)
  {
    map k | k in keys :: Get(data, k)
  }
}

=== FILE: messaging.dfy ===
/**
  The replication vocabulary the controllers and the seeder share: an
  event published under a pattern, and the options a replica handler
  passes to the message-processing helper (its queue name and its
  dead-letter routing).  The helper itself is not part of this model; only
  the options given to it are.
 */
module Messaging {
  import opened JsValue

  /** `publishEvent(pattern, payload)` */
  datatype Event = Event(pattern: string, payload: Value)

  /** The options object `{ queueName, useDLQ, dlqRoutingKey }`. */
  datatype HandlerConfig = HandlerConfig(queueName: string, useDlq: bool, dlqRoutingKey: string)

  /** An `@EventPattern(pattern)` handler with its options. */
  datatype Handler = Handler(pattern: string, config: HandlerConfig)

  const DlqPrefix := "dlq."

  /** The replica convention: the queue is named after the pattern, dead
      letters are on, and they go to `dlq.` followed by the queue name. */
  predicate FollowsDlqConvention(h: Handler)
  {
    && h.config.queueName == h.pattern
    && h.config.useDlq
    && h.config.dlqRoutingKey == DlqPrefix + h.config.queueName
  }

  /** What the broker does with the message a handler received. */
  datatype Acknowledgement = Ack | Nack | NoAction

  /** `{ data, user }`: the envelope the employee events carry. */
  function Envelope(data: Value, user: Value): (v: Value)
    ensures v.Obj? && v.props.Keys == {"data", "user"}
    ensures v.props["data"] == data && v.props["user"] == user
  {
    Obj(map["data" := data, "user" := user])
  }
}

=== FILE: owner_controller.dfy ===
/**
  `OwnerController`: the owner commands publish a replication event after
  the service has committed, and only on success; the response goes back
  to the caller unchanged either way.  The owner replica handlers follow
  the dead-letter convention and read the target id from `data.id`.
 */
module OwnerController {
  import opened JsValue
  import opened Messaging
  import Repository
  import Service

  /** The parts of an RPC payload `{ params: { id, user: { id } }, body }`
      the commands read. */
  datatype Command = Command(id: Repository.Id, actor: Repository.Id, body: Props)

  /** `response.data`: the record a successful create, update or delete
      returns, `null` for a response without one. */
  function DataOf(r: Service.Response): Value
  {
    if r.data.Record? then r.data.record else Null
  }

  /** `create`: `owner.created` with the bare new record, only on success. */
  function Create(env: Service.Env, db: Service.Db, newId: Repository.Id, cmd: Command): (r: Outcome<(Service.Db, Service.Response, seq<Event>)>)
    ensures r.Throw? <==> Service.Create(env, Service.OwnerService, db, newId, cmd.body).Throw?
    ensures r.Ok? ==> (r.value.0, r.value.1) == Service.Create(env, Service.OwnerService, db, newId, cmd.body).value
    ensures r.Ok? && !r.value.1.success ==> r.value.2 == []
    ensures r.Ok? && r.value.1.success ==>
      exists record :: Repository.FindOne(Service.Soft, r.value.0.owners, newId) == Some(record)
                    && r.value.2 == [Event("owner.created", record)]
  {
    var done :- Service.Create(env, Service.OwnerService, db, newId, cmd.body);
    if done.1.success then
      Service.CreateSucceeded(env, Service.OwnerService, db, newId, cmd.body);
      Ok((done.0, done.1, [Event("owner.created", DataOf(done.1))]))
    else
      Ok((done.0, done.1, []))
  }

  /** `update`: `owner.updated` with the updated record, only when the
      update succeeded and the request carried a truthy password. */
  function Update(env: Service.Env, db: Service.Db, cmd: Command): (r: Outcome<(Service.Db, Service.Response, seq<Event>)>)
    ensures r.Throw? <==> Service.Update(env, Service.OwnerService, db, cmd.id, cmd.body).Throw?
    ensures r.Ok? ==> (r.value.0, r.value.1) == Service.Update(env, Service.OwnerService, db, cmd.id, cmd.body).value
    ensures r.Ok? ==> (r.value.2 != [] <==> r.value.1.success && Truthy(Get(cmd.body, "password")))
    ensures r.Ok? && r.value.2 != [] ==>
      exists record :: Repository.FindOne(Service.Soft, r.value.0.owners, cmd.id) == Some(record)
                    && r.value.2 == [Event("owner.updated", record)]
  {
    var done :- Service.Update(env, Service.OwnerService, db, cmd.id, cmd.body);
    var publish := done.1.success && Truthy(Get(cmd.body, "password"));
    Ok((done.0, done.1, if publish then [Event("owner.updated", DataOf(done.1))] else []))
  }

  /** `delete`: `owner.deleted` with the record as it was before the
      deletion, only on success. */
  function Delete(db: Service.Db, cmd: Command, now: Repository.Time): (r: (Service.Db, Service.Response, seq<Event>))
    ensures (r.0, r.1) == Service.Delete(db, Service.Owner, cmd.id, now)
    ensures r.2 != [] <==> Repository.Visible(Service.Soft, db.owners, cmd.id)
    ensures r.2 != [] ==>
      r.2 == [Event("owner.deleted", Repository.FindOne(Service.Soft, db.owners, cmd.id).value)]
  {
    var done := Service.Delete(db, Service.Owner, cmd.id, now);
    (done.0, done.1, if done.1.success then [Event("owner.deleted", DataOf(done.1))] else [])
  }

  const CreateReplica := Handler("owner.created", HandlerConfig("owner.created", true, "dlq.owner.created"))
  const UpdateReplica := Handler("owner.updated", HandlerConfig("owner.updated", true, "dlq.owner.updated"))
  const DeleteReplica := Handler("owner.deleted", HandlerConfig("owner.deleted", true, "dlq.owner.deleted"))

  const Handlers: seq<Handler> := [CreateReplica, UpdateReplica, DeleteReplica]

  /** Every owner replica handler follows the dead-letter convention. */
  lemma HandlersFollowDlqConvention()
    ensures forall h :: h in Handlers ==> FollowsDlqConvention(h)
  {
  }

  /** `updateReplica` and `deleteReplica` take the id from `data.id`; an
      `owner.updated` or `owner.deleted` event carries the record, so the
      replica reads back the id of the row the command changed. */
  lemma ReplicaIdOfPublishedRecord(id: Repository.Id, row: Repository.Row)
    ensures Member(Repository.RowValue(id, row), "id") == Ok(Str(id))
  {
  }
}

=== FILE: owner_dto.dfy ===
/**
  The owner request DTOs: `CreateOwnerRequest` and `UpdateOwnerRequest`,
  each a constructor that copies a fixed set of properties and a zod schema.
 */
module OwnerDto {
  import opened JsValue
  import opened Zod

  /** `new CreateOwnerRequest(data)` */
  function CreateOwnerRequest(data: Props): (r: Props)
    ensures r.Keys == {"name", "email", "password"}
    ensures forall k :: k in r ==> r[k] == Get(data, k)
  {
    Project(data, {"name", "email", "password"})
  }

  /** `CreateOwnerRequest.schema()` */
  const CreateOwnerSchema: Schema := [
    StringField("name", Some(5), Some(255)),
    FormatField("email", Email),
    StringField("password", Some(8), Some(50))
  ]

  /** Whether the create schema accepts `p`: a name of 5..255 characters, an
      email, and a password of 8..50 characters, all required. */
  function CreateOwnerValid(fm: Formats, p: Props): (ok: bool)
    ensures ok <==>
      && StrBetween(Get(p, "name"), 5, 255)
      && EmailValue(fm, Get(p, "email"))
      && StrBetween(Get(p, "password"), 8, 50)
  {
    AcceptsEveryField(fm, CreateOwnerSchema, p);
    Accepts(fm, CreateOwnerSchema, p)
  }

  /** `new UpdateOwnerRequest(data)`: the email is not among the copied
      properties, so an update can never carry one. */
  function UpdateOwnerRequest(data: Props): (r: Props)
    ensures r.Keys == {"name", "password"}
    ensures "email" !in r
    ensures forall k :: k in r ==> r[k] == Get(data, k)
  {
    Project(data, {"name", "password"})
  }

  /** `UpdateOwnerRequest.schema()` */
  const UpdateOwnerSchema: Schema := [
    NullableOptional(StringField("name", Some(5), Some(255))),
    NullableOptional(StringField("password", Some(8), Some(50)))
  ]

  /** Whether the update schema accepts `p`: name and password may each be
      absent or null; when given they obey the create bounds. */
  function UpdateOwnerValid(fm: Formats, p: Props): (ok: bool)
    ensures ok <==>
      && (Nullish(Get(p, "name")) || StrBetween(Get(p, "name"), 5, 255))
      && (Nullish(Get(p, "password")) || StrBetween(Get(p, "password"), 8, 50))
  {
    AcceptsEveryField(fm, UpdateOwnerSchema, p);
    Accepts(fm, UpdateOwnerSchema, p)
  }
}

=== FILE: owner_repository.dfy ===
/**
  `OwnerRepository`: a soft-deleting repository over the owner table whose
  `create` first checks that no owner and no employee already uses the
  email.  The check counts rows of both tables with no `deleted_at`
  filter, so a soft-deleted account keeps its email taken.
 */
module OwnerRepository {
  import opened JsValue
  import opened Repository

  /** `super(prisma, 'owner', relations, true)` */
  const Owners: Repo := Repo(true)

  /** The rows `where: { email }` selects: every row when the email is
      `undefined` (Prisma drops the condition), otherwise the rows whose
      email column equals it. */
  predicate Matches(row: Row, email: Value)
  {
    email == Undefined || Column(row.fields, "email") == email
  }

  /** `count({ where: { email } })` on one table. */
  function Count(t: Table, email: Value): (n: nat)
    ensures n == 0 <==> forall id :: id in t ==> !Matches(t[id], email)
  {
    var matching := set id | id in t && Matches(t[id], email);
    assert forall id :: id in t && Matches(t[id], email) ==> id in matching;
    |matching|
  }

  /** `checkUnique(email)`: the owner count plus the employee count is zero. */
  function CheckUnique(owners: Table, employees: Table, email: Value): (unique: bool)
    ensures unique <==>
      && (forall id :: id in owners ==> !Matches(owners[id], email))
      && (forall id :: id in employees ==> !Matches(employees[id], email))
  {
    Count(owners, email) + Count(employees, email) == 0
  }

  /** The email column of a row. */
  function Email(row: Row): Value
  {
    Column(row.fields, "email")
  }

  /** No two accounts, owners and employees together, share an email. */
  predicate EmailsUnique(owners: Table, employees: Table)
  {
    && (forall a, b :: a in owners && b in owners && a != b ==> Email(owners[a]) != Email(owners[b]))
    && (forall a, b :: a in employees && b in employees && a != b ==> Email(employees[a]) != Email(employees[b]))
    && (forall a, b :: a in owners && b in employees ==> Email(owners[a]) != Email(employees[b]))
  }

  /** The row `create(data)` writes holds an email no existing account
      matches, whenever `checkUnique(data.email)` held. */
  lemma NewEmailIsFree(owners: Table, employees: Table, data: Props)
    requires CheckUnique(owners, employees, Get(data, "email"))
    ensures forall id :: id in owners ==> Email(owners[id]) != Email(Row(Written(data), None))
    ensures forall id :: id in employees ==> Email(employees[id]) != Email(Row(Written(data), None))
  {
    var email := Get(data, "email");
    if email != Undefined {
      assert Email(Row(Written(data), None)) == email;
    } else {
      assert owners == map[] by {
        forall id | id in owners ensures false { assert Matches(owners[id], email); }
      }
      assert employees == map[] by {
        forall id | id in employees ensures false { assert Matches(employees[id], email); }
      }
    }
  }

  /** `create(data)`: `null` (and no write) when the email is taken, the
      base create otherwise. */
  function Create(owners: Table, employees: Table, id: Id, data: Props, admits: Admits): (r: Outcome<(Table, Option<Value>)>)
    ensures !CheckUnique(owners, employees, Get(data, "email")) ==> r == Ok((owners, None))
    ensures CheckUnique(owners, employees, Get(data, "email")) ==>
      match Repository.Create(owners, id, data, admits)
      case Ok(created) => r == Ok((created.0, Some(created.1)))
      case Throw(e) => r == Throw(e)
  {
    if CheckUnique(owners, employees, Get(data, "email")) then
      var created :- Repository.Create(owners, id, data, admits);
      Ok((created.0, Some(created.1)))
    else
      Ok((owners, None))
  }

  /** An owner whose email is unused is inserted, live, and returned,
      exactly when the schema accepts the row and the id is new. */
  lemma CreateFreshEmail(owners: Table, employees: Table, id: Id, data: Props, admits: Admits)
    requires CheckUnique(owners, employees, Get(data, "email"))
    ensures var r := Create(owners, employees, id, data, admits);
      && (r.Ok? <==> admits(Written(data)) && id !in owners)
      && (r.Ok? ==>
        && r.value.1.Some?
        && r.value.0 == owners[id := Row(Written(data), None)]
        && FindOne(Owners, r.value.0, id) == r.value.1)
  {
  }

  /** An owner whose email any owner or employee already has, soft-deleted
      or not, is not inserted: the result is `null` and the table unchanged. */
  lemma CreateTakenEmail(owners: Table, employees: Table, id: Id, data: Props, admits: Admits, holder: Id)
    requires (holder in owners && Email(owners[holder]) == Get(data, "email"))
          || (holder in employees && Email(employees[holder]) == Get(data, "email"))
    ensures Create(owners, employees, id, data, admits) == Ok((owners, None))
  {
    if holder in owners && Email(owners[holder]) == Get(data, "email") {
      assert Matches(owners[holder], Get(data, "email"));
    } else {
      assert Matches(employees[holder], Get(data, "email"));
    }
  }

  /** Creating an owner keeps emails unique across both tables. */
  lemma CreateKeepsEmailsUnique(owners: Table, employees: Table, id: Id, data: Props, admits: Admits)
    requires EmailsUnique(owners, employees)
    requires Create(owners, employees, id, data, admits).Ok?
    ensures EmailsUnique(Create(owners, employees, id, data, admits).value.0, employees)
  {
    if CheckUnique(owners, employees, Get(data, "email")) {
      NewEmailIsFree(owners, employees, data);
      var owners' := Create(owners, employees, id, data, admits).value.0;
      assert owners' == owners[id := Row(Written(data), None)];
    }
  }
}

=== FILE: repository.dfy ===
/**
  `BaseRepository`: one Prisma table seen as a finite map from id to row,
  each row carrying an optional `deleted_at` time.  With soft delete on,
  reads and updates see only live rows (`deleted_at` null), `delete` only
  stamps the marker, and `restore` clears it; with it off, `delete` removes
  the row.

  Ids come from the database's generator, a parameter here.  What the
  database schema demands of a new or updated row (its required columns,
  and parent rows for its foreign keys) is a parameter too, since the Prisma schema
  is not part of this model.  The texts of Prisma's own errors are stood
  for by `NotFound`, `UniqueViolation`, `SchemaViolation` and
  `UpdateViolation`.
 */
module Repository {
  import opened JsValue

  type Id = string

  /** A point in time in milliseconds, as `new Date()` yields it. */
  type Time = int

  /** The stored columns other than `id` and `deleted_at`. */
  datatype Row = Row(fields: Props, deletedAt: Option<Time>)

  type Table = map<Id, Row>

  /** The fourth constructor argument of `BaseRepository`. */
  datatype Repo = Repo(softDelete: bool)

  /** Prisma's error for an update or delete whose `where` matches no row. */
  const NotFound: Exception := Error("Record to update not found.")

  /** Prisma's error for a create the schema refuses: a required column
      missing, or a foreign key naming no row. */
  const SchemaViolation: Exception := Error("Invalid `prisma.create()` invocation")

  /** Prisma's error for an update whose row the schema refuses, such as a
      foreign key changed to name no row. */
  const UpdateViolation: Exception := Error("Invalid `prisma.update()` invocation")

  /** Prisma's error for a create whose id is already taken. */
  const UniqueViolation: Exception := Error("Unique constraint failed on the fields: (`id`)")

  predicate Live(row: Row)
  {
    row.deletedAt.None?
  }

  /** What the repository's `where` clause on an id matches: the row, and
      with soft delete on only while it is live. */
  predicate Visible(repo: Repo, t: Table, id: Id)
  {
    id in t && (!repo.softDelete || Live(t[id]))
  }

  /** Prisma does not write a property whose value is `undefined`. */
  function Written(data: Props): (w: Props)
    ensures forall k :: k in w <==> k in data && data[k] != Undefined
    ensures forall k :: k in w ==> w[k] == data[k]
  {
    map k | k in data && data[k] != Undefined :: data[k]
  }

  /** A stored column: `null` when it was never written. */
  function Column(fields: Props, k: string): (v: Value)
    ensures k in fields ==> v == fields[k]
    ensures k !in fields ==> v == Null
  {
    if k in fields then fields[k] else Null
  }

  /** The record Prisma returns for a row: its columns with `id` and
      `deleted_at`. */
  function RowValue(id: Id, row: Row): (v: Value)
    ensures v.Obj? && v.props.Keys == row.fields.Keys + {"id", "deleted_at"}
    ensures v.props["id"] == Str(id)
    ensures v.props["deleted_at"] == (if Live(row) then Null else Date(row.deletedAt))
    ensures forall k :: k in row.fields && k != "id" && k != "deleted_at" ==> v.props[k] == row.fields[k]
  {
    Obj(row.fields["id" := Str(id)]["deleted_at" := if Live(row) then Null else Date(row.deletedAt)])
  }

  /** Whether the database schema accepts a row with these columns, given
      the rest of the database as it stands. */
  type Admits = Props -> bool

  /** `create(data)`: a live row under the generated id.  A row the schema
      refuses is rejected before it is sent; a taken id is a
      unique-constraint error. */
  function Create(t: Table, id: Id, data: Props, admits: Admits): (r: Outcome<(Table, Value)>)
    ensures r.Throw? <==> !admits(Written(data)) || id in t
    ensures !admits(Written(data)) ==> r == Throw(SchemaViolation)
    ensures admits(Written(data)) && id in t ==> r == Throw(UniqueViolation)
    ensures r.Ok? ==> r.value.0 == t[id := Row(Written(data), None)]
    ensures r.Ok? ==> r.value.1 == RowValue(id, Row(Written(data), None))
  {
    if !admits(Written(data)) then Throw(SchemaViolation)
    else if id in t then Throw(UniqueViolation)
    else
      var row := Row(Written(data), None);
      Ok((t[id := row], RowValue(id, row)))
  }

  /** `findAll()`: the live rows with soft delete on, every row otherwise. */
  function FindAll(repo: Repo, t: Table): (r: Table)
    ensures forall id :: id in r <==> Visible(repo, t, id)
    ensures forall id :: id in r ==> id in t && r[id] == t[id]
  {
    map id | id in t && Visible(repo, t, id) :: t[id]
  }

  /** `findOne(id)`: the row when the `where` clause matches it, else `null`. */
  function FindOne(repo: Repo, t: Table, id: Id): (r: Option<Value>)
    ensures r.Some? <==> Visible(repo, t, id)
    ensures r.Some? ==> r.value == RowValue(id, t[id])
  {
    if Visible(repo, t, id) then Some(RowValue(id, t[id])) else None
  }

  /** `update(id, data)`: overwrites the given columns of a visible row and
      keeps the rest; a row the `where` clause misses is an error, and so
      is an updated row the schema refuses. */
  function Update(repo: Repo, t: Table, id: Id, data: Props, admits: Admits): (r: Outcome<(Table, Value)>)
    ensures r.Throw? <==> !Visible(repo, t, id) || !admits(t[id].fields + Written(data))
    ensures !Visible(repo, t, id) ==> r == Throw(NotFound)
    ensures Visible(repo, t, id) && !admits(t[id].fields + Written(data)) ==> r == Throw(UpdateViolation)
    ensures r.Ok? ==> r.value.0.Keys == t.Keys
    ensures r.Ok? ==> forall other :: other in t && other != id ==> r.value.0[other] == t[other]
    ensures r.Ok? ==> r.value.0[id].deletedAt == t[id].deletedAt
    ensures r.Ok? ==> forall k :: k in r.value.0[id].fields <==> k in t[id].fields || k in Written(data)
    ensures r.Ok? ==> forall k :: k in Written(data) ==> r.value.0[id].fields[k] == data[k]
    ensures r.Ok? ==> forall k :: k in t[id].fields && k !in Written(data) ==> r.value.0[id].fields[k] == t[id].fields[k]
    ensures r.Ok? ==> r.value.1 == RowValue(id, r.value.0[id])
  {
    if !Visible(repo, t, id) then Throw(NotFound)
    else if !admits(t[id].fields + Written(data)) then Throw(UpdateViolation)
    else
      var row := t[id].(fields := t[id].fields + Written(data));
      Ok((t[id := row], RowValue(id, row)))
  }

  /** `delete(id)`: with soft delete on, stamps `deleted_at` with `now` on the
      row of that id, deleted or not; otherwise removes the row.  An unknown
      id is an error either way. */
  function Delete(repo: Repo, t: Table, id: Id, now: Time): (r: Outcome<Table>)
    ensures r.Throw? <==> id !in t
    ensures r.Throw? ==> r.exception == NotFound
    ensures r.Ok? && repo.softDelete ==> r.value == t[id := t[id].(deletedAt := Some(now))]
    ensures r.Ok? && !repo.softDelete ==> r.value == t - {id}
  {
    if id !in t then Throw(NotFound)
    else if repo.softDelete then Ok(t[id := t[id].(deletedAt := Some(now))])
    else Ok(t - {id})
  }

  /** `restore(id)`: clears `deleted_at`, whatever the repository's mode. */
  function Restore(t: Table, id: Id): (r: Outcome<Table>)
    ensures r.Throw? <==> id !in t
    ensures r.Throw? ==> r.exception == NotFound
    ensures r.Ok? ==> r.value == t[id := t[id].(deletedAt := None)]
  {
    if id !in t then Throw(NotFound)
    else Ok(t[id := t[id].(deletedAt := None)])
  }

  /** The related rows an `include: { rel: { where: { deleted_at: null } } }`
      attaches: the live rows whose foreign key names the parent. */
  function IncludeLive(children: Table, foreignKey: string, parent: Id): (r: Table)
    ensures forall id :: id in r <==> id in children && Live(children[id]) && Column(children[id].fields, foreignKey) == Str(parent)
    ensures forall id :: id in r ==> r[id] == children[id]
  {
    map id | id in children && Live(children[id]) && Column(children[id].fields, foreignKey) == Str(parent) :: children[id]
  }

  // Properties relating several operations.

  /** A soft delete keeps the row, hides it from `findOne` and `findAll`, and
      leaves every other row as it was. */
  lemma SoftDeleteHides(repo: Repo, t: Table, id: Id, now: Time)
    requires repo.softDelete && id in t
    ensures Delete(repo, t, id, now).Ok?
    ensures var t' := Delete(repo, t, id, now).value;
      && t'.Keys == t.Keys
      && t'[id].fields == t[id].fields
      && FindOne(repo, t', id).None?
      && id !in FindAll(repo, t')
      && (forall other :: other in t && other != id ==> t'[other] == t[other])
  {
  }

  /** A hard delete removes the row: `findOne` no longer returns it. */
  lemma HardDeleteRemoves(repo: Repo, t: Table, id: Id, now: Time)
    requires !repo.softDelete && id in t
    ensures Delete(repo, t, id, now).Ok?
    ensures var t' := Delete(repo, t, id, now).value;
      id !in t' && FindOne(repo, t', id).None? && t'.Keys == t.Keys - {id}
  {
  }

  /** Deleting and then restoring a live row gives back exactly the table
      and the record `findOne` returned before. */
  lemma DeleteThenRestore(repo: Repo, t: Table, id: Id, now: Time)
    requires id in t && Live(t[id])
    ensures Delete(repo, t, id, now).Ok?
    ensures repo.softDelete ==> Restore(Delete(repo, t, id, now).value, id) == Ok(t)
    ensures repo.softDelete ==> FindOne(repo, Restore(Delete(repo, t, id, now).value, id).value, id) == FindOne(repo, t, id)
  {
    if repo.softDelete {
      var t' := Delete(repo, t, id, now).value;
      assert t'[id := t'[id].(deletedAt := None)] == t;
    }
  }

  /** After a successful update, `findOne` returns the updated record. */
  lemma UpdateThenFindOne(repo: Repo, t: Table, id: Id, data: Props, admits: Admits)
    requires Update(repo, t, id, data, admits).Ok?
    ensures FindOne(repo, Update(repo, t, id, data, admits).value.0, id) == Some(Update(repo, t, id, data, admits).value.1)
  {
  }

  /** A created row is live and `findOne` returns exactly the created record. */
  lemma CreateThenFindOne(repo: Repo, t: Table, id: Id, data: Props, admits: Admits)
    requires Create(t, id, data, admits).Ok?
    ensures FindOne(repo, Create(t, id, data, admits).value.0, id) == Some(Create(t, id, data, admits).value.1)
  {
  }
}

=== FILE: rpc_filter.dfy ===
/**
  `RPCExceptionFilter`: when it is invoked on an exception escaping a
  handler, it answers the same error object, status 500, carrying the
  exception's message (or the thrown value itself) and the handler's input
  data when it is truthy.  Whether it is invoked depends on the application
  the handler runs in (`Topology.FilterCovers`).
 */
module RpcFilter {
  import opened JsValue
  import Repository
  import Zod
  import OwnerRepository
  import EmployeeRepository
  import Service
  import ServiceProperties
  import EmployeeController
  import Topology

  datatype ErrorResponse = ErrorResponse(statusCode: nat, message: string, error: Value, data: Value)

  /** `catch(exception, host)` with `data` the RPC input of the handler. */
  function Catch(exception: Exception, data: Value): (r: ErrorResponse)
    ensures r.statusCode == 500 && r.message == "Internal server error"
    ensures exception.Error? ==> r.error == Str(exception.message)
    ensures exception.Raw? ==> r.error == exception.thrown
    ensures Truthy(data) ==> r.data == data
    ensures !Truthy(data) ==> r.data == Null
  {
    ErrorResponse(
      500,
      "Internal server error",
      match exception
      case Error(message) => Str(message)
      case Raw(thrown) => thrown,
      if Truthy(data) then data else Null)
  }

  /** What escapes a handler running in `t` under the startup `steps`: the
      filter's answer when the filter covers `t`, and otherwise the
      exception itself, left to the framework's default handling. */
  datatype Reply = Filtered(response: ErrorResponse) | Unfiltered(exception: Exception)

  function Escape(steps: seq<Topology.Step>, t: Topology.Transport, exception: Exception, data: Value): (r: Reply)
    ensures r.Filtered? <==> Topology.FilterCovers(steps, t)
    ensures r.Filtered? ==> r.response == Catch(exception, data)
    ensures r.Unfiltered? ==> r.exception == exception
  {
    if Topology.FilterCovers(steps, t) then Filtered(Catch(exception, data)) else Unfiltered(exception)
  }

  /** An employee create whose email an owner or employee already has
      throws "Create failed: Email already exists" out of the handler. */
  lemma DuplicateEmployeeCreateThrows(env: Service.Env, db: Service.Db, newId: Repository.Id,
                                      cmd: EmployeeController.Command, holder: Repository.Id)
    requires Zod.Accepts(env.fm, Service.EmployeeService.createSchema, cmd.body["owner_id" := Str(cmd.actor)])
    requires (holder in db.owners && OwnerRepository.Email(db.owners[holder]) == Get(cmd.body, "email"))
          || (holder in db.employees && OwnerRepository.Email(db.employees[holder]) == Get(cmd.body, "email"))
    ensures EmployeeController.Create(env, db, newId, cmd)
         == Throw(Error(EmployeeRepository.CreatePrefix + EmployeeRepository.EmailTaken))
  {
    var body := cmd.body["owner_id" := Str(cmd.actor)];
    assert Get(body, "email") == Get(cmd.body, "email");
    ServiceProperties.EmployeeDuplicateCreate(env, db, newId, body, holder);
    EmployeeRepository.EmailTakenMessage();
  }

  /** As `main.ts` connects the TCP and RabbitMQ microservices, without
      `inheritAppConfig`, the duplicate-email throw of the `post:employee`
      handler escapes unfiltered over either: the caller never gets the
      filter's 500 object. */
  lemma DuplicateEmployeeCreateEscapes(env: Service.Env, db: Service.Db, newId: Repository.Id,
                                       cmd: EmployeeController.Command, payload: Value, holder: Repository.Id,
                                       configured: Option<string>, t: Topology.Transport)
    requires t != Topology.Http
    requires Zod.Accepts(env.fm, Service.EmployeeService.createSchema, cmd.body["owner_id" := Str(cmd.actor)])
    requires (holder in db.owners && OwnerRepository.Email(db.owners[holder]) == Get(cmd.body, "email"))
          || (holder in db.employees && OwnerRepository.Email(db.employees[holder]) == Get(cmd.body, "email"))
    ensures EmployeeController.Create(env, db, newId, cmd).Throw?
    ensures Escape(Topology.Bootstrap(configured), t,
                   EmployeeController.Create(env, db, newId, cmd).exception, payload)
         == Unfiltered(Error("Create failed: Email already exists"))
  {
    DuplicateEmployeeCreateThrows(env, db, newId, cmd, holder);
    EmployeeRepository.EmailTakenMessage();
  }

  /** With the microservices connected with `{ inheritAppConfig: true }`,
      the same throw reaches the filter, which answers status 500, the
      repository's message as the error, and the RPC input as the data. */
  lemma DuplicateEmployeeCreateCaught(env: Service.Env, db: Service.Db, newId: Repository.Id,
                                      cmd: EmployeeController.Command, payload: Value, holder: Repository.Id,
                                      configured: Option<string>, t: Topology.Transport)
    requires payload.Obj? && Get(payload.props, "body") == Obj(cmd.body)
    requires Zod.Accepts(env.fm, Service.EmployeeService.createSchema, cmd.body["owner_id" := Str(cmd.actor)])
    requires (holder in db.owners && OwnerRepository.Email(db.owners[holder]) == Get(cmd.body, "email"))
          || (holder in db.employees && OwnerRepository.Email(db.employees[holder]) == Get(cmd.body, "email"))
    ensures EmployeeController.Create(env, db, newId, cmd).Throw?
    ensures Escape(Topology.BootstrapIntended(configured), t,
                   EmployeeController.Create(env, db, newId, cmd).exception, payload)
         == Filtered(ErrorResponse(500, "Internal server error", Str("Create failed: Email already exists"), payload))
  {
    DuplicateEmployeeCreateThrows(env, db, newId, cmd, holder);
    EmployeeRepository.EmailTakenMessage();
  }
}

=== FILE: seeder.dfy ===
/**
  The owner seeder: it creates a default owner unless one with the seed
  email already exists, and announces the new owner on the broker with
  its own `publishEvent`, which asserts a durable topic exchange and
  publishes `{ pattern, data }` under the pattern as routing key.
  Connecting to the broker and the database, and the password hash, are
  parameters or not modelled.
 */
module Seeder {
  import opened JsValue
  import Repository
  import Messaging

  const DefaultExchange := "events_broadcast"
  const OriginQueue := "master_service_queue_1"
  const SeedEmail := "christian@gmail.com"
  const SeedName := "Christian"

  /** The channel operations `publishEvent` performs. */
  datatype BrokerOp =
    | AssertExchange(exchange: string, kind: string, durable: bool)
    | Publish(exchange: string, routingKey: string, message: Value, headers: Props)

  /** `process.env.RMQ_EXCHANGE || 'events_broadcast'` */
  function ExchangeName(configured: Option<string>): (name: string)
    ensures configured.Some? && configured.value != "" ==> name == configured.value
    ensures configured.None? || configured.value == "" ==> name == DefaultExchange
  {
    if configured.Some? && configured.value != "" then configured.value else DefaultExchange
  }

  /** `publishEvent(cmd, payload)`: assert the exchange, then publish. */
  function PublishEvent(configured: Option<string>, cmd: string, payload: Value): (ops: seq<BrokerOp>)
    ensures |ops| == 2 && ops[0].AssertExchange? && ops[1].Publish?
    ensures ops[0] == AssertExchange(ExchangeName(configured), "topic", true)
    ensures ops[1].exchange == ops[0].exchange
    ensures ops[1].message.Obj? && ops[1].message.props.Keys == {"pattern", "data"}
    ensures ops[1].message.props["pattern"] == Str(ops[1].routingKey) && ops[1].routingKey == cmd
    ensures ops[1].message.props["data"] == payload
    ensures ops[1].headers.Keys == {"x-retry-count", "origin-queue"}
    ensures ops[1].headers["x-retry-count"] == Num(0.0) && ops[1].headers["origin-queue"] == Str(OriginQueue)
  {
    var exchange := ExchangeName(configured);
    var message := Obj(map["pattern" := Str(cmd), "data" := payload]);
    [AssertExchange(exchange, "topic", true),
     Publish(exchange, cmd, message, map["x-retry-count" := Num(0.0), "origin-queue" := Str(OriginQueue)])]
  }

  /** `findFirst({ where: { email } })`: any owner row, soft-deleted ones
      included. */
  predicate HasSeedOwner(owners: Repository.Table)
  {
    exists o | o in owners :: Repository.Column(owners[o].fields, "email") == Str(SeedEmail)
  }

  /** The columns of the default owner; `passwordHash` stands for the
      bcrypt hash of the default password. */
  function SeedData(passwordHash: string): Props
  {
    map["email" := Str(SeedEmail), "password" := Str(passwordHash), "name" := Str(SeedName)]
  }

  /** The seed row is written as given and makes the seed owner exist. */
  lemma SeedRowWritten(owners: Repository.Table, id: Repository.Id, passwordHash: string)
    ensures Repository.Written(SeedData(passwordHash)) == SeedData(passwordHash)
    ensures HasSeedOwner(owners[id := Repository.Row(SeedData(passwordHash), None)])
  {
    var t := owners[id := Repository.Row(SeedData(passwordHash), None)];
    assert Repository.Column(t[id].fields, "email") == Str(SeedEmail);
  }

  /** `main()`: nothing when the seed owner exists; otherwise create it
      under the generated `id` and publish `owner.created` with
      `{ data: user1, user: user1.id }`. */
  function Seed(owners: Repository.Table, id: Repository.Id, passwordHash: string, configured: Option<string>,
                admits: Repository.Admits): (r: Outcome<(Repository.Table, seq<BrokerOp>)>)
    ensures HasSeedOwner(owners) ==> r == Ok((owners, []))
    ensures !HasSeedOwner(owners) ==> (r.Ok? <==> admits(SeedData(passwordHash)) && id !in owners)
    ensures !HasSeedOwner(owners) && r.Ok? ==>
      && r.value.0 == owners[id := Repository.Row(SeedData(passwordHash), None)]
      && HasSeedOwner(r.value.0)
      && |r.value.1| == 2 && r.value.1[1].Publish? && r.value.1[1].routingKey == "owner.created"
      && r.value.1[1].message.Obj? && "data" in r.value.1[1].message.props && r.value.1[1].message.props["data"]
         == Messaging.Envelope(Repository.RowValue(id, r.value.0[id]), Str(id))
  {
    if HasSeedOwner(owners) then Ok((owners, []))
    else
      SeedRowWritten(owners, id, passwordHash);
      var created :- Repository.Create(owners, id, SeedData(passwordHash), admits);
      Ok((created.0, PublishEvent(configured, "owner.created", Messaging.Envelope(created.1, Str(id)))))
  }

  /** Seeding twice creates and publishes nothing the second time. */
  lemma SeedIdempotent(owners: Repository.Table, id: Repository.Id, id': Repository.Id, passwordHash: string,
                       configured: Option<string>, admits: Repository.Admits, admits': Repository.Admits)
    requires Seed(owners, id, passwordHash, configured, admits).Ok?
    ensures var once := Seed(owners, id, passwordHash, configured, admits).value.0;
      Seed(once, id', passwordHash, configured, admits') == Ok((once, []))
  {
  }

  /** The seeder's `owner.created` payload wraps the record, so reading
      `data.id` from it gives nothing, unlike the controller's bare
      record. */
  lemma SeedPayloadWrapsRecord(id: Repository.Id, row: Repository.Row)
    ensures Member(Messaging.Envelope(Repository.RowValue(id, row), Str(id)), "id") == Ok(Undefined)
    ensures Member(Repository.RowValue(id, row), "id") == Ok(Str(id))
  {
  }
}

=== FILE: service.dfy ===
/**
  `BaseService` and its four configurations.  Every command runs the same
  pipeline (transform the input, validate it against a schema, call the
  repository) and answers with a response carrying a fixed message and
  status code.  A validation failure is not turned into a response: it
  propagates as a thrown error.

  `StoreService` is wired with the store DTO constructors as written;
  `StoreServiceIntended` uses them as their schemas intend, and is the
  wiring the lemmas about a working store service are stated for.
 */
module Service {
  import opened JsValue
  import opened JsText
  import opened Zod
  import opened Repository
  import OwnerRepository
  import EmployeeRepository
  import OwnerDto
  import EmployeeDto
  import CompanyDto
  import StoreDto

  /** The environment the model leaves abstract: JavaScript conversions,
      zod's formats, and what the database schema admits as a new row of
      each table given the database as it stands. */
  datatype Env = Env(rt: Runtime, fm: Formats, admits: (Db, Entity) -> Admits)

  datatype Entity = Owner | Employee | Company | Store

  /** The four tables. */
  datatype Db = Db(owners: Table, employees: Table, companies: Table, stores: Table) {

    function Of(e: Entity): Table
    {
      match e
      case Owner => owners
      case Employee => employees
      case Company => companies
      case Store => stores
    }

    function With(e: Entity, t: Table): (db: Db)
      ensures db.Of(e) == t
      ensures forall other :: other != e ==> db.Of(other) == Of(other)
    {
      match e
      case Owner => this.(owners := t)
      case Employee => this.(employees := t)
      case Company => this.(companies := t)
      case Store => this.(stores := t)
    }
  }

  /** The `transformCreateData` / `transformUpdateData` overrides. */
  datatype Transform =
    | Identity
    | OwnerCreateDto
    | OwnerUpdateDto
    | StoreCreateDto
    | StoreUpdateDto
    | StoreCreateDtoIntended
    | StoreUpdateDtoIntended

  /** What a concrete service fixes: its repository, its two schemas and
      its two transforms. */
  datatype Wiring = Wiring(entity: Entity, createSchema: Schema, updateSchema: Schema,
                           createTransform: Transform, updateTransform: Transform)

  const OwnerService: Wiring :=
    Wiring(Owner, OwnerDto.CreateOwnerSchema, OwnerDto.UpdateOwnerSchema, OwnerCreateDto, OwnerUpdateDto)

  const EmployeeService: Wiring :=
    Wiring(Employee, EmployeeDto.CreateEmployeeSchema, EmployeeDto.UpdateEmployeeSchema, Identity, Identity)

  /** Updates are validated against the create schema. */
  const CompanyService: Wiring :=
    Wiring(Company, CompanyDto.CreateCompanySchema, CompanyDto.CreateCompanySchema, Identity, Identity)

  const StoreService: Wiring :=
    Wiring(Store, StoreDto.CreateStoreSchema, StoreDto.UpdateStoreSchema, StoreCreateDto, StoreUpdateDto)

  /** The store service with the DTO constructors corrected. */
  const StoreServiceIntended: Wiring :=
    Wiring(Store, StoreDto.CreateStoreSchema, StoreDto.UpdateStoreSchema, StoreCreateDtoIntended, StoreUpdateDtoIntended)

  function Apply(rt: Runtime, t: Transform, data: Props): (r: Outcome<Props>)
    ensures t != StoreUpdateDto ==> r.Ok?
    ensures t == Identity ==> r == Ok(data)
  {
    match t
    case Identity => Ok(data)
    case OwnerCreateDto => Ok(OwnerDto.CreateOwnerRequest(data))
    case OwnerUpdateDto => Ok(OwnerDto.UpdateOwnerRequest(data))
    case StoreCreateDto => Ok(StoreDto.CreateStoreRequest(rt, data))
    case StoreUpdateDto => StoreDto.UpdateStoreRequest(rt, data)
    case StoreCreateDtoIntended => Ok(StoreDto.CreateStoreRequestIntended(rt, data))
    case StoreUpdateDtoIntended => Ok(StoreDto.UpdateStoreRequestIntended(rt, data))
  }

  /** `validation.validate(data, schema)`: the schema's parse of the object. */
  function Validate(fm: Formats, schema: Schema, data: Props): (r: Outcome<Props>)
    ensures r.Ok? <==> Accepts(fm, schema, data)
    ensures r.Throw? ==> r.exception == Error(fm.issueText)
    ensures r.Ok? ==> forall k :: k in r.value <==> k in data && k in Keys(schema)
    ensures r.Ok? ==> forall k :: k in r.value ==> r.value[k] == data[k]
  {
    Parse(fm, schema, Obj(data))
  }

  // Responses

  datatype Issue = Issue(index: string, error: string)

  /** The `data` of a response. */
  datatype Body =
    | Nothing
    | Record(record: Value)
    | Records(rows: Table)
    | Created(items: seq<Value>)
    | Issues(issues: seq<Issue>)
    | Failure(error: Exception)

  /** `CustomResponse.success(...)` and `CustomResponse.error(...)` */
  datatype Response = Response(success: bool, message: string, data: Body, statusCode: nat)

  function Success(message: string, data: Body, statusCode: nat): Response
  {
    Response(true, message, data, statusCode)
  }

  function Failed(message: string, data: Body, statusCode: nat): Response
  {
    Response(false, message, data, statusCode)
  }

  const NotFoundResponse: Response := Failed("Data not found", Nothing, 404)

  // The repository each service holds.

  const Soft: Repo := Repo(true)

  /** No owner and no employee has the email of `data`. */
  predicate EmailFree(db: Db, data: Props)
  {
    OwnerRepository.CheckUnique(db.owners, db.employees, Get(data, "email"))
  }

  /** What an insert into the table of `e` needs: a new id, a row the
      schema admits and, for an employee, an unused email. */
  predicate Insertable(env: Env, db: Db, e: Entity, id: Id, data: Props)
  {
    && id !in db.Of(e)
    && env.admits(db, e)(Written(data))
    && (e == Employee ==> EmailFree(db, data))
  }

  /** `repository.create(data)`: the owner repository answers `null` for a
      taken email; the others return the record or throw. */
  function RepoCreate(env: Env, db: Db, e: Entity, id: Id, data: Props): (r: Outcome<(Db, Option<Value>)>)
    ensures e == Owner && !EmailFree(db, data) ==> r == Ok((db, None))
    ensures !(e == Owner && !EmailFree(db, data)) ==> (r.Ok? <==> Insertable(env, db, e, id, data))
    ensures r.Ok? && r.value.1.None? ==> e == Owner && r.value.0 == db
    ensures r.Ok? && r.value.1.Some? ==>
      && id !in db.Of(e)
      && r.value.0 == db.With(e, db.Of(e)[id := Row(Written(data), None)])
      && r.value.1 == Some(RowValue(id, Row(Written(data), None)))
  {
    match e
    case Owner =>
      var created :- OwnerRepository.Create(db.owners, db.employees, id, data, env.admits(db, e));
      Ok((db.With(Owner, created.0), created.1))
    case Employee =>
      var created :- EmployeeRepository.Create(db.owners, db.employees, id, data, env.admits(db, e));
      Ok((db.With(Employee, created.0), Some(created.1)))
    case _ =>
      var created :- Repository.Create(db.Of(e), id, data, env.admits(db, e));
      Ok((db.With(e, created.0), Some(created.1)))
  }

  /** The row under `id`, with `data`'s columns written over it, is one
      the database's schema admits. */
  predicate Updatable(env: Env, db: Db, e: Entity, id: Id, data: Props)
  {
    id in db.Of(e) && env.admits(db, e)(db.Of(e)[id].fields + Written(data))
  }

  /** `repository.update(id, data)`: keyed on the id alone for employees,
      on live rows for the others; the schema may refuse the updated row. */
  function RepoUpdate(env: Env, db: Db, e: Entity, id: Id, data: Props): (r: Outcome<(Db, Value)>)
    ensures Visible(Soft, db.Of(e), id) ==> (r.Ok? <==> Updatable(env, db, e, id, data))
    ensures r.Ok? ==> Updatable(env, db, e, id, data)
    ensures r.Ok? ==> r.value.0 == db.With(e, db.Of(e)[id := db.Of(e)[id].(fields := db.Of(e)[id].fields + Written(data))])
    ensures r.Ok? ==> r.value.1 == RowValue(id, r.value.0.Of(e)[id])
  {
    if e == Employee then
      var updated :- EmployeeRepository.Update(db.employees, id, data, env.admits(db, e));
      Ok((db.With(Employee, updated.0), updated.1))
    else
      var updated :- Repository.Update(Soft, db.Of(e), id, data, env.admits(db, e));
      Ok((db.With(e, updated.0), updated.1))
  }

  // The commands.

  /** The columns a create hands to the repository: the transformed input
      as the create schema strips it. */
  function CreateInput(env: Env, w: Wiring, data: Props): Outcome<Props>
  {
    var input :- Apply(env.rt, w.createTransform, data);
    Validate(env.fm, w.createSchema, input)
  }

  /** `create(data)`: transform, validate, insert; a falsy insert result
      (an owner's taken email) is the 500 response with nothing written,
      otherwise 201 with the new record.  A failing transform, validation or
      insert throws. */
  function Create(env: Env, w: Wiring, db: Db, id: Id, data: Props): (r: Outcome<(Db, Response)>)
    ensures Apply(env.rt, w.createTransform, data).Throw? ==> r.Throw?
    ensures var input := Apply(env.rt, w.createTransform, data);
      input.Ok? && !Accepts(env.fm, w.createSchema, input.value) ==> r == Throw(Error(env.fm.issueText))
    ensures CreateInput(env, w, data).Ok? ==>
      var v := CreateInput(env, w, data).value;
      && (w.entity == Owner && !EmailFree(db, v) ==> r == Ok((db, Failed("Failed to create new data", Nothing, 500))))
      && (!(w.entity == Owner && !EmailFree(db, v)) ==> (r.Ok? <==> Insertable(env, db, w.entity, id, v)))
    ensures r.Ok? ==> CreateInput(env, w, data).Ok?
    ensures r.Ok? ==> r.value.1.statusCode == 201 || r.value.1.statusCode == 500
    ensures r.Ok? ==>
      (r.value.1.statusCode == 500 <==> w.entity == Owner && !EmailFree(db, CreateInput(env, w, data).value))
    ensures r.Ok? && r.value.1.statusCode == 500 ==>
      r.value == (db, Failed("Failed to create new data", Nothing, 500))
    ensures r.Ok? && r.value.1.statusCode == 201 ==>
      var row := Row(Written(CreateInput(env, w, data).value), None);
      && r.value.0 == db.With(w.entity, db.Of(w.entity)[id := row])
      && r.value.1 == Success("New Data Created!", Record(RowValue(id, row)), 201)
  {
    var validated :- CreateInput(env, w, data);
    var created :- RepoCreate(env, db, w.entity, id, validated);
    match created.1
    case None => Ok((db, Failed("Failed to create new data", Nothing, 500)))
    case Some(record) => Ok((created.0, Success("New Data Created!", Record(record), 201)))
  }

  /** A successful create is the 201 whose record is the new row, which
      `findOne` then finds. */
  lemma CreateSucceeded(env: Env, w: Wiring, db: Db, id: Id, data: Props)
    requires Create(env, w, db, id, data).Ok? && Create(env, w, db, id, data).value.1.success
    ensures Create(env, w, db, id, data).value.1.statusCode == 201
    ensures id in Create(env, w, db, id, data).value.0.Of(w.entity)
    ensures Create(env, w, db, id, data).value.1.data
         == Record(RowValue(id, Create(env, w, db, id, data).value.0.Of(w.entity)[id]))
    ensures Repository.FindOne(Soft, Create(env, w, db, id, data).value.0.Of(w.entity), id)
         == Some(RowValue(id, Create(env, w, db, id, data).value.0.Of(w.entity)[id]))
  {
  }

  /** `findAll(filter)`: every live row, always 200; the filter is not
      passed on by the base repository. */
  function FindAll(db: Db, e: Entity): (r: Response)
    ensures r.success && r.statusCode == 200 && r.data.Records?
    ensures forall id :: id in r.data.rows <==> id in db.Of(e) && Live(db.Of(e)[id])
  {
    Success("Data Found!", Records(Repository.FindAll(Soft, db.Of(e))), 200)
  }

  /** `findOne(id)`: 404 unless a live row has the id, else 200 with it. */
  function FindOne(db: Db, e: Entity, id: Id): (r: Response)
    ensures r == NotFoundResponse <==> !Visible(Soft, db.Of(e), id)
    ensures r != NotFoundResponse ==> r == Success("Data found!", Record(RowValue(id, db.Of(e)[id])), 200)
  {
    match Repository.FindOne(Soft, db.Of(e), id)
    case None => NotFoundResponse
    case Some(record) => Success("Data found!", Record(record), 200)
  }

  /** The columns an update hands to the repository: the transformed input
      as the update schema strips it. */
  function UpdateInput(env: Env, w: Wiring, data: Props): Outcome<Props>
  {
    var input :- Apply(env.rt, w.updateTransform, data);
    Validate(env.fm, w.updateSchema, input)
  }

  /** The update's columns validate, and the schema admits the row they
      make when written over row `id`. */
  predicate UpdateAdmitted(env: Env, w: Wiring, db: Db, id: Id, data: Props)
  {
    UpdateInput(env, w, data).Ok? && Updatable(env, db, w.entity, id, UpdateInput(env, w, data).value)
  }

  /** `update(id, data)`: the transform runs first; an unknown id is then
      404 with nothing validated or written; otherwise the validated data
      is written and the new record returned with 200.  A failing
      transform, validation or write throws. */
  function Update(env: Env, w: Wiring, db: Db, id: Id, data: Props): (r: Outcome<(Db, Response)>)
    ensures Apply(env.rt, w.updateTransform, data).Throw? ==> r.Throw?
    ensures Apply(env.rt, w.updateTransform, data).Ok? && !Visible(Soft, db.Of(w.entity), id) ==>
      r == Ok((db, NotFoundResponse))
    ensures var input := Apply(env.rt, w.updateTransform, data);
      input.Ok? && Visible(Soft, db.Of(w.entity), id) && !Accepts(env.fm, w.updateSchema, input.value) ==>
        r == Throw(Error(env.fm.issueText))
    ensures Apply(env.rt, w.updateTransform, data).Ok? && Visible(Soft, db.Of(w.entity), id) ==>
      (r.Ok? <==> UpdateAdmitted(env, w, db, id, data))
    ensures r.Ok? ==> (r.value.1 == NotFoundResponse <==> !Visible(Soft, db.Of(w.entity), id))
    ensures r.Ok? && r.value.1 != NotFoundResponse ==>
      && UpdateInput(env, w, data).Ok?
      && id in db.Of(w.entity)
      && r.value.0 == db.With(w.entity, db.Of(w.entity)[id :=
           db.Of(w.entity)[id].(fields := db.Of(w.entity)[id].fields + Written(UpdateInput(env, w, data).value))])
    ensures r.Ok? && r.value.1 != NotFoundResponse ==>
      && r.value.1 == Success("Data Updated!", r.value.1.data, 200)
      && r.value.1.data.Record?
      && FindOne(r.value.0, w.entity, id) == Success("Data found!", r.value.1.data, 200)
  {
    var input :- Apply(env.rt, w.updateTransform, data);
    if !Visible(Soft, db.Of(w.entity), id) then Ok((db, NotFoundResponse))
    else
      var validated :- Validate(env.fm, w.updateSchema, input);
      match RepoUpdate(env, db, w.entity, id, validated)
      case Ok(updated) => Ok((updated.0, Success("Data Updated!", Record(updated.1), 200)))
      case Throw(x) => Throw(x)
  }

  /** On a live row an update succeeds iff the transform returns, the
      update schema accepts its result, and the schema of the database
      admits the row the validated columns make. */
  lemma UpdateValidates(env: Env, w: Wiring, db: Db, id: Id, data: Props)
    requires Visible(Soft, db.Of(w.entity), id)
    ensures Update(env, w, db, id, data).Ok? <==>
      && Apply(env.rt, w.updateTransform, data).Ok?
      && Accepts(env.fm, w.updateSchema, Apply(env.rt, w.updateTransform, data).value)
      && Updatable(env, db, w.entity, id, Validate(env.fm, w.updateSchema, Apply(env.rt, w.updateTransform, data).value).value)
  {
  }

  /** `delete(id)`: 404 with nothing changed for an unknown or deleted id;
      otherwise the row is soft-deleted at `now` and the record as it was
      before is returned with 200. */
  function Delete(db: Db, e: Entity, id: Id, now: Time): (r: (Db, Response))
    ensures !Visible(Soft, db.Of(e), id) ==> r == (db, NotFoundResponse)
    ensures Visible(Soft, db.Of(e), id) ==>
      && r.1 == Success("Data deleted!", Record(RowValue(id, db.Of(e)[id])), 200)
      && r.0 == db.With(e, db.Of(e)[id := db.Of(e)[id].(deletedAt := Some(now))])
      && !Visible(Soft, r.0.Of(e), id)
  {
    match Repository.FindOne(Soft, db.Of(e), id)
    case None => (db, NotFoundResponse)
    case Some(record) =>
      match Repository.Delete(Soft, db.Of(e), id, now)
      case Ok(t) => (db.With(e, t), Success("Data deleted!", Record(record), 200))
      case Throw(_) => assert false; (db, NotFoundResponse)
  }

  /** `StoreService.create(data)`: upper-cases `data.code` before the base
      create; a missing code cannot be upper-cased. */
  function StoreCreate(env: Env, w: Wiring, db: Db, id: Id, data: Props): (r: Outcome<(Db, Response)>)
    ensures Nullish(Get(data, "code")) ==> r == Throw(Error(ReadError(Get(data, "code"), "toUpperCase")))
    ensures !Get(data, "code").Str? ==> r.Throw?
    ensures Get(data, "code").Str? ==>
      r == Create(env, w, db, id, data["code" := Str(ToUpperCase(env.rt, Get(data, "code").s))])
  {
    var code := Get(data, "code");
    if Nullish(code) then Throw(Error(ReadError(code, "toUpperCase")))
    else if !code.Str? then Throw(Error("data.code.toUpperCase is not a function"))
    else Create(env, w, db, id, data["code" := Str(ToUpperCase(env.rt, code.s))])
  }

  // bulkCreate

  /** `error.message || 'Validation failed'` */
  function IssueText(fm: Formats): (s: string)
    ensures s != ""
  {
    if fm.issueText != "" then fm.issueText else "Validation failed"
  }

  /** How `bulkCreate` parses one entry: the create schema's `safeParse`. */
  type Parser = Value -> Outcome<Props>

  function EntryParser(fm: Formats, schema: Schema): Parser
  {
    (v: Value) => Parse(fm, schema, v)
  }

  /** The number of entries whose parse succeeds. */
  function ValidCount(parse: Parser, entries: seq<(string, Value)>): (n: nat)
    ensures n <= |entries|
    decreases |entries|
  {
    if |entries| == 0 then 0
    else (if parse(entries[0].1).Ok? then 1 else 0) + ValidCount(parse, entries[1..])
  }

  /** The validation pass of `bulkCreate`, entry by entry: each entry
      either parses, and its parse joins the valid items, or is recorded as
      an issue under its key. */
  function Split(fm: Formats, parse: Parser, entries: seq<(string, Value)>): (r: (seq<Props>, seq<Issue>))
    ensures |r.0| == ValidCount(parse, entries)
    ensures |r.0| + |r.1| == |entries|
    decreases |entries|
  {
    if |entries| == 0 then ([], [])
    else
      var rest := Split(fm, parse, entries[1..]);
      match parse(entries[0].1)
      case Ok(v) => ([v] + rest.0, rest.1)
      case Throw(_) => (rest.0, [Issue(entries[0].0, IssueText(fm))] + rest.1)
  }

  /** Every valid item is the parse of an entry, every issue is the issue
      of an entry whose parse failed, and there are no valid items exactly
      when every parse failed. */
  lemma {:induction false} SplitSound(fm: Formats, parse: Parser, entries: seq<(string, Value)>)
    ensures forall v :: v in Split(fm, parse, entries).0 ==>
      exists i :: 0 <= i < |entries| && parse(entries[i].1) == Ok(v)
    ensures forall issue :: issue in Split(fm, parse, entries).1 ==>
      issue.error == IssueText(fm) &&
      exists i :: 0 <= i < |entries| && entries[i].0 == issue.index && parse(entries[i].1).Throw?
    ensures |Split(fm, parse, entries).0| == 0 <==> forall i :: 0 <= i < |entries| ==> parse(entries[i].1).Throw?
    decreases |entries|
  {
    if |entries| > 0 {
      SplitSound(fm, parse, entries[1..]);
      assert forall i :: 1 <= i < |entries| ==> entries[i] == entries[1..][i - 1];
    }
  }

  /** The validation pass of `bulkCreate`: the valid items are parses of
      entries, the issues are those of the entries that failed, one per
      entry in all. */
  function Partition(fm: Formats, parse: Parser, entries: seq<(string, Value)>): (r: (seq<Props>, seq<Issue>))
    ensures |r.0| == ValidCount(parse, entries)
    ensures |r.0| + |r.1| == |entries|
    ensures forall v :: v in r.0 ==> exists i :: 0 <= i < |entries| && parse(entries[i].1) == Ok(v)
    ensures forall issue :: issue in r.1 ==>
      issue.error == IssueText(fm) &&
      exists i :: 0 <= i < |entries| && entries[i].0 == issue.index && parse(entries[i].1).Throw?
    ensures |r.0| == 0 <==> forall i :: 0 <= i < |entries| ==> parse(entries[i].1).Throw?
  {
    SplitSound(fm, parse, entries);
    Split(fm, parse, entries)
  }

  /** Counting the valid entries of a prefix one entry longer. */
  lemma ValidCountPrefix(parse: Parser, entries: seq<(string, Value)>, i: nat)
    requires 0 < i <= |entries|
    ensures ValidCount(parse, entries[..i])
         == (if parse(entries[0].1).Ok? then 1 else 0) + ValidCount(parse, entries[1..][..i - 1])
  {
    assert entries[..i][0] == entries[0];
    assert entries[..i][1..] == entries[1..][..i - 1];
  }

  /** The parse of a valid entry `i` sits after the parses of the valid
      entries before it. */
  lemma {:induction false} SplitValidAt(fm: Formats, parse: Parser, entries: seq<(string, Value)>, i: nat)
    requires i < |entries| && parse(entries[i].1).Ok?
    ensures ValidCount(parse, entries[..i]) < |Split(fm, parse, entries).0|
    ensures Split(fm, parse, entries).0[ValidCount(parse, entries[..i])] == parse(entries[i].1).value
    decreases i
  {
    if i == 0 {
      assert entries[..0] == [];
    } else {
      var rest := Split(fm, parse, entries[1..]);
      assert entries[1..][i - 1] == entries[i];
      SplitValidAt(fm, parse, entries[1..], i - 1);
      ValidCountPrefix(parse, entries, i);
      var before := ValidCount(parse, entries[1..][..i - 1]);
      if parse(entries[0].1).Ok? {
        assert Split(fm, parse, entries).0 == [parse(entries[0].1).value] + rest.0;
        assert ValidCount(parse, entries[..i]) == 1 + before;
        assert Split(fm, parse, entries).0[1 + before] == rest.0[before];
      } else {
        assert Split(fm, parse, entries).0 == rest.0;
        assert ValidCount(parse, entries[..i]) == before;
      }
    }
  }

  /** The issue of an invalid entry `i` sits after the issues of the
      invalid entries before it. */
  lemma {:induction false} SplitIssueAt(fm: Formats, parse: Parser, entries: seq<(string, Value)>, i: nat)
    requires i < |entries| && parse(entries[i].1).Throw?
    ensures ValidCount(parse, entries[..i]) <= i
    ensures i - ValidCount(parse, entries[..i]) < |Split(fm, parse, entries).1|
    ensures Split(fm, parse, entries).1[i - ValidCount(parse, entries[..i])] == Issue(entries[i].0, IssueText(fm))
    decreases i
  {
    if i == 0 {
      assert entries[..0] == [];
    } else {
      var rest := Split(fm, parse, entries[1..]);
      assert entries[1..][i - 1] == entries[i];
      SplitIssueAt(fm, parse, entries[1..], i - 1);
      ValidCountPrefix(parse, entries, i);
      var before := ValidCount(parse, entries[1..][..i - 1]);
      if parse(entries[0].1).Ok? {
        assert Split(fm, parse, entries).1 == rest.1;
        assert i - ValidCount(parse, entries[..i]) == (i - 1) - before;
      } else {
        assert Split(fm, parse, entries).1 == [Issue(entries[0].0, IssueText(fm))] + rest.1;
        assert i - ValidCount(parse, entries[..i]) == 1 + ((i - 1) - before);
      }
    }
  }

  /** The valid items are the parses of the valid entries, in order: the
      parse of entry `i` sits after the parses of the valid entries before
      it, and each invalid entry's issue sits after the issues of the
      invalid entries before it. */
  lemma PartitionInOrder(fm: Formats, parse: Parser, entries: seq<(string, Value)>)
    ensures forall i :: 0 <= i < |entries| && parse(entries[i].1).Ok? ==>
      && ValidCount(parse, entries[..i]) < |Partition(fm, parse, entries).0|
      && Partition(fm, parse, entries).0[ValidCount(parse, entries[..i])] == parse(entries[i].1).value
    ensures forall i :: 0 <= i < |entries| && parse(entries[i].1).Throw? ==>
      && ValidCount(parse, entries[..i]) <= i
      && i - ValidCount(parse, entries[..i]) < |Partition(fm, parse, entries).1|
      && Partition(fm, parse, entries).1[i - ValidCount(parse, entries[..i])] == Issue(entries[i].0, IssueText(fm))
  {
    forall i | 0 <= i < |entries| && parse(entries[i].1).Ok? {
      SplitValidAt(fm, parse, entries, i);
    }
    forall i | 0 <= i < |entries| && parse(entries[i].1).Throw? {
      SplitIssueAt(fm, parse, entries, i);
    }
  }

  /** A repository create as `bulkCreate` issues it: from the database,
      the id and the item, the create's outcome. */
  type Inserter = (Db, Id, Props) -> Outcome<(Db, Option<Value>)>

  /** What a repository create promises of one outcome: a record, an
      object, means its row was added under a fresh id and nothing else
      changed; `null` changes nothing and only the owner table answers it. */
  predicate InsertStep(o: Outcome<(Db, Option<Value>)>, db: Db, e: Entity, id: Id, item: Props)
  {
    o.Ok? ==>
      && (o.value.1.None? ==> e == Owner && o.value.0 == db)
      && (o.value.1.Some? ==>
        && id !in db.Of(e)
        && o.value.0 == db.With(e, db.Of(e)[id := Row(Written(item), None)])
        && o.value.1.value.Obj?)
  }

  /** The record of an item inserted under `id`: its new, live row. */
  function NewRecord(id: Id, item: Props): Value
  {
    RowValue(id, Row(Written(item), None))
  }

  /** The record a create returns is `recordOf` its id and item. */
  predicate RecordStep(o: Outcome<(Db, Option<Value>)>, id: Id, item: Props, recordOf: (Id, Props) -> Value)
  {
    o.Ok? && o.value.1.Some? ==> o.value.1.value == recordOf(id, item)
  }

  /** `insert` keeps the first promise on every database, id and item. */
  ghost predicate Inserts(insert: Inserter, e: Entity)
  {
    forall db, id, item :: InsertStep(insert(db, id, item), db, e, id, item)
  }

  /** `insert` returns `recordOf` the id and item on every database, id
      and item. */
  ghost predicate ReturnsRows(insert: Inserter, recordOf: (Id, Props) -> Value)
  {
    forall db, id, item :: RecordStep(insert(db, id, item), id, item, recordOf)
  }

  /** The entity's repository create. */
  function RepoInserter(env: Env, e: Entity): Inserter
  {
    (db: Db, id: Id, item: Props) => RepoCreate(env, db, e, id, item)
  }

  /** The entity's repository create keeps both promises. */
  lemma RepoInserts(env: Env, e: Entity)
    ensures Inserts(RepoInserter(env, e), e)
    ensures ReturnsRows(RepoInserter(env, e), NewRecord)
  {
    forall db, id, item
      ensures InsertStep(RepoInserter(env, e)(db, id, item), db, e, id, item)
      ensures RecordStep(RepoInserter(env, e)(db, id, item), id, item, NewRecord)
    {
      assert RepoInserter(env, e)(db, id, item) == RepoCreate(env, db, e, id, item);
    }
  }

  /** One insert of `bulkCreate`: the database after it, its result (the
      record, `null` for an owner whose email is taken, `undefined` when it
      threw) and its failure. */
  function InsertOne(insert: Inserter, db: Db, e: Entity, id: Id, item: Props): (r: (Db, Value, Option<Exception>))
    requires InsertStep(insert(db, id, item), db, e, id, item)
    ensures r.2.Some? <==> r.1 == Undefined
    ensures r.1 == Undefined || r.1 == Null || r.1.Obj?
    ensures e != Owner ==> r.1 != Null
    ensures !r.1.Obj? ==> r.0 == db
    ensures r.1.Obj? ==>
      && id !in db.Of(e)
      && r.0 == db.With(e, db.Of(e)[id := Row(Written(item), None)])
  {
    match insert(db, id, item)
    case Throw(x) => (db, Undefined, Some(x))
    case Ok(created) => (created.0, if created.1.Some? then created.1.value else Null, None)
  }

  /** The inserts of `bulkCreate`, one per valid item, the i-th under id
      `ids(from + i)`.  `Promise.all` starts every insert, so all are
      attempted; the outcome is each insert's result and the first failure,
      if any. */
  function CreateAll(insert: Inserter, db: Db, e: Entity, items: seq<Props>, ids: nat -> Id, from: nat): (r: (Db, seq<Value>, Option<Exception>))
    requires Inserts(insert, e)
    ensures |r.1| == |items|
    decreases |items|
  {
    if |items| == 0 then (db, [], None)
    else
      var first := InsertOne(insert, db, e, ids(from), items[0]);
      var rest := CreateAll(insert, first.0, e, items[1..], ids, from + 1);
      (rest.0, [first.1] + rest.1, if first.2.Some? then first.2 else rest.2)
  }

  /** The inserts fail exactly when one of them threw; every result is a
      record, `undefined` for a throw, or `null`, which only the owner
      repository answers. */
  lemma {:induction false} CreateAllResults(insert: Inserter, db: Db, e: Entity, items: seq<Props>, ids: nat -> Id, from: nat)
    requires Inserts(insert, e)
    ensures CreateAll(insert, db, e, items, ids, from).2.Some? <==>
      exists i :: 0 <= i < |items| && CreateAll(insert, db, e, items, ids, from).1[i] == Undefined
    ensures forall i :: 0 <= i < |items| ==>
      || CreateAll(insert, db, e, items, ids, from).1[i] == Undefined
      || CreateAll(insert, db, e, items, ids, from).1[i] == Null
      || CreateAll(insert, db, e, items, ids, from).1[i].Obj?
    ensures e != Owner ==> forall i :: 0 <= i < |items| ==> CreateAll(insert, db, e, items, ids, from).1[i] != Null
    decreases |items|
  {
    if |items| > 0 {
      var first := InsertOne(insert, db, e, ids(from), items[0]);
      CreateAllResults(insert, first.0, e, items[1..], ids, from + 1);
      var rest := CreateAll(insert, first.0, e, items[1..], ids, from + 1);
      var r := CreateAll(insert, db, e, items, ids, from);
      assert r.1 == [first.1] + rest.1;
      forall i | 1 <= i < |items|
        ensures r.1[i] == rest.1[i - 1]
      {
      }
      if rest.2.Some? {
        var j :| 0 <= j < |items[1..]| && rest.1[j] == Undefined;
        assert r.1[j + 1] == Undefined;
      }
      if first.2.Some? {
        assert r.1[0] == Undefined;
      }
      if exists i :: 0 <= i < |items| && r.1[i] == Undefined {
        var i :| 0 <= i < |items| && r.1[i] == Undefined;
        if i > 0 {
          assert rest.1[i - 1] == Undefined;
        }
      }
    }
  }

  /** The inserts keep every earlier row of the entity's table as it was. */
  lemma {:induction false} CreateAllKeeps(insert: Inserter, db: Db, e: Entity, items: seq<Props>, ids: nat -> Id, from: nat)
    requires Inserts(insert, e)
    ensures forall id :: id in db.Of(e) ==>
      && id in CreateAll(insert, db, e, items, ids, from).0.Of(e)
      && CreateAll(insert, db, e, items, ids, from).0.Of(e)[id] == db.Of(e)[id]
    decreases |items|
  {
    if |items| > 0 {
      CreateAllKeeps(insert, InsertOne(insert, db, e, ids(from), items[0]).0, e, items[1..], ids, from + 1);
    }
  }

  /** The inserts touch no table but the entity's. */
  lemma {:induction false} CreateAllOthersUntouched(insert: Inserter, db: Db, e: Entity, items: seq<Props>, ids: nat -> Id, from: nat)
    requires Inserts(insert, e)
    ensures forall other :: other != e ==> CreateAll(insert, db, e, items, ids, from).0.Of(other) == db.Of(other)
    decreases |items|
  {
    if |items| > 0 {
      CreateAllOthersUntouched(insert, InsertOne(insert, db, e, ids(from), items[0]).0, e, items[1..], ids, from + 1);
    }
  }

  /** The first item, when its insert returned a record, keeps its row
      through the later inserts. */
  lemma CreateAllFirstRow(insert: Inserter, db: Db, e: Entity, items: seq<Props>, ids: nat -> Id, from: nat)
    requires Inserts(insert, e)
    requires 0 < |items| && CreateAll(insert, db, e, items, ids, from).1[0].Obj?
    ensures ids(from) in CreateAll(insert, db, e, items, ids, from).0.Of(e)
    ensures CreateAll(insert, db, e, items, ids, from).0.Of(e)[ids(from)] == Row(Written(items[0]), None)
  {
    var first := InsertOne(insert, db, e, ids(from), items[0]);
    assert first.1.Obj?;
    CreateAllKeeps(insert, first.0, e, items[1..], ids, from + 1);
  }

  /** The item at index `i`, when its insert returned a record, has its
      row, live, under its id. */
  lemma {:induction false} CreateAllRow(insert: Inserter, db: Db, e: Entity, items: seq<Props>, ids: nat -> Id, from: nat, i: nat)
    requires Inserts(insert, e)
    requires i < |items| && CreateAll(insert, db, e, items, ids, from).1[i].Obj?
    ensures ids(from + i) in CreateAll(insert, db, e, items, ids, from).0.Of(e)
    ensures CreateAll(insert, db, e, items, ids, from).0.Of(e)[ids(from + i)] == Row(Written(items[i]), None)
    decreases i
  {
    if i == 0 {
      CreateAllFirstRow(insert, db, e, items, ids, from);
    } else {
      var first := InsertOne(insert, db, e, ids(from), items[0]);
      var rest := CreateAll(insert, first.0, e, items[1..], ids, from + 1);
      assert CreateAll(insert, db, e, items, ids, from).0 == rest.0;
      assert CreateAll(insert, db, e, items, ids, from).1[i] == rest.1[i - 1];
      CreateAllRow(insert, first.0, e, items[1..], ids, from + 1, i - 1);
      var key, row := ids(from + i), Row(Written(items[i]), None);
      assert key == ids((from + 1) + (i - 1)) && row == Row(Written(items[1..][i - 1]), None);
      assert key in rest.0.Of(e) && rest.0.Of(e)[key] == row;
    }
  }

  /** The record the insert of item `i` returned is `recordOf` its id and
      item. */
  lemma {:induction false} CreateAllRecord(insert: Inserter, recordOf: (Id, Props) -> Value, db: Db, e: Entity,
                                           items: seq<Props>, ids: nat -> Id, from: nat, i: nat)
    requires Inserts(insert, e) && ReturnsRows(insert, recordOf)
    requires i < |items| && CreateAll(insert, db, e, items, ids, from).1[i].Obj?
    ensures CreateAll(insert, db, e, items, ids, from).1[i] == recordOf(ids(from + i), items[i])
    decreases i
  {
    var first := InsertOne(insert, db, e, ids(from), items[0]);
    var rest := CreateAll(insert, first.0, e, items[1..], ids, from + 1);
    if i == 0 {
      assert CreateAll(insert, db, e, items, ids, from).1[0] == first.1;
      assert RecordStep(insert(db, ids(from), items[0]), ids(from), items[0], recordOf);
    } else {
      assert CreateAll(insert, db, e, items, ids, from).1[i] == rest.1[i - 1];
      CreateAllRecord(insert, recordOf, first.0, e, items[1..], ids, from + 1, i - 1);
      assert ids(from + i) == ids((from + 1) + (i - 1)) && items[i] == items[1..][i - 1];
    }
  }

  /** Every item whose insert returned a record has its row. */
  lemma CreateAllRows(insert: Inserter, db: Db, e: Entity, items: seq<Props>, ids: nat -> Id, from: nat)
    requires Inserts(insert, e)
    ensures forall i :: 0 <= i < |items| && CreateAll(insert, db, e, items, ids, from).1[i].Obj? ==>
      && ids(from + i) in CreateAll(insert, db, e, items, ids, from).0.Of(e)
      && CreateAll(insert, db, e, items, ids, from).0.Of(e)[ids(from + i)] == Row(Written(items[i]), None)
  {
    forall i | 0 <= i < |items| && CreateAll(insert, db, e, items, ids, from).1[i].Obj? {
      CreateAllRow(insert, db, e, items, ids, from, i);
    }
  }

  /** Every record the inserts returned is the new row of its item. */
  lemma CreateAllRecords(insert: Inserter, db: Db, e: Entity, items: seq<Props>, ids: nat -> Id, from: nat)
    requires Inserts(insert, e) && ReturnsRows(insert, NewRecord)
    ensures forall i :: 0 <= i < |items| && CreateAll(insert, db, e, items, ids, from).1[i].Obj? ==>
      CreateAll(insert, db, e, items, ids, from).1[i] == NewRecord(ids(from + i), items[i])
  {
    forall i | 0 <= i < |items| && CreateAll(insert, db, e, items, ids, from).1[i].Obj? {
      CreateAllRecord(insert, NewRecord, db, e, items, ids, from, i);
    }
  }

  /** A row the inserts added is the row of an item whose insert returned
      a record. */
  lemma {:induction false} CreateAllNewRow(insert: Inserter, db: Db, e: Entity, items: seq<Props>, ids: nat -> Id, from: nat, id: Id)
    returns (i: nat)
    requires Inserts(insert, e)
    requires id in CreateAll(insert, db, e, items, ids, from).0.Of(e) && id !in db.Of(e)
    ensures i < |items| && ids(from + i) == id && CreateAll(insert, db, e, items, ids, from).1[i].Obj?
    decreases |items|
  {
    var first := InsertOne(insert, db, e, ids(from), items[0]);
    var rest := CreateAll(insert, first.0, e, items[1..], ids, from + 1);
    assert CreateAll(insert, db, e, items, ids, from).0 == rest.0;
    if id in first.0.Of(e) {
      assert id == ids(from) && first.1.Obj? by {
        assert id !in db.Of(e);
      }
      assert CreateAll(insert, db, e, items, ids, from).1[0] == first.1;
      assert ids(from + 0) == id;
      i := 0;
    } else {
      var j := CreateAllNewRow(insert, first.0, e, items[1..], ids, from + 1, id);
      assert CreateAll(insert, db, e, items, ids, from).1[j + 1] == rest.1[j];
      assert from + 1 + j == from + (j + 1);
      i := j + 1;
    }
  }

  /** Every new row of the entity's table is the row of an item whose
      insert returned a record. */
  lemma CreateAllNoOthers(insert: Inserter, db: Db, e: Entity, items: seq<Props>, ids: nat -> Id, from: nat)
    requires Inserts(insert, e)
    ensures forall id :: id in CreateAll(insert, db, e, items, ids, from).0.Of(e) && id !in db.Of(e) ==>
      exists i :: 0 <= i < |items| && ids(from + i) == id && CreateAll(insert, db, e, items, ids, from).1[i].Obj?
  {
    forall id | id in CreateAll(insert, db, e, items, ids, from).0.Of(e) && id !in db.Of(e)
      ensures exists i :: 0 <= i < |items| && ids(from + i) == id && CreateAll(insert, db, e, items, ids, from).1[i].Obj?
    {
      var i := CreateAllNewRow(insert, db, e, items, ids, from, id);
    }
  }

  /** When no insert failed on a table other than the owners', the table
      holds its earlier rows unchanged and, under `ids(i)`, the row of item
      `i`, and nothing else. */
  lemma CreateAllWritesAll(insert: Inserter, db: Db, e: Entity, items: seq<Props>, ids: nat -> Id)
    requires Inserts(insert, e) && e != Owner
    requires CreateAll(insert, db, e, items, ids, 0).2.None?
    ensures forall id :: id in CreateAll(insert, db, e, items, ids, 0).0.Of(e) <==>
      id in db.Of(e) || exists i :: 0 <= i < |items| && ids(i) == id
    ensures forall i :: 0 <= i < |items| ==>
      CreateAll(insert, db, e, items, ids, 0).0.Of(e)[ids(i)] == Row(Written(items[i]), None)
    ensures forall id :: id in db.Of(e) ==> CreateAll(insert, db, e, items, ids, 0).0.Of(e)[id] == db.Of(e)[id]
  {
    var created := CreateAll(insert, db, e, items, ids, 0);
    var t := created.0.Of(e);
    assert forall i :: 0 <= i < |items| ==> created.1[i].Obj? by {
      CreateAllResults(insert, db, e, items, ids, 0);
    }
    assert forall i :: 0 <= i < |items| ==> ids(i) in t && t[ids(i)] == Row(Written(items[i]), None) by {
      CreateAllRows(insert, db, e, items, ids, 0);
      forall i | 0 <= i < |items| ensures ids(i) in t && t[ids(i)] == Row(Written(items[i]), None) {
        assert created.1[i].Obj? && ids(0 + i) == ids(i);
      }
    }
    assert forall id :: id in t && id !in db.Of(e) ==> exists i :: 0 <= i < |items| && ids(i) == id by {
      CreateAllNoOthers(insert, db, e, items, ids, 0);
      forall id | id in t && id !in db.Of(e) ensures exists i :: 0 <= i < |items| && ids(i) == id {
        var i :| 0 <= i < |items| && ids(0 + i) == id && created.1[i].Obj?;
        assert ids(i) == id;
      }
    }
    CreateAllKeeps(insert, db, e, items, ids, 0);
  }

  /** The inserts `bulkCreate` issues through the entity's repository,
      the i-th valid item under id `ids(i)`. */
  function BulkInsert(env: Env, e: Entity, db: Db, valid: seq<Props>, ids: nat -> Id): (r: (Db, seq<Value>, Option<Exception>))
    ensures |r.1| == |valid|
    ensures r.2.Some? <==> exists i :: 0 <= i < |valid| && r.1[i] == Undefined
  {
    RepoInserts(env, e);
    CreateAllResults(RepoInserter(env, e), db, e, valid, ids, 0);
    CreateAll(RepoInserter(env, e), db, e, valid, ids, 0)
  }

  /** `bulkCreate(data)`: 400 with the issues when no entry is valid; 500
      when an insert fails (the other inserts keep their rows); otherwise
      201 reporting one result per valid entry.  Entries are validated
      against the create schema without the create transform. */
  function BulkCreate(env: Env, w: Wiring, db: Db, entries: seq<(string, Value)>, ids: nat -> Id): (r: (Db, Response))
    ensures |Partition(env.fm, EntryParser(env.fm, w.createSchema), entries).0| == 0 ==>
      r == (db, Failed("No valid data to insert.", Issues(Partition(env.fm, EntryParser(env.fm, w.createSchema), entries).1), 400))
    ensures |Partition(env.fm, EntryParser(env.fm, w.createSchema), entries).0| > 0 ==>
      r.0 == BulkInsert(env, w.entity, db, Partition(env.fm, EntryParser(env.fm, w.createSchema), entries).0, ids).0
    ensures |Partition(env.fm, EntryParser(env.fm, w.createSchema), entries).0| > 0 ==>
      (r.1.statusCode == 500 <==>
        exists i :: 0 <= i < |Partition(env.fm, EntryParser(env.fm, w.createSchema), entries).0| &&
          BulkInsert(env, w.entity, db, Partition(env.fm, EntryParser(env.fm, w.createSchema), entries).0, ids).1[i] == Undefined)
    ensures (|Partition(env.fm, EntryParser(env.fm, w.createSchema), entries).0| > 0 &&
      BulkInsert(env, w.entity, db, Partition(env.fm, EntryParser(env.fm, w.createSchema), entries).0, ids).2.Some?) ==>
        r.1 == Failed("Failed to insert data.",
          Failure(BulkInsert(env, w.entity, db, Partition(env.fm, EntryParser(env.fm, w.createSchema), entries).0, ids).2.value), 500)
    ensures (|Partition(env.fm, EntryParser(env.fm, w.createSchema), entries).0| > 0 &&
      BulkInsert(env, w.entity, db, Partition(env.fm, EntryParser(env.fm, w.createSchema), entries).0, ids).2.None?) ==>
        r.1 == Success("New " + NatToString(|Partition(env.fm, EntryParser(env.fm, w.createSchema), entries).0|) + " Data Created!",
          Created(BulkInsert(env, w.entity, db, Partition(env.fm, EntryParser(env.fm, w.createSchema), entries).0, ids).1), 201)
  {
    var parts := Partition(env.fm, EntryParser(env.fm, w.createSchema), entries);
    if |parts.0| == 0 then (db, Failed("No valid data to insert.", Issues(parts.1), 400))
    else
      var created := BulkInsert(env, w.entity, db, parts.0, ids);
      match created.2
      case Some(e) => (created.0, Failed("Failed to insert data.", Failure(e), 500))
      case None =>
        (created.0, Success("New " + NatToString(|created.1|) + " Data Created!", Created(created.1), 201))
  }

  /** A 201 from `bulkCreate` on a table other than the owners' means every
      valid entry was inserted: the table holds its earlier rows unchanged
      and, under `ids(i)`, the row of the i-th valid entry, and nothing
      else. */
  lemma BulkCreateWritesValidEntries(env: Env, w: Wiring, db: Db, entries: seq<(string, Value)>, ids: nat -> Id)
    requires w.entity != Owner
    requires BulkCreate(env, w, db, entries, ids).1.statusCode == 201
    ensures forall id :: id in BulkCreate(env, w, db, entries, ids).0.Of(w.entity) <==>
      id in db.Of(w.entity) || exists i :: 0 <= i < |Partition(env.fm, EntryParser(env.fm, w.createSchema), entries).0| && ids(i) == id
    ensures forall i :: 0 <= i < |Partition(env.fm, EntryParser(env.fm, w.createSchema), entries).0| ==>
      BulkCreate(env, w, db, entries, ids).0.Of(w.entity)[ids(i)] == Row(Written(Partition(env.fm, EntryParser(env.fm, w.createSchema), entries).0[i]), None)
    ensures forall id :: id in db.Of(w.entity) ==> BulkCreate(env, w, db, entries, ids).0.Of(w.entity)[id] == db.Of(w.entity)[id]
  {
    var valid := Partition(env.fm, EntryParser(env.fm, w.createSchema), entries).0;
    RepoInserts(env, w.entity);
    var insert := RepoInserter(env, w.entity);
    var created := CreateAll(insert, db, w.entity, valid, ids, 0);
    assert BulkCreate(env, w, db, entries, ids).0 == created.0 && created.2.None?;
    CreateAllWritesAll(insert, db, w.entity, valid, ids);
  }
}

=== FILE: service_properties.dfy ===
/**
  Properties of the configured services that combine the pipeline with a
  particular repository and DTO: what a duplicate email does to each
  account kind, what an owner update can change, what the company update
  demands, and how the store wiring differs as written.
 */
module ServiceProperties {
  import opened JsValue
  import opened JsText
  import opened Zod
  import Repository
  import opened Service
  import OwnerRepository
  import EmployeeRepository
  import OwnerDto
  import CompanyDto
  import StoreDto

  /** The field `name` is in the schema. */
  lemma KeyOf(schema: Schema, i: nat)
    requires i < |schema|
    ensures schema[i].name in Keys(schema)
  {
  }

  /** The email an owner create writes is the one the caller sent. */
  lemma OwnerCreateInput(env: Env, data: Props)
    requires OwnerDto.CreateOwnerValid(env.fm, OwnerDto.CreateOwnerRequest(data))
    ensures Validate(env.fm, OwnerDto.CreateOwnerSchema, OwnerDto.CreateOwnerRequest(data)).Ok?
    ensures Get(Validate(env.fm, OwnerDto.CreateOwnerSchema, OwnerDto.CreateOwnerRequest(data)).value, "email")
         == Get(data, "email")
  {
    KeyOf(OwnerDto.CreateOwnerSchema, 1);
  }

  /** Creating an owner whose email an owner or employee already has (even
      a soft-deleted one) is the 500 "Failed to create new data" response
      and writes nothing, because the repository answers `null`. */
  lemma OwnerDuplicateCreate(env: Env, db: Db, id: Repository.Id, data: Props, holder: Repository.Id)
    requires OwnerDto.CreateOwnerValid(env.fm, OwnerDto.CreateOwnerRequest(data))
    requires (holder in db.owners && OwnerRepository.Email(db.owners[holder]) == Get(data, "email"))
          || (holder in db.employees && OwnerRepository.Email(db.employees[holder]) == Get(data, "email"))
    ensures Create(env, OwnerService, db, id, data) == Ok((db, Failed("Failed to create new data", Nothing, 500)))
  {
    OwnerCreateInput(env, data);
    var validated := Validate(env.fm, OwnerDto.CreateOwnerSchema, OwnerDto.CreateOwnerRequest(data)).value;
    OwnerRepository.CreateTakenEmail(db.owners, db.employees, id, validated, env.admits(db, Owner), holder);
  }

  /** Creating an employee whose email is taken is not a response but the
      thrown error "Create failed: Email already exists". */
  lemma EmployeeDuplicateCreate(env: Env, db: Db, id: Repository.Id, data: Props, holder: Repository.Id)
    requires Accepts(env.fm, EmployeeService.createSchema, data)
    requires (holder in db.owners && OwnerRepository.Email(db.owners[holder]) == Get(data, "email"))
          || (holder in db.employees && OwnerRepository.Email(db.employees[holder]) == Get(data, "email"))
    ensures Create(env, EmployeeService, db, id, data)
         == Throw(Error(EmployeeRepository.CreatePrefix + EmployeeRepository.EmailTaken))
  {
    KeyOf(EmployeeService.createSchema, 1);
    assert Apply(env.rt, EmployeeService.createTransform, data) == Ok(data);
    var validated := Validate(env.fm, EmployeeService.createSchema, data).value;
    assert Get(validated, "email") == Get(data, "email");
    EmployeeRepository.CreateTakenEmail(db.owners, db.employees, id, validated, env.admits(db, Employee), holder);
    assert RepoCreate(env, db, Employee, id, validated)
        == Throw(Error(EmployeeRepository.CreatePrefix + EmployeeRepository.EmailTaken));
  }

  /** An owner update never changes the stored email: the update DTO does
      not carry one. */
  lemma OwnerUpdateKeepsEmail(env: Env, db: Db, id: Repository.Id, data: Props)
    requires Update(env, OwnerService, db, id, data).Ok?
    ensures var db' := Update(env, OwnerService, db, id, data).value.0;
      db'.owners.Keys == db.owners.Keys && db'.employees == db.employees
      && forall o :: o in db.owners ==> OwnerRepository.Email(db'.owners[o]) == OwnerRepository.Email(db.owners[o])
  {
    var input := OwnerDto.UpdateOwnerRequest(data);
    if Repository.Visible(Soft, db.owners, id) {
      var validated := Validate(env.fm, OwnerDto.UpdateOwnerSchema, input).value;
      assert "email" !in Keys(OwnerDto.UpdateOwnerSchema);
      assert "email" !in Repository.Written(validated);
    }
  }

  /** Owner updates therefore keep emails unique across owners and
      employees. */
  lemma OwnerUpdateKeepsEmailsUnique(env: Env, db: Db, id: Repository.Id, data: Props)
    requires OwnerRepository.EmailsUnique(db.owners, db.employees)
    requires Update(env, OwnerService, db, id, data).Ok?
    ensures var db' := Update(env, OwnerService, db, id, data).value.0;
      OwnerRepository.EmailsUnique(db'.owners, db'.employees)
  {
    OwnerUpdateKeepsEmail(env, db, id, data);
  }

  /** A company update is validated against the create schema: for an
      existing company it succeeds exactly when the body would be a valid
      company creation and the database admits the updated row, so a
      partial update such as a new code alone fails. */
  lemma CompanyUpdateNeedsFullRecord(env: Env, db: Db, id: Repository.Id, data: Props)
    requires Repository.Visible(Soft, db.companies, id)
    ensures Update(env, CompanyService, db, id, data).Ok? <==>
      CompanyDto.CreateCompanyValid(env.fm, data) && UpdateAdmitted(env, CompanyService, db, id, data)
  {
  }

  /** A valid company body whose owner_id names no owner passes validation
      but is refused by the database, which keeps the owner relation: the
      update throws. */
  lemma DanglingOwnerCompanyUpdateFails(env: Env, db: Db, id: Repository.Id, data: Props, owner: Repository.Id)
    requires Repository.Visible(Soft, db.companies, id)
    requires CompanyDto.CreateCompanyValid(env.fm, data)
    requires Get(data, "owner_id") == Str(owner) && owner !in db.owners
    requires forall row :: Get(row, "owner_id") == Str(owner) ==> !env.admits(db, Company)(row)
    ensures Update(env, CompanyService, db, id, data).Throw?
  {
    CompanyUpdateNeedsFullRecord(env, db, id, data);
    var validated := UpdateInput(env, CompanyService, data).value;
    assert "owner_id" in Keys(CompanyDto.CreateCompanySchema);
    assert Get(db.companies[id].fields + Repository.Written(validated), "owner_id") == Str(owner);
  }

  /** A code alone is not a valid company update. */
  lemma CodeOnlyCompanyUpdateFails(env: Env, db: Db, id: Repository.Id, code: string)
    requires Repository.Visible(Soft, db.companies, id)
    ensures Update(env, CompanyService, db, id, map["code" := Str(code)]).Throw?
  {
    CompanyUpdateNeedsFullRecord(env, db, id, map["code" := Str(code)]);
  }

  /** With soft delete, deleting the same id twice answers 404 the second
      time and changes nothing more. */
  lemma DeleteTwice(db: Db, e: Entity, id: Repository.Id, now: Repository.Time, later: Repository.Time)
    requires Repository.Visible(Soft, db.Of(e), id)
    ensures var first := Delete(db, e, id, now);
      first.1.statusCode == 200 && Delete(first.0, e, id, later) == (first.0, NotFoundResponse)
  {
  }

  /** An owner create reads only name, email and password: other properties
      of the request make no difference. */
  lemma OwnerCreateIgnoresOtherFields(env: Env, db: Db, id: Repository.Id, data: Props)
    ensures Create(env, OwnerService, db, id, data)
         == Create(env, OwnerService, db, id, Project(data, {"name", "email", "password"}))
  {
    assert OwnerDto.CreateOwnerRequest(Project(data, {"name", "email", "password"})) == OwnerDto.CreateOwnerRequest(data);
  }

  /** As written, updating a store without coordinates throws even when the
      id is unknown, since the transform runs before the lookup; as
      intended the same request is a 404. */
  lemma StoreUpdateUnknownId(env: Env, db: Db, id: Repository.Id, data: Props)
    requires !Repository.Visible(Soft, db.stores, id)
    requires Nullish(Get(data, "longitude"))
    ensures Update(env, StoreService, db, id, data).Throw?
    ensures Update(env, StoreServiceIntended, db, id, data) == Ok((db, NotFoundResponse))
  {
    assert StoreDto.UpdateStoreRequest(env.rt, data).Throw?;
    assert Apply(env.rt, StoreService.updateTransform, data).Throw?;
    assert Apply(env.rt, StoreServiceIntended.updateTransform, data).Ok?;
  }

  /** Upper-casing is idempotent when the runtime's case table is: a
      store code sent already upper-cased reaches the base create
      unchanged. */
  lemma StoreCreateUpperCaseCode(env: Env, w: Wiring, db: Db, id: Repository.Id, data: Props, code: string)
    requires CaseMappingStable(env.rt)
    requires Get(data, "code") == Str(ToUpperCase(env.rt, code))
    ensures StoreCreate(env, w, db, id, data) == Create(env, w, db, id, data)
  {
    ToUpperCaseIdempotent(env.rt, code);
    assert data["code" := Str(ToUpperCase(env.rt, ToUpperCase(env.rt, code)))] == data;
  }

  /** The create schema's limit of five UTF-16 code units applies to the
      upper-cased code; for an ASCII code that is the length as sent. */
  lemma StoreCodeLimitSeesSentLength(rt: Runtime, data: Props, code: string)
    requires Get(data, "code") == Str(code)
    requires Ascii(code)
    ensures StrAtMost(Get(data["code" := Str(ToUpperCase(rt, code))], "code"), 5) <==> |code| <= 5
  {
    AsciiUpperCaseLength(rt, code);
  }

  /** Outside ASCII the limit can reject a code the caller sent within it:
      "ßßß" is three code units and upper-cases to "SSSSSS". */
  lemma StoreCodeLimitSeesUpperCasedLength(rt: Runtime, data: Props)
    requires rt.upperCaseOf('\U{DF}') == "SS"
    requires Get(data, "code") == Str("\U{DF}\U{DF}\U{DF}")
    ensures CodeUnits(Get(data, "code").s) == 3
    ensures !StrAtMost(Get(data["code" := Str(ToUpperCase(rt, Get(data, "code").s))], "code"), 5)
  {
    var code := "\U{DF}\U{DF}\U{DF}";
    assert ToUpperCase(rt, code) == "SS" + ToUpperCase(rt, code[1..]);
    assert ToUpperCase(rt, code[1..]) == "SS" + ToUpperCase(rt, code[2..]);
    assert ToUpperCase(rt, code[2..]) == "SS" + ToUpperCase(rt, code[3..]);
    assert ToUpperCase(rt, code) == "SSSSSS";
    CodeUnitsOfBmp("SSSSSS");
    CodeUnitsOfBmp(code);
  }

  // The wiring of each service: what its create and update validate.

  /** The owner service validates a `CreateOwnerRequest` built from the
      input on create, and an `UpdateOwnerRequest` on the update of a live
      owner. */
  lemma OwnerServiceWiring(env: Env, db: Db, id: Repository.Id, data: Props)
    ensures CreateInput(env, OwnerService, data).Ok? <==> OwnerDto.CreateOwnerValid(env.fm, OwnerDto.CreateOwnerRequest(data))
    ensures Repository.Visible(Soft, db.owners, id) ==>
      (Update(env, OwnerService, db, id, data).Ok? <==>
        OwnerDto.UpdateOwnerValid(env.fm, OwnerDto.UpdateOwnerRequest(data)) && UpdateAdmitted(env, OwnerService, db, id, data))
  {
    assert db.Of(OwnerService.entity) == db.owners;
  }

  /** The employee service validates the input itself, against the create
      schema on create and the update schema on the update of a live
      employee. */
  lemma EmployeeServiceWiring(env: Env, db: Db, id: Repository.Id, data: Props)
    ensures CreateInput(env, EmployeeService, data).Ok? <==> EmployeeDto.CreateEmployeeValid(env.fm, data)
    ensures Repository.Visible(Soft, db.employees, id) ==>
      (Update(env, EmployeeService, db, id, data).Ok? <==>
        EmployeeDto.UpdateEmployeeValid(env.fm, data) && UpdateAdmitted(env, EmployeeService, db, id, data))
  {
    assert db.Of(EmployeeService.entity) == db.employees;
  }

  /** The company service validates both a create and the update of a live
      company against the create schema. */
  lemma CompanyServiceWiring(env: Env, db: Db, id: Repository.Id, data: Props)
    ensures CreateInput(env, CompanyService, data).Ok? <==> CompanyDto.CreateCompanyValid(env.fm, data)
    ensures Repository.Visible(Soft, db.companies, id) ==>
      (Update(env, CompanyService, db, id, data).Ok? <==>
        CompanyDto.CreateCompanyValid(env.fm, data) && UpdateAdmitted(env, CompanyService, db, id, data))
  {
    assert db.Of(CompanyService.entity) == db.companies;
  }

  /** As written, the store service validates the `CreateStoreRequest`
      built from the input. */
  lemma StoreServiceCreateWiring(env: Env, data: Props)
    ensures CreateInput(env, StoreService, data).Ok? <==> StoreDto.CreateStoreValid(env.fm, StoreDto.CreateStoreRequest(env.rt, data))
  {
    var request := StoreDto.CreateStoreRequest(env.rt, data);
    assert Apply(env.rt, StoreService.createTransform, data) == Ok(request);
  }

  /** As written, an update of a live store succeeds only when the
      `UpdateStoreRequest` constructor returns and its result is valid. */
  lemma StoreServiceUpdateWiring(env: Env, db: Db, id: Repository.Id, data: Props)
    requires Repository.Visible(Soft, db.stores, id)
    ensures Update(env, StoreService, db, id, data).Ok? <==>
      && StoreDto.UpdateStoreRequest(env.rt, data).Ok?
      && StoreDto.UpdateStoreValid(env.fm, StoreDto.UpdateStoreRequest(env.rt, data).value)
      && UpdateAdmitted(env, StoreService, db, id, data)
  {
    var w := StoreService;
    assert w.entity == Store && w.updateTransform == StoreUpdateDto && w.updateSchema == StoreDto.UpdateStoreSchema;
    UpdateValidates(env, w, db, id, data);
    var input := StoreDto.UpdateStoreRequest(env.rt, data);
    assert Apply(env.rt, w.updateTransform, data) == input;
    if input.Ok? {
      assert StoreDto.UpdateStoreValid(env.fm, input.value) <==> Accepts(env.fm, StoreDto.UpdateStoreSchema, input.value);
    }
  }

  /** As intended, the store service validates the corrected create
      request. */
  lemma StoreServiceIntendedCreateWiring(env: Env, data: Props)
    ensures CreateInput(env, StoreServiceIntended, data).Ok? <==>
      StoreDto.CreateStoreValid(env.fm, StoreDto.CreateStoreRequestIntended(env.rt, data))
  {
    var request := StoreDto.CreateStoreRequestIntended(env.rt, data);
    assert Apply(env.rt, StoreServiceIntended.createTransform, data) == Ok(request);
  }

  /** As intended, an update of a live store never throws in its
      constructor and succeeds iff the corrected request is valid. */
  lemma StoreServiceIntendedUpdateWiring(env: Env, db: Db, id: Repository.Id, data: Props)
    requires Repository.Visible(Soft, db.stores, id)
    ensures Update(env, StoreServiceIntended, db, id, data).Ok? <==>
      StoreDto.UpdateStoreValid(env.fm, StoreDto.UpdateStoreRequestIntended(env.rt, data))
      && UpdateAdmitted(env, StoreServiceIntended, db, id, data)
  {
    var input := StoreDto.UpdateStoreRequestIntended(env.rt, data);
    assert Apply(env.rt, StoreUpdateDtoIntended, data) == Ok(input);
    assert StoreServiceIntended.entity == Store && StoreServiceIntended.updateTransform == StoreUpdateDtoIntended;
    UpdateValidates(env, StoreServiceIntended, db, id, data);
    assert StoreDto.UpdateStoreValid(env.fm, input) <==> Accepts(env.fm, StoreDto.UpdateStoreSchema, input);
  }
}

=== FILE: store_dto.dfy ===
/**
  The store request DTOs: `CreateStoreRequest` and `UpdateStoreRequest`.
  Unlike the other DTOs their constructors convert some properties: the
  opening date through `new Date`, the point configuration through
  `parseInt`, and (on update) the coordinates through
  `parseFloat(v.toString())`.

  Each constructor is modelled twice: as written, and as evidently intended
  by its schema, which marks the converted fields optional.  As written, a
  request without `poin_config` can never validate and an update without
  coordinates throws; the service wiring uses the intended constructors.
 */
module StoreDto {
  import opened JsValue
  import opened JsText
  import opened Zod

  /** The properties `CreateStoreRequest` copies unchanged. */
  const CreateStoreCopied: set<string> := {
    "code", "name", "company_id", "npwp", "address", "longitude", "latitude",
    "description", "is_active", "is_flex_price", "is_float_price", "tax_percentage", "logo"
  }

  /** Every property a `CreateStoreRequest` has: the copied ones and the two
      converted ones, fifteen in all. */
  const CreateStoreKeys: set<string> := CreateStoreCopied + {"open_date", "poin_config"}

  /** `new CreateStoreRequest(data)`, as written. */
  function CreateStoreRequest(rt: Runtime, data: Props): (r: Props)
    ensures r.Keys == CreateStoreKeys
    ensures forall k :: k in CreateStoreCopied ==> r[k] == Get(data, k)
    ensures r["open_date"] == NewDate(rt, Get(data, "open_date"))
    ensures r["poin_config"] == ParseInt(rt, Get(data, "poin_config"))
  {
    Project(data, CreateStoreCopied)
      ["open_date" := NewDate(rt, Get(data, "open_date"))]
      ["poin_config" := ParseInt(rt, Get(data, "poin_config"))]
  }

  /** `CreateStoreRequest`, with an absent or null `poin_config` left as it is
      instead of becoming `NaN`. */
  function CreateStoreRequestIntended(rt: Runtime, data: Props): (r: Props)
    ensures r.Keys == CreateStoreKeys
    ensures forall k :: k in CreateStoreCopied ==> r[k] == Get(data, k)
    ensures r["open_date"] == NewDate(rt, Get(data, "open_date"))
    ensures Nullish(Get(data, "poin_config")) ==> r["poin_config"] == Get(data, "poin_config")
    ensures !Nullish(Get(data, "poin_config")) ==> r["poin_config"] == ParseInt(rt, Get(data, "poin_config"))
  {
    var poin := Get(data, "poin_config");
    CreateStoreRequest(rt, data)["poin_config" := if Nullish(poin) then poin else ParseInt(rt, poin)]
  }

  /** `CreateStoreRequest.schema()`, in three parts so that each can be
      read on its own: the store's identity, its location and opening, and
      its settings. */
  const CreateStoreSchema: Schema := CreateStoreIdentity + CreateStoreLocation + CreateStoreSettings

  const CreateStoreIdentity: Schema := [
    StringField("code", None, Some(5)),
    StringField("name", Some(5), None),
    FormatField("company_id", Uuid),
    FixedLengthField("npwp", 15),
    StringField("address", Some(10), None)
  ]

  const CreateStoreLocation: Schema := [
    DateField("open_date"),
    NumberField("longitude", Some(-180.0), Some(180.0)),
    NumberField("latitude", Some(-90.0), Some(90.0)),
    NullableOptional(StringField("description", None, None)),
    NullableOptional(BooleanField("is_active"))
  ]

  const CreateStoreSettings: Schema := [
    NullableOptional(BooleanField("is_flex_price")),
    NullableOptional(BooleanField("is_float_price")),
    NullableOptional(NumberField("poin_config", None, None)),
    NullableOptional(NumberField("tax_percentage", None, None)),
    StringField("logo", None, Some(255))
  ]

  /** A valid date: a `Date` that is not an Invalid Date. */
  predicate ValidDate(v: Value)
  {
    v.Date? && v.time.Some?
  }

  /** Absent, null, or a value of the expected base type. */
  predicate NullishOr(v: Value, isKind: bool)
  {
    Nullish(v) || isKind
  }

  /** Code at most 5 characters, name at least 5, a uuid company, an npwp of
      exactly 15 and an address of at least 10, all required. */
  lemma CreateStoreIdentityAccepts(fm: Formats, p: Props)
    ensures Accepts(fm, CreateStoreIdentity, p) <==>
      && StrAtMost(Get(p, "code"), 5)
      && StrAtLeast(Get(p, "name"), 5)
      && UuidValue(fm, Get(p, "company_id"))
      && StrBetween(Get(p, "npwp"), 15, 15)
      && StrAtLeast(Get(p, "address"), 10)
  {
    AcceptsEveryField(fm, CreateStoreIdentity, p);
  }

  /** A valid opening date, longitude in [-180, 180] and latitude in
      [-90, 90], all required; description and the active flag may be
      absent or null. */
  lemma CreateStoreLocationAccepts(fm: Formats, p: Props)
    ensures Accepts(fm, CreateStoreLocation, p) <==>
      && ValidDate(Get(p, "open_date"))
      && NumBetween(Get(p, "longitude"), -180.0, 180.0)
      && NumBetween(Get(p, "latitude"), -90.0, 90.0)
      && NullishOr(Get(p, "description"), Get(p, "description").Str?)
      && NullishOr(Get(p, "is_active"), Get(p, "is_active").Bool?)
  {
    AcceptsEveryField(fm, CreateStoreLocation, p);
  }

  /** The price flags, point configuration and tax percentage may be absent
      or null; the logo is a required string of at most 255 characters. */
  lemma CreateStoreSettingsAccepts(fm: Formats, p: Props)
    ensures Accepts(fm, CreateStoreSettings, p) <==>
      && NullishOr(Get(p, "is_flex_price"), Get(p, "is_flex_price").Bool?)
      && NullishOr(Get(p, "is_float_price"), Get(p, "is_float_price").Bool?)
      && NullishOr(Get(p, "poin_config"), Get(p, "poin_config").Num?)
      && NullishOr(Get(p, "tax_percentage"), Get(p, "tax_percentage").Num?)
      && StrAtMost(Get(p, "logo"), 255)
  {
    AcceptsEveryField(fm, CreateStoreSettings, p);
  }

  /** Whether the create schema accepts `p`: every field of the three parts. */
  function CreateStoreValid(fm: Formats, p: Props): (ok: bool)
    ensures ok <==>
      && StrAtMost(Get(p, "code"), 5)
      && StrAtLeast(Get(p, "name"), 5)
      && UuidValue(fm, Get(p, "company_id"))
      && StrBetween(Get(p, "npwp"), 15, 15)
      && StrAtLeast(Get(p, "address"), 10)
      && ValidDate(Get(p, "open_date"))
      && NumBetween(Get(p, "longitude"), -180.0, 180.0)
      && NumBetween(Get(p, "latitude"), -90.0, 90.0)
      && NullishOr(Get(p, "description"), Get(p, "description").Str?)
      && NullishOr(Get(p, "is_active"), Get(p, "is_active").Bool?)
      && NullishOr(Get(p, "is_flex_price"), Get(p, "is_flex_price").Bool?)
      && NullishOr(Get(p, "is_float_price"), Get(p, "is_float_price").Bool?)
      && NullishOr(Get(p, "poin_config"), Get(p, "poin_config").Num?)
      && NullishOr(Get(p, "tax_percentage"), Get(p, "tax_percentage").Num?)
      && StrAtMost(Get(p, "logo"), 255)
  {
    AcceptsConcat(fm, CreateStoreIdentity + CreateStoreLocation, CreateStoreSettings, p);
    AcceptsConcat(fm, CreateStoreIdentity, CreateStoreLocation, p);
    CreateStoreIdentityAccepts(fm, p);
    CreateStoreLocationAccepts(fm, p);
    CreateStoreSettingsAccepts(fm, p);
    Accepts(fm, CreateStoreSchema, p)
  }

  /** The create schema accepts a point configuration that is absent, null
      or a number alike: two objects that differ at most there are both
      valid or both invalid. */
  lemma CreateStoreValidIgnoresPoin(fm: Formats, p: Props, q: Props)
    requires forall k :: k in CreateStoreCopied + {"open_date"} ==> Get(p, k) == Get(q, k)
    requires NullishOr(Get(p, "poin_config"), Get(p, "poin_config").Num?)
    requires NullishOr(Get(q, "poin_config"), Get(q, "poin_config").Num?)
    ensures CreateStoreValid(fm, p) <==> CreateStoreValid(fm, q)
  {
  }

  /** As written, a create request without a point configuration is always
      rejected: `parseInt(undefined)` and `parseInt(null)` are `NaN`, which
      `z.number().nullable().optional()` refuses. */
  lemma CreateStoreWithoutPoinConfigRejected(rt: Runtime, fm: Formats, data: Props)
    requires Nullish(Get(data, "poin_config"))
    ensures !CreateStoreValid(fm, CreateStoreRequest(rt, data))
  {
    assert CreateStoreRequest(rt, data)["poin_config"] == NaN;
  }

  /** As intended, sending "0" for an absent point configuration changes
      the request only in its point configuration. */
  lemma CreateStoreSendingZeroPoin(rt: Runtime, data: Props)
    requires Get(data, "poin_config") == Undefined
    ensures forall k :: k in CreateStoreCopied + {"open_date"} ==>
      Get(CreateStoreRequestIntended(rt, data["poin_config" := Str("0")]), k) == Get(CreateStoreRequestIntended(rt, data), k)
  {
    var with0 := data["poin_config" := Str("0")];
    assert "poin_config" !in CreateStoreCopied && "poin_config" != "open_date";
    forall k | k in CreateStoreCopied + {"open_date"}
      ensures Get(CreateStoreRequestIntended(rt, with0), k) == Get(CreateStoreRequestIntended(rt, data), k)
    {
      assert Get(data, k) == Get(with0, k);
    }
  }

  /** As intended, leaving out the point configuration is accepted exactly
      when sending "0" for it would be. */
  lemma CreateStorePoinConfigOptional(rt: Runtime, fm: Formats, data: Props)
    requires Get(data, "poin_config") == Undefined
    ensures CreateStoreValid(fm, CreateStoreRequestIntended(rt, data))
        <==> CreateStoreValid(fm, CreateStoreRequestIntended(rt, data["poin_config" := Str("0")]))
  {
    CreateStoreSendingZeroPoin(rt, data);
    assert Get(CreateStoreRequestIntended(rt, data["poin_config" := Str("0")]), "poin_config") == Num(0.0) by {
      ParseIntRoundTrip(rt, 0);
      assert IntToString(0) == "0";
    }
    var without := CreateStoreRequestIntended(rt, data);
    assert Get(without, "poin_config") == Undefined;
    CreateStoreValidIgnoresPoin(fm, without, CreateStoreRequestIntended(rt, data["poin_config" := Str("0")]));
  }

  /** The properties `UpdateStoreRequest` copies unchanged. */
  const UpdateStoreCopied: set<string> := {
    "code", "name", "npwp", "address", "description", "is_active", "is_flex_price", "is_float_price", "logo"
  }

  /** Every property an `UpdateStoreRequest` has: thirteen, never
      `company_id` nor `tax_percentage`. */
  const UpdateStoreKeys: set<string> := UpdateStoreCopied + {"open_date", "longitude", "latitude", "poin_config"}

  /** The object both update constructors build, from the converted
      opening date, coordinates and point configuration. */
  function UpdateStoreOf(data: Props, openDate: Value, longitude: Value, latitude: Value, poin: Value): (r: Props)
    ensures r.Keys == UpdateStoreKeys
    ensures forall k :: k in UpdateStoreCopied ==> r[k] == Get(data, k)
    ensures r["open_date"] == openDate && r["poin_config"] == poin
    ensures r["longitude"] == longitude && r["latitude"] == latitude
  {
    Project(data, UpdateStoreCopied)
      ["open_date" := openDate]["longitude" := longitude]["latitude" := latitude]["poin_config" := poin]
  }

  /** `new UpdateStoreRequest(data)`, as written: the coordinates go through
      `parseFloat(v.toString())`, which throws when either is missing (the
      longitude is converted first). */
  function UpdateStoreRequest(rt: Runtime, data: Props): (r: Outcome<Props>)
    ensures r.Throw? <==> Nullish(Get(data, "longitude")) || Nullish(Get(data, "latitude"))
    ensures r.Ok? ==> r.value.Keys == UpdateStoreKeys
    ensures r.Ok? ==> forall k :: k in UpdateStoreCopied ==> r.value[k] == Get(data, k)
    ensures r.Ok? ==> r.value["open_date"] == NewDate(rt, Get(data, "open_date"))
    ensures r.Ok? ==> r.value["poin_config"] == ParseInt(rt, Get(data, "poin_config"))
    ensures r.Ok? ==> Ok(r.value["longitude"]) == ParseFloatOfString(rt, Get(data, "longitude"))
    ensures r.Ok? ==> Ok(r.value["latitude"]) == ParseFloatOfString(rt, Get(data, "latitude"))
  {
    var longitude :- ParseFloatOfString(rt, Get(data, "longitude"));
    var latitude :- ParseFloatOfString(rt, Get(data, "latitude"));
    Ok(UpdateStoreOf(data, NewDate(rt, Get(data, "open_date")), longitude, latitude,
                     ParseInt(rt, Get(data, "poin_config"))))
  }

  /** `parseFloat(v.toString())` for a given coordinate. */
  function Coordinate(rt: Runtime, v: Value): (r: Value)
    requires !Nullish(v)
    ensures Ok(r) == ParseFloatOfString(rt, v)
  {
    match ParseFloatOfString(rt, v)
    case Ok(x) => x
    case Throw(_) => assert false; NaN
  }

  /** `UpdateStoreRequest` as its all-optional schema intends it: each
      converted property is converted only when given, so it never throws
      and a field the caller left out stays out. */
  function UpdateStoreRequestIntended(rt: Runtime, data: Props): (r: Props)
    ensures r.Keys == UpdateStoreKeys
    ensures forall k :: k in UpdateStoreCopied ==> r[k] == Get(data, k)
    ensures forall k :: k in r && Nullish(Get(data, k)) ==> r[k] == Get(data, k)
    ensures !Nullish(Get(data, "longitude")) ==> Ok(r["longitude"]) == ParseFloatOfString(rt, Get(data, "longitude"))
    ensures !Nullish(Get(data, "latitude")) ==> Ok(r["latitude"]) == ParseFloatOfString(rt, Get(data, "latitude"))
    ensures !Nullish(Get(data, "open_date")) ==> r["open_date"] == NewDate(rt, Get(data, "open_date"))
    ensures !Nullish(Get(data, "poin_config")) ==> r["poin_config"] == ParseInt(rt, Get(data, "poin_config"))
  {
    var openDate := Get(data, "open_date");
    var longitude := Get(data, "longitude");
    var latitude := Get(data, "latitude");
    var poin := Get(data, "poin_config");
    var r := UpdateStoreOf(data,
      if Nullish(openDate) then openDate else NewDate(rt, openDate),
      if Nullish(longitude) then longitude else Coordinate(rt, longitude),
      if Nullish(latitude) then latitude else Coordinate(rt, latitude),
      if Nullish(poin) then poin else ParseInt(rt, poin));
    assert forall k :: k in r && Nullish(Get(data, k)) ==> r[k] == Get(data, k) by {
      forall k | k in r && Nullish(Get(data, k))
        ensures r[k] == Get(data, k)
      {
        if k !in UpdateStoreCopied {
          assert k in {"open_date", "longitude", "latitude", "poin_config"};
        }
      }
    }
    r
  }

  /** `UpdateStoreRequest.schema()`: every field optional, in three parts
      like the create schema's: identity, location and opening, settings. */
  const UpdateStoreSchema: Schema := UpdateStoreIdentity + UpdateStoreLocation + UpdateStoreSettings

  const UpdateStoreIdentity: Schema := [
    Optional(StringField("code", None, Some(5))),
    Optional(StringField("name", Some(5), None)),
    Optional(FixedLengthField("npwp", 15)),
    Optional(StringField("address", Some(10), None))
  ]

  const UpdateStoreLocation: Schema := [
    Optional(DateField("open_date")),
    Optional(NumberField("longitude", None, None)),
    Optional(NumberField("latitude", None, None))
  ]

  const UpdateStoreSettings: Schema := [
    NullableOptional(StringField("description", None, None)),
    NullableOptional(BooleanField("is_active")),
    NullableOptional(BooleanField("is_flex_price")),
    NullableOptional(BooleanField("is_float_price")),
    NullableOptional(NumberField("poin_config", None, None)),
    NullableOptional(StringField("logo", None, None))
  ]

  /** Absent, or a value meeting the field's requirement. */
  predicate AbsentOr(v: Value, holds: bool)
  {
    v == Undefined || holds
  }

  /** A given code has at most 5 characters, a given name at least 5, a
      given npwp exactly 15 and a given address at least 10. */
  lemma UpdateStoreIdentityAccepts(fm: Formats, p: Props)
    ensures Accepts(fm, UpdateStoreIdentity, p) <==>
      && AbsentOr(Get(p, "code"), StrAtMost(Get(p, "code"), 5))
      && AbsentOr(Get(p, "name"), StrAtLeast(Get(p, "name"), 5))
      && AbsentOr(Get(p, "npwp"), StrBetween(Get(p, "npwp"), 15, 15))
      && AbsentOr(Get(p, "address"), StrAtLeast(Get(p, "address"), 10))
  {
    AcceptsEveryField(fm, UpdateStoreIdentity, p);
  }

  /** A given opening date is valid; given coordinates are any number,
      without the create ranges. */
  lemma UpdateStoreLocationAccepts(fm: Formats, p: Props)
    ensures Accepts(fm, UpdateStoreLocation, p) <==>
      && AbsentOr(Get(p, "open_date"), ValidDate(Get(p, "open_date")))
      && AbsentOr(Get(p, "longitude"), Get(p, "longitude").Num?)
      && AbsentOr(Get(p, "latitude"), Get(p, "latitude").Num?)
  {
    AcceptsEveryField(fm, UpdateStoreLocation, p);
  }

  /** Description, flags, point configuration and logo may be absent or
      null; the logo may be null here although create requires it. */
  lemma UpdateStoreSettingsAccepts(fm: Formats, p: Props)
    ensures Accepts(fm, UpdateStoreSettings, p) <==>
      && NullishOr(Get(p, "description"), Get(p, "description").Str?)
      && NullishOr(Get(p, "is_active"), Get(p, "is_active").Bool?)
      && NullishOr(Get(p, "is_flex_price"), Get(p, "is_flex_price").Bool?)
      && NullishOr(Get(p, "is_float_price"), Get(p, "is_float_price").Bool?)
      && NullishOr(Get(p, "poin_config"), Get(p, "poin_config").Num?)
      && NullishOr(Get(p, "logo"), Get(p, "logo").Str?)
  {
    AcceptsEveryField(fm, UpdateStoreSettings, p);
    var s := UpdateStoreSettings;
    assert |s| == 6;
    assert s[0].name == "description" && s[1].name == "is_active" && s[2].name == "is_flex_price";
    assert s[3].name == "is_float_price" && s[4].name == "poin_config" && s[5].name == "logo";
  }

  /** Whether the update schema accepts `p`. */
  function UpdateStoreValid(fm: Formats, p: Props): (ok: bool)
    ensures ok <==>
      && AbsentOr(Get(p, "code"), StrAtMost(Get(p, "code"), 5))
      && AbsentOr(Get(p, "name"), StrAtLeast(Get(p, "name"), 5))
      && AbsentOr(Get(p, "npwp"), StrBetween(Get(p, "npwp"), 15, 15))
      && AbsentOr(Get(p, "address"), StrAtLeast(Get(p, "address"), 10))
      && AbsentOr(Get(p, "open_date"), ValidDate(Get(p, "open_date")))
      && AbsentOr(Get(p, "longitude"), Get(p, "longitude").Num?)
      && AbsentOr(Get(p, "latitude"), Get(p, "latitude").Num?)
      && NullishOr(Get(p, "description"), Get(p, "description").Str?)
      && NullishOr(Get(p, "is_active"), Get(p, "is_active").Bool?)
      && NullishOr(Get(p, "is_flex_price"), Get(p, "is_flex_price").Bool?)
      && NullishOr(Get(p, "is_float_price"), Get(p, "is_float_price").Bool?)
      && NullishOr(Get(p, "poin_config"), Get(p, "poin_config").Num?)
      && NullishOr(Get(p, "logo"), Get(p, "logo").Str?)
  {
    AcceptsConcat(fm, UpdateStoreIdentity + UpdateStoreLocation, UpdateStoreSettings, p);
    AcceptsConcat(fm, UpdateStoreIdentity, UpdateStoreLocation, p);
    UpdateStoreIdentityAccepts(fm, p);
    UpdateStoreLocationAccepts(fm, p);
    UpdateStoreSettingsAccepts(fm, p);
    Accepts(fm, UpdateStoreSchema, p)
  }

  /** As written, an update that only renames a store throws: its missing
      longitude has no `toString`. */
  lemma RenameOnlyUpdateThrows(rt: Runtime, name: string)
    ensures UpdateStoreRequest(rt, map["name" := Str(name)]).Throw?
  {
    assert Get(map["name" := Str(name)], "longitude") == Undefined;
  }

  /** As written, even with both coordinates given, an update without an
      opening date or without a point configuration never validates:
      `new Date(undefined)` is an Invalid Date and `parseInt(undefined)` is
      `NaN`. */
  lemma UpdateStoreWithoutDateOrPoinRejected(rt: Runtime, fm: Formats, data: Props)
    requires Get(data, "open_date") == Undefined || Nullish(Get(data, "poin_config"))
    requires UpdateStoreRequest(rt, data).Ok?
    ensures !UpdateStoreValid(fm, UpdateStoreRequest(rt, data).value)
  {
  }

  /** As intended, an update that only renames a store is valid exactly
      when the new name has at least 5 characters. */
  lemma RenameOnlyUpdateIntended(rt: Runtime, fm: Formats, name: string)
    ensures UpdateStoreValid(fm, UpdateStoreRequestIntended(rt, map["name" := Str(name)])) <==> CodeUnits(name) >= 5
  {
    var data := map["name" := Str(name)];
    var r := UpdateStoreRequestIntended(rt, data);
    forall k | k in r && k != "name"
      ensures r[k] == Undefined
    {
      assert Get(data, k) == Undefined;
    }
    assert r["name"] == Str(name);
  }
}

=== FILE: topology.dfy ===
/**
  The service's broker topology at startup: the queue it consumes (with
  manual acknowledgement, declared durable), the topic bindings it
  subscribes that queue to, and the order of the startup steps.  Binding
  keys are matched against routing keys as in section 3.1.3.3 of the
  AMQP 0-9-1 specification: words are separated by dots, `*` stands for
  exactly one word and `#` for zero or more.
 */
module Topology {
  import opened JsValue
  import Messaging
  import OwnerController
  import EmployeeController
  import Seeder

  const DefaultQueue := "master_service_queue_1"

  /** `process.env.RMQ_QUEUE_NAME || 'master_service_queue_1'` */
  function QueueName(configured: Option<string>): (name: string)
    ensures configured.Some? && configured.value != "" ==> name == configured.value
    ensures configured.None? || configured.value == "" ==> name == DefaultQueue
  {
    if configured.Some? && configured.value != "" then configured.value else DefaultQueue
  }

  /** The options of the RabbitMQ microservice. */
  datatype RmqOptions = RmqOptions(queue: string, noAck: bool, durable: bool)

  /** The queue the service consumes, with `noAck: false` and
      `queueOptions: { durable: true }`. */
  function Options(configured: Option<string>): (o: RmqOptions)
    ensures o.queue == QueueName(configured) && !o.noAck && o.durable
  {
    RmqOptions(QueueName(configured), false, true)
  }

  const RoutingKeys: seq<string> := ["password.changed", "company.*", "store.*", "owner.*", "employee.*"]

  /** The applications a handler can run in: the HTTP application that
      `NestFactory.create` returns and the two microservices connected to it. */
  datatype Transport = Http | Tcp | Rmq

  /** A step of `bootstrap()`.  `UseExceptionFilter` is
      `app.useGlobalFilters(...)`, which configures the HTTP application; a
      microservice shares that configuration only when it is connected with
      `{ inheritAppConfig: true }`. */
  datatype Step =
    | UseExceptionFilter
    | ConnectTcp(inheritAppConfig: bool)
    | ConnectRmq(options: RmqOptions, inheritAppConfig: bool)
    | SetupSubscription(queue: string, routingKeys: seq<string>)
    | StartAll

  /** Whether a global filter registered by `steps` handles the exceptions
      of handlers running in `t`. */
  predicate FilterCovers(steps: seq<Step>, t: Transport)
  {
    && (exists i :: 0 <= i < |steps| && steps[i].UseExceptionFilter?)
    && match t
       case Http => true
       case Tcp => exists i :: 0 <= i < |steps| && steps[i].ConnectTcp? && steps[i].inheritAppConfig
       case Rmq => exists i :: 0 <= i < |steps| && steps[i].ConnectRmq? && steps[i].inheritAppConfig
  }

  /** `bootstrap()` as written: both microservices are connected without
      `inheritAppConfig`, so the global filter reaches HTTP handlers only. */
  function Bootstrap(configured: Option<string>): (steps: seq<Step>)
    ensures |steps| >= 2 && steps[|steps| - 1] == StartAll
    ensures steps[|steps| - 2] == SetupSubscription(QueueName(configured), RoutingKeys)
    ensures forall i :: 0 <= i < |steps| && steps[i].ConnectRmq? ==> steps[i].options == Options(configured)
    ensures FilterCovers(steps, Http)
    ensures !FilterCovers(steps, Tcp) && !FilterCovers(steps, Rmq)
  {
    var steps := [UseExceptionFilter, ConnectTcp(false), ConnectRmq(Options(configured), false),
                  SetupSubscription(QueueName(configured), RoutingKeys), StartAll];
    assert steps[0].UseExceptionFilter?;
    steps
  }

  /** `bootstrap()` with both microservices connected with
      `{ inheritAppConfig: true }`: the same startup, and the filter
      reaches the handlers of every transport. */
  function BootstrapIntended(configured: Option<string>): (steps: seq<Step>)
    ensures |steps| >= 2 && steps[|steps| - 1] == StartAll
    ensures steps[|steps| - 2] == SetupSubscription(QueueName(configured), RoutingKeys)
    ensures forall i :: 0 <= i < |steps| && steps[i].ConnectRmq? ==> steps[i].options == Options(configured)
    ensures forall t: Transport :: FilterCovers(steps, t)
  {
    var steps := [UseExceptionFilter, ConnectTcp(true), ConnectRmq(Options(configured), true),
                  SetupSubscription(QueueName(configured), RoutingKeys), StartAll];
    assert steps[0].UseExceptionFilter? && steps[1].ConnectTcp? && steps[2].ConnectRmq?;
    steps
  }

  /** The queue consumed by default is the one the seeder names as the
      origin of its messages. */
  lemma DefaultQueueIsSeederOrigin()
    ensures QueueName(None) == Seeder.OriginQueue
  {
  }

  // Topic matching

  /** The dot-separated words of a key. */
  function Words(s: string): (w: seq<string>)
    ensures |w| > 0
    decreases |s|
  {
    if |s| == 0 then [""]
    else if s[0] == '.' then [""] + Words(s[1..])
    else
      var rest := Words(s[1..]);
      [[s[0]] + rest[0]] + rest[1..]
  }

  predicate NoDot(w: string)
  {
    forall i :: 0 <= i < |w| ==> w[i] != '.'
  }

  lemma {:induction false} WordsOfWord(w: string)
    requires NoDot(w)
    ensures Words(w) == [w]
    decreases |w|
  {
    if |w| > 0 {
      WordsOfWord(w[1..]);
      assert [w[0]] + w[1..] == w;
    }
  }

  lemma {:induction false} WordsOfDotted(w: string, rest: string)
    requires NoDot(w)
    ensures Words(w + ['.'] + rest) == [w] + Words(rest)
    decreases |w|
  {
    var s := w + ['.'] + rest;
    if |w| == 0 {
      assert s == ['.'] + rest;
      assert s[1..] == rest;
    } else {
      assert s[1..] == w[1..] + ['.'] + rest;
      WordsOfDotted(w[1..], rest);
      assert [w[0]] + w[1..] == w;
    }
  }

  /** Whether binding words `b` match routing-key words `k`. */
  predicate TopicMatch(b: seq<string>, k: seq<string>)
    decreases |b| + |k|
  {
    if |b| == 0 then |k| == 0
    else if b[0] == "#" then TopicMatch(b[1..], k) || (|k| > 0 && TopicMatch(b, k[1..]))
    else if b[0] == "*" then |k| > 0 && TopicMatch(b[1..], k[1..])
    else |k| > 0 && k[0] == b[0] && TopicMatch(b[1..], k[1..])
  }

  /** A binding key routes messages of a routing key to the queue. */
  predicate Binds(bindingKey: string, routingKey: string)
  {
    TopicMatch(Words(bindingKey), Words(routingKey))
  }

  /** A binding `w.*` matches exactly the two-word keys starting with `w`. */
  lemma OneWordWildcard(w: string, k: seq<string>)
    requires w != "#" && w != "*"
    ensures TopicMatch([w, "*"], k) <==> |k| == 2 && k[0] == w
  {
    assert [w, "*"][1..] == ["*"];
    if |k| > 0 {
      assert ["*"][1..] == [];
      if |k| > 1 {
        assert TopicMatch(["*"], k[1..]) <==> |k[1..][1..]| == 0;
      }
    }
  }

  /** A binding without wildcards matches exactly its own words. */
  lemma {:induction false} LiteralBinding(b: seq<string>, k: seq<string>)
    requires forall i :: 0 <= i < |b| ==> b[i] != "#" && b[i] != "*"
    ensures TopicMatch(b, k) <==> b == k
    decreases |b|
  {
    if |b| > 0 {
      if |k| > 0 {
        LiteralBinding(b[1..], k[1..]);
        if b[0] == k[0] && b[1..] == k[1..] {
          assert b == [b[0]] + b[1..] && k == [k[0]] + k[1..];
        }
      }
    }
  }

  /** The routing key `w.rest` for words without dots. */
  lemma TwoWords(w: string, rest: string)
    requires NoDot(w) && NoDot(rest)
    ensures Words(w + ['.'] + rest) == [w, rest]
  {
    WordsOfDotted(w, rest);
    WordsOfWord(rest);
  }

  /** `entity.*` binds `entity.event` for a one-word entity and event. */
  lemma EntityBinding(entity: string, event: string)
    requires NoDot(entity) && NoDot(event) && entity != "#" && entity != "*"
    ensures Binds(entity + ['.'] + "*", entity + ['.'] + event)
  {
    TwoWords(entity, event);
    TwoWords(entity, "*");
    OneWordWildcard(entity, [entity, event]);
  }

  /** A pattern `entity.event` is bound when `entity.*` is a routing key. */
  lemma PatternBound(entity: string, event: string, i: nat)
    requires NoDot(entity) && NoDot(event) && entity != "#" && entity != "*"
    requires i < |RoutingKeys| && RoutingKeys[i] == entity + ['.'] + "*"
    ensures exists b :: b in RoutingKeys && Binds(b, entity + ['.'] + event)
  {
    EntityBinding(entity, event);
  }

  /** `owner.*` binds every one-word owner event. */
  lemma OwnerEventBound(event: string)
    requires NoDot(event)
    ensures exists b :: b in RoutingKeys && Binds(b, "owner" + ['.'] + event)
  {
    assert RoutingKeys[3] == "owner" + ['.'] + "*";
    PatternBound("owner", event, 3);
  }

  /** `employee.*` binds every one-word employee event. */
  lemma EmployeeEventBound(event: string)
    requires NoDot(event)
    ensures exists b :: b in RoutingKeys && Binds(b, "employee" + ['.'] + event)
  {
    assert RoutingKeys[4] == "employee" + ['.'] + "*";
    PatternBound("employee", event, 4);
  }

  /** Every replicated pattern the owner controller handles is bound. */
  lemma OwnerPatternsAreBound()
    ensures forall h :: h in OwnerController.Handlers ==> exists b :: b in RoutingKeys && Binds(b, h.pattern)
  {
    forall h | h in OwnerController.Handlers
      ensures exists b :: b in RoutingKeys && Binds(b, h.pattern)
    {
      var event := h.pattern[6..];
      assert h.pattern == "owner" + ['.'] + event;
      OwnerEventBound(event);
    }
  }

  /** Every replicated pattern the employee controller handles is bound. */
  lemma EmployeePatternsAreBound()
    ensures forall h :: h in EmployeeController.Handlers ==> exists b :: b in RoutingKeys && Binds(b, h.pattern)
  {
    forall h | h in EmployeeController.Handlers
      ensures exists b :: b in RoutingKeys && Binds(b, h.pattern)
    {
      var event := h.pattern[9..];
      assert h.pattern == "employee" + ['.'] + event;
      EmployeeEventBound(event);
    }
  }

  /** `password.changed`, which the employee controller consumes, is bound
      by the literal key of the same name. */
  lemma PasswordChangedIsBound()
    ensures Binds(RoutingKeys[0], EmployeeController.PasswordChangedPattern)
  {
    PasswordChangedWords();
    LiteralBinding(["password", "changed"], ["password", "changed"]);
  }

  lemma PasswordChangedWords()
    ensures Words(RoutingKeys[0]) == ["password", "changed"]
    ensures Words(EmployeeController.PasswordChangedPattern) == ["password", "changed"]
  {
    assert RoutingKeys[0] == "password" + ['.'] + "changed";
    assert EmployeeController.PasswordChangedPattern == "password" + ['.'] + "changed";
    TwoWords("password", "changed");
  }

  /** A binding starting with a plain word misses every key whose first
      word differs. */
  lemma FirstWordMismatch(b: seq<string>, k: seq<string>)
    requires |b| > 0 && b[0] != "#" && b[0] != "*"
    requires |k| == 0 || k[0] != b[0]
    ensures !TopicMatch(b, k)
  {
  }

  /** Each binding key is two words, the first a plain word other than
      `dlq`. */
  lemma BindingWords(i: nat)
    requires i < |RoutingKeys|
    ensures var w := Words(RoutingKeys[i]);
      |w| == 2 && w[0] != "dlq" && w[0] != "#" && w[0] != "*"
  {
    if i == 0 {
      assert RoutingKeys[0] == "password" + ['.'] + "changed";
      TwoWords("password", "changed");
    } else if i == 1 {
      assert RoutingKeys[1] == "company" + ['.'] + "*";
      TwoWords("company", "*");
    } else if i == 2 {
      assert RoutingKeys[2] == "store" + ['.'] + "*";
      TwoWords("store", "*");
    } else if i == 3 {
      assert RoutingKeys[3] == "owner" + ['.'] + "*";
      TwoWords("owner", "*");
    } else {
      assert RoutingKeys[4] == "employee" + ['.'] + "*";
      TwoWords("employee", "*");
    }
  }

  /** No binding routes a dead-letter key `dlq.<anything>` back to the
      service's own queue. */
  lemma DeadLettersAreNotBound(rest: string)
    ensures forall b :: b in RoutingKeys ==> !Binds(b, Messaging.DlqPrefix + rest)
  {
    assert Messaging.DlqPrefix + rest == "dlq" + ['.'] + rest;
    WordsOfDotted("dlq", rest);
    var k := Words(Messaging.DlqPrefix + rest);
    assert k[0] == "dlq";
    forall i | 0 <= i < |RoutingKeys|
      ensures !Binds(RoutingKeys[i], Messaging.DlqPrefix + rest)
    {
      BindingWords(i);
      FirstWordMismatch(Words(RoutingKeys[i]), k);
    }
  }
}

=== FILE: zod.dfy ===
/**
  The fragment of the zod schema library the request DTOs use: an object
  schema whose fields are strings (with length, email and uuid checks,
  lengths in UTF-16 code units),
  numbers (with inclusive bounds), booleans or dates, each possibly
  `.nullable()` and/or `.optional()`.  Parsing an object keeps only the
  schema's keys (zod's default "strip" behaviour for unknown keys).  The
  email and uuid grammars stay abstract.
 */
module Zod {
  import opened JsValue

  /** The string formats zod checks: none, `.email()` or `.uuid()`. */
  datatype Format = AnyText | Email | Uuid

  /** The checks chained on a `z.string()`: `.min(n)`, `.max(n)`, `.length(n)`
      and a format. */
  datatype StringChecks = StringChecks(min: Option<nat>, max: Option<nat>, length: Option<nat>, format: Format)

  datatype Kind =
    | ZString(checks: StringChecks)
    | ZNumber(lower: Option<real>, upper: Option<real>)
    | ZBoolean
    | ZDate

  datatype Field = Field(name: string, kind: Kind, nullable: bool, optional: bool)

  /** `z.object({...})`, fields in declaration order. */
  type Schema = seq<Field>

  /** What zod checks without this model spelling it out: its email and uuid
      formats, and the text of the error a failed parse throws. */
  datatype Formats = Formats(isEmail: string -> bool, isUuid: string -> bool, issueText: string)

  predicate ChecksHold(fm: Formats, c: StringChecks, s: string)
  {
    && (c.min.Some? ==> CodeUnits(s) >= c.min.value)
    && (c.max.Some? ==> CodeUnits(s) <= c.max.value)
    && (c.length.Some? ==> CodeUnits(s) == c.length.value)
    && (c.format == Email ==> fm.isEmail(s))
    && (c.format == Uuid ==> fm.isUuid(s))
  }

  /** The base type check: NaN is not a number, an Invalid Date is not a date. */
  predicate KindAccepts(fm: Formats, k: Kind, v: Value)
  {
    match k
    case ZString(checks) => v.Str? && ChecksHold(fm, checks, v.s)
    case ZNumber(lower, upper) =>
      v.Num? && (lower.Some? ==> lower.value <= v.n) && (upper.Some? ==> v.n <= upper.value)
    case ZBoolean => v.Bool?
    case ZDate => v.Date? && v.time.Some?
  }

  /** `.optional()` admits `undefined`, `.nullable()` admits `null`. */
  predicate FieldAccepts(fm: Formats, f: Field, v: Value)
  {
    if v == Undefined then f.optional
    else if v == Null then f.nullable
    else KindAccepts(fm, f.kind, v)
  }

  /** Every field of the schema accepts the property of the same name. */
  predicate Accepts(fm: Formats, schema: Schema, p: Props)
    decreases |schema|
  {
    |schema| == 0 || (FieldAccepts(fm, schema[0], Get(p, schema[0].name)) && Accepts(fm, schema[1..], p))
  }

  /** `Accepts` field by field. */
  lemma {:induction false} AcceptsEveryField(fm: Formats, schema: Schema, p: Props)
    ensures Accepts(fm, schema, p) <==>
      forall i :: 0 <= i < |schema| ==> FieldAccepts(fm, schema[i], Get(p, schema[i].name))
  {
    if |schema| > 0 {
      AcceptsEveryField(fm, schema[1..], p);
      assert forall i :: 1 <= i < |schema| ==> schema[i] == schema[1..][i - 1];
    }
  }

  /** A schema built by concatenation accepts what both parts accept. */
  lemma {:induction false} AcceptsConcat(fm: Formats, a: Schema, b: Schema, p: Props)
    ensures Accepts(fm, a + b, p) <==> Accepts(fm, a, p) && Accepts(fm, b, p)
  {
    if |a| > 0 {
      assert (a + b)[1..] == a[1..] + b;
      AcceptsConcat(fm, a[1..], b, p);
    } else {
      assert a + b == b;
    }
  }

  function Keys(schema: Schema): (ks: set<string>)
    ensures forall k :: k in ks <==> exists i :: 0 <= i < |schema| && schema[i].name == k
  {
    set i | 0 <= i < |schema| :: schema[i].name
  }

  /** `schema.parse(v)`: throws unless `v` is an object every field accepts;
      the result keeps exactly the schema's keys that `v` has. */
  function Parse(fm: Formats, schema: Schema, v: Value): (r: Outcome<Props>)
    ensures r.Ok? <==> v.Obj? && Accepts(fm, schema, v.props)
    ensures r.Throw? ==> r.exception == Error(fm.issueText)
    ensures r.Ok? ==> forall k :: k in r.value <==> k in v.props && k in Keys(schema)
    ensures r.Ok? ==> forall k :: k in r.value ==> r.value[k] == v.props[k]
  {
    if v.Obj? && Accepts(fm, schema, v.props) then
      Ok(map k | k in v.props && k in Keys(schema) :: v.props[k])
    else
      Throw(Error(fm.issueText))
  }

  // The requirements the DTO schemas state, spelled out field by field.

  /** A string of length within `min..max` (both inclusive), the length
      counted in UTF-16 code units as JavaScript does. */
  predicate StrBetween(v: Value, min: nat, max: nat)
  {
    v.Str? && min <= CodeUnits(v.s) <= max
  }

  predicate StrAtLeast(v: Value, min: nat)
  {
    v.Str? && min <= CodeUnits(v.s)
  }

  /** Three emoji are three characters but six UTF-16 code units, so they
      pass a five-character minimum such as `min(5)` on a name. */
  lemma EmojiPassesMinimum()
    ensures |"\U{1F600}\U{1F600}\U{1F600}"| == 3
    ensures StrAtLeast(Str("\U{1F600}\U{1F600}\U{1F600}"), 5)
  {
    EmojiLength();
  }

  predicate StrAtMost(v: Value, max: nat)
  {
    v.Str? && CodeUnits(v.s) <= max
  }

  predicate EmailValue(fm: Formats, v: Value)
  {
    v.Str? && fm.isEmail(v.s)
  }

  predicate UuidValue(fm: Formats, v: Value)
  {
    v.Str? && fm.isUuid(v.s)
  }

  /** A finite number within `lower..upper` (both inclusive). */
  predicate NumBetween(v: Value, lower: real, upper: real)
  {
    v.Num? && lower <= v.n <= upper
  }

  /** `undefined` or `null` */
  predicate Nullish(v: Value)
  {
    v == Undefined || v == Null
  }

  // Schema builders, named after the zod calls they stand for.

  /** `z.string()` with optional `.min`, `.max` bounds */
  function StringField(name: string, min: Option<nat>, max: Option<nat>): Field
  {
    Field(name, ZString(StringChecks(min, max, None, AnyText)), false, false)
  }

  /** `z.string().length(n)` */
  function FixedLengthField(name: string, length: nat): Field
  {
    Field(name, ZString(StringChecks(None, None, Some(length), AnyText)), false, false)
  }

  /** `z.string().email()` or `z.string().uuid()` */
  function FormatField(name: string, format: Format): Field
  {
    Field(name, ZString(StringChecks(None, None, None, format)), false, false)
  }

  function NumberField(name: string, lower: Option<real>, upper: Option<real>): Field
  {
    Field(name, ZNumber(lower, upper), false, false)
  }

  function BooleanField(name: string): Field
  {
    Field(name, ZBoolean, false, false)
  }

  function DateField(name: string): Field
  {
    Field(name, ZDate, false, false)
  }

  /** `.optional()` */
  function Optional(f: Field): Field
  {
    f.(optional := true)
  }

  /** `.nullable().optional()` */
  function NullableOptional(f: Field): Field
  {
    f.(optional := true, nullable := true)
  }
}
